=== FILE: README.md ===
# RhymeCraft rules engine in Dafny

RhymeCraft is a turn-based tactics game on a tile grid. The player's wizard
gathers words from magic circles. The player arranges those words into a poem
in the crafting panel. A poem that matches an entry of the spell book summons
a unit next to the wizard, paid for in mana. The player's units and the
monsters take turns spending action points to walk and attack. The game
state lives in an entity registry. Behaviours run over it each frame in a
fixed order, and creations and removals are committed only at the end of a
logic tick.

This project models that rules engine as pure Dafny functions and proves
properties about it. It has one module per source file:

- `IdMaps`: the id mint and the swap-remove registry of `src/engine/id_map.rs`.
- `Scheduler`: the behaviour lists of `src/engine/world.rs` and the two-phase
  commit of `World::logic`.
- `Pipeline`: the registration order of `src/main.rs`, with the parent
  cascade last.
- `Game`: the records and helpers of `src/game_state.rs`.
- `Grid` and `Map`: `src/map.rs`. `Grid` holds the autotile classifier, the
  clamped cell index and tile solidity. `Map` holds the `create_map` tile
  loop, `InventoryLogic` and the flag-setting half of `VictoryLogic`.
- `PathSearch` and `Orders`: `src/path.rs`. `PathSearch` is the A* search of
  `make_path`, with its action-point budget and its fallback to the nearest
  explored tile; the path it finds is a shortest one within the action
  points. `Orders` holds `order_unit`, `PathableInput` and
  `OrdersLogic`.
- `Turn`: `TurnLogic` of `src/turn.rs`.
- `Unit`: the factories and behaviours of `src/unit.rs`.
- `Craft`: spell normalisation and `load_spells` of `src/craft.rs`.
- `GameUi`: the spell editor of `src/game_ui.rs`.
- `Cursor`: `src/cursor.rs`.
- `Parent`: the removal cascade of `src/parent.rs`.
- `Effect` and `Announce`: the object factories of `src/effect.rs` and
  `src/announce.rs`.
- `Util` and `Words`: the integer helpers of `src/util.rs`, and the Rust
  integer and string semantics that the rest relies on.

How the model represents the source:

- A behaviour is a function from the registry's element slice and the game
  state to new ones. It may change objects in place and queue creations and
  removals in the state. Every modelled behaviour keeps each id in its slot,
  and `World::logic` relies on this.
- The shared map data, a reference-counted cell in the source, is a value
  field of the map object. A behaviour reads the current map object's data
  and writes it back.
- Positions, camera offsets and time are `real`. Rust's `as i32` on a float
  is truncation toward zero. Rust's `/` and `%` on `i32` are written out as
  truncating operations.
- Integer arithmetic follows Rust's debug build profile, in which an `i32`
  overflow panics. `create_map` therefore rejects a map whose cell count
  `height * width` does not fit an `i32`.
- Operations whose source panics return an error value, except where listed
  under "## Left out": `create_map` returns `MapError` and `World::logic`
  returns `None`.
- Lemmas about one behaviour on its own assume that the objects have distinct
  ids, which the registry's invariant guarantees.

## Model

| member | source | states |
|---|---|---|
| IdMaps.NewMint | src/engine/id_map.rs:35-41 | a fresh mint hands out 1 first |
| IdMaps.NewId | src/engine/id_map.rs:44-49 | `new_id` returns the counter and leaves a strictly larger one |
| IdMaps.MintManyFresh | src/engine/id_map.rs:44-49 | `k` calls of `new_id` give `k` strictly increasing ids, all between the starting counter and the final one, and the counter advances by exactly `k` |
| IdMaps.MintFromNewIsPositive | src/engine/id_map.rs:35-49 | every id a fresh mint hands out is at least 1, so it passes `insert`'s positivity assertion |
| IdMaps.Empty | src/engine/id_map.rs:60-67 | `IdMap::new` satisfies the index invariant and holds nothing |
| IdMaps.LiveIdsAreElementIds | src/engine/id_map.rs:52-56 | under the invariant the live ids are exactly the ids carried by the stored elements |
| IdMaps.LenIsLiveCount | src/engine/id_map.rs:100-103 | under the invariant the vector length equals the number of live ids |
| IdMaps.Insert | src/engine/id_map.rs:69-75 | with a positive id that is not live (the two assertions), the element is appended, the contents gain exactly that id mapped to it, the length grows by one and the invariant holds again |
| IdMaps.SwapRemove | src/engine/id_map.rs:82 | `swap_remove`: one element shorter, the last element moved into the freed slot, every other slot unchanged |
| IdMaps.Remove | src/engine/id_map.rs:77-84 | for a live id, the invariant survives the swap-remove plus index fix-up, the contents lose exactly that id, and the length drops by one |
| IdMaps.RemovedContents | src/engine/id_map.rs:79-83 | the index fix-up of the moved element keeps every other id resolving to the same element |
| IdMaps.RemoveStoredLast | src/engine/id_map.rs:79-83 | removing the element stored last simply drops the last slot and its id: the fix-up written for it is erased by the removal |
| IdMaps.Get | src/engine/id_map.rs:86-89 | `get` is `Some` exactly for live ids, holding the element whose id is the one asked for |
| IdMaps.Update | src/engine/id_map.rs:91-98 | writing through `get_mut` replaces the element of a live id and changes nothing for any other id |
| IdMaps.Len | src/engine/id_map.rs:100-103 | `len` is the number of live ids |
| IdMaps.Elems | src/engine/id_map.rs:105-108 | `elems` lists every live element exactly once, each resolving to itself through its id |
| IdMaps.BasicScenario | src/engine/id_map.rs:117-141 | the `basic` test's sequence (insert 1 and 2, remove 1, insert 3) gives the lookups and lengths the test asserts |
| Util.L1Dist | src/util.rs:16-19 | `l1_dist` is non-negative and at least the distance along each axis |
| Util.L1DistSymmetric | src/util.rs:16-19 | the distance does not depend on the order of the two tiles |
| Util.L1DistZeroIff | src/util.rs:16-19 | the distance is zero exactly for the same tile |
| Util.L1DistTriangle | src/util.rs:16-19 | the distance obeys the triangle inequality |
| Util.L1DistConsistent | src/util.rs:16-19 | one 4-neighbour step changes the distance to any goal by at most one, so it is a consistent A* heuristic |
| Util.TruncDiv | src/game_ui.rs:239 | Rust's `/` on `i32` (here `cost * cost * cost / 36`): the remainder is smaller than the divisor in magnitude and carries the dividend's sign, and the quotient is floor division on non-negative operands |
| Util.TruncRem | src/game_ui.rs:20 | Rust's `%` on `i32` (here `idx as i32 % 4`): the remainder that goes with the truncating quotient, smaller than the divisor in magnitude, the Euclidean remainder on non-negative operands |
| Util.Trunc | src/cursor.rs:28-29 | `camera_x as i32` truncates toward zero: within one of the real value, on the side of zero |
| Util.WrapI32 | src/map.rs:63 | the `i32` value of `y * w + x`, reduced into range: a result in range, congruent to the exact value modulo 2^32, and the exact value when that is in range |
| Util.DigitChar | src/turn.rs:72 | the character `format!` writes for a digit reads back as that digit |
| Util.NatToString | src/turn.rs:72 | `format!("{}", n)` of a non-negative number writes decimal digits that denote `n`, with a leading '0' only for zero itself |
| Util.IntToString | src/turn.rs:72 | `format!("{}", n)` writes a '-' exactly for a negative `n`, then decimal digits that denote its magnitude, with no leading zero |
| Grid.TilesToIndex | src/map.rs:26-53 | the autotiler picks one of the 16 sheet tiles, and any corner letter other than 'w' or 's' falls back to tile 0 |
| Grid.TilesToIndexOnto | src/map.rs:30-49 | every sheet tile 0..15 is the answer for its own corner pattern |
| Grid.TilesToIndexInjective | src/map.rs:30-49 | distinct 'w'/'s' corner patterns get distinct sheet tiles: the pattern can be read back from the tile |
| Grid.ClampCoord | src/map.rs:58-61 | a coordinate is clamped into `0..n`, and a coordinate already inside is kept |
| Grid.XyToIndex | src/map.rs:56-64 | when the cell count fits an `i32`, the index is a cell of the grid, and for an in-grid coordinate it is the row-major index `y * w + x` |
| Grid.XyToIndexClampsToEdge | src/map.rs:55-61 | coordinates beyond any side of the grid land on the nearest edge cell |
| Grid.IndexToXy | src/map.rs:66-69 | column and row recombine to the index, and for a non-negative index the column lies in `0..w` |
| Grid.IndexToXyOfXyToIndex | src/map.rs:56-69 | inside the grid, `index_to_xy` undoes `xy_to_index` |
| Grid.XyToIndexOfIndexToXy | src/map.rs:56-69 | every cell index is the `xy_to_index` of the cell `index_to_xy` names, which lies within the grid's rows |
| Grid.IsSolid | src/map.rs:71-79 | only 's' can be walked on; 'w' and every other letter are solid |
| Grid.CellIndex | src/map.rs:83 | an interior cell's index is row-major and lies within the tile and collision vectors |
| Grid.MapTileSolid | src/map.rs:81-86 | the one-tile border and everything beyond it is solid; an interior cell is solid exactly when its tile is solid or its collision flag is set |
| Grid.SnapToTileNearest | src/unit.rs:111-112 | `(p + 16) / 32` names the tile whose 32-pixel span, centred on the tile, holds pixel `p` (from pixel -16 on) |
| Grid.SnapTileCentre | src/unit.rs:111-112 | a tile's own centre pixel snaps back to that tile |
| Game.NewMapData | src/game_state.rs:121-150 | `MapData::new`: empty grid, our turn, panel closed, 10 mana, turn 1, one empty spell line, the three base words, no restart or next-map flag |
| Game.NewObject | src/game_state.rs:79-86 | `Object::new` sets only the id: no capability flag, no orders, zero stats, fresh map data |
| Game.GetIdOfNew | src/game_state.rs:233-238 | `get_id` returns the id the object was constructed with |
| Game.AddObject | src/game_state.rs:362-365 | `add_object` appends the object to the pending list and changes nothing else |
| Game.RemoveObject | src/game_state.rs:367-370 | `remove_object` adds the id to the pending removal set and changes nothing else |
| Game.RemoveObjectIdempotent | src/game_state.rs:252 | removals form a set: queuing an id twice is queuing it once |
| Game.NewId | src/game_state.rs:372-375 | `GameState::new_id` hands out the mint's counter and advances it by one, nothing else changing |
| Game.NewIdIsFresh | src/game_state.rs:372-375 | when every live and pending id is below the counter, the id handed out belongs to no live or pending object, and the bound still holds afterwards |
| Game.MintedKeepsIdsBelowMint | src/game_state.rs:362-375 | an object built on a freshly minted id may join the pending list without breaking that bound |
| Game.FindById | src/engine/id_map.rs:86-89 | the lookup finds the first slot carrying the id, and finds none exactly when no slot carries it |
| Game.FindOwnId | src/engine/id_map.rs:86-89 | with distinct ids, looking up an object's id finds that object's own slot |
| Game.SameIdsFind | src/engine/id_map.rs:91-98 | behaviours that write through `get_mut`/`elems_mut` keep each slot's id, so every lookup gives the same slot afterwards |
| Game.CurrentMap | src/map.rs:321 | `objects.get(state.current_map_id)` yields a slot holding the current map id, and none exactly when no object carries it |
| Game.WithMapData | src/map.rs:324-325 | writing the current map's data through its shared cell replaces that one object's data and leaves every other slot and all ids alone |
| Game.WithMapDataUnchanged | src/map.rs:324-325 | writing back the data a map already holds changes nothing |
| Map.DefaultMapConfig | src/map.rs:12-24 | an empty map file gives a 32 x 32 map with no tiles, no words and no next map |
| Map.TileOf | src/map.rs:122-197 | every spawn character (a unit letter or a digit) leaves an 's' tile behind; any other character is kept as the tile |
| Map.TilePixel | src/map.rs:119-121 | the `n`-th tile is drawn at column `n % w` and row `n / w`, times 32 pixels |
| Map.SpawnOneSpec | src/map.rs:117-197 | one character of the tile loop succeeds exactly when the width is non-zero and a digit has its word; it pushes the character's tile, and a spawn character queues exactly one object on the next id, a unit from the letter's file or a circle with the digit's word, on that tile's pixel position |
| Map.SpawnAllSucceedsIff | src/map.rs:117-198 | the tile loop completes exactly when the width is non-zero (for a non-empty map) and every digit has a word |
| Map.SpawnCountPrefix | src/map.rs:117-198 | each spawn character adds one to the count of spawned objects before it |
| Map.SpawnCountMonotone | src/map.rs:117-198 | a prefix of the map spawns no more objects than the whole |
| Map.SpawnAllShape | src/map.rs:117-198 | after the loop the tiles are the characters' tiles in order, and the mint and pending list grow by exactly the spawn count, the earlier pending objects kept in front |
| Map.SpawnAllPlaced | src/map.rs:122-195 | the `j`-th spawn character's object sits in its own pending slot, with the id minted for it and its tile's pixel position |
| Map.SpawnAllWizard | src/map.rs:124-132 | the map's wizard is the unit the last 'W' spawned, or id 0 when there is no 'W' |
| Map.LoadedMapData | src/map.rs:113-116 | the loaded map data is fresh map data holding the loop's tiles, the config's size and next map, the file name, the wizard, and an all-clear collision map of one flag per tile |
| Map.CreateMapSucceedsIff | src/map.rs:105-217 | `create_map` returns a map exactly when the loop completes, the cell count fits an `i32` and equals the tile count; otherwise the source panics |
| Map.CreateMapObject | src/map.rs:105-217 | the map object takes the first fresh id and holds the loaded tiles, size, names, a clear collision map, fresh turn state and the last wizard's id |
| Map.CreateMapPending | src/map.rs:207-216 | after the spawned objects the cursor and then the "Defeat all monsters!" banner are queued, the current map becomes the new map, and the mint has advanced by the spawn count plus three |
| Map.CreateMapSpawns | src/map.rs:117-198 | every spawn character of the map file has its object queued, in file order, with its id and tile position |
| Map.CreateMapKeepsSpawns | src/map.rs:105-217 | the objects the tile loop queued stay at the front of the pending list after the cursor and banner |
| Map.CirclesUnderMembers | src/map.rs:334-341 | a word is collected for a holder exactly when a named, positioned circle on its tile carries it |
| Map.HeldWordsUpToMembers | src/map.rs:332-342 | after the first `n` slots of the outer loop, a word has been collected exactly when one of those slots holds a unit of ours that can act standing on a circle with that word |
| Map.HeldWordsMembers | src/map.rs:332-342 | the held words are exactly the words of circles that share a tile with a positioned unit of ours that can act |
| Map.Inventory | src/map.rs:326-343 | the rebuilt inventory is sorted and, as a multiset, is the base inventory plus every held word |
| Map.InventoryLogic | src/map.rs:319-345 | the behaviour keeps every slot's id, never touches the game state, and changes nothing without a live current map |
| Map.InventoryLogicContents | src/map.rs:319-345 | on the current map the inventory is sorted, holds the base words plus the held words counted with multiplicity, a word is in it exactly when it is a base word or held, and the held-circle count is the number of held words |
| Map.InventoryIsTheSortedOrder | src/map.rs:343 | the inventory is the unique sorted arrangement of base plus held words: any sorted sequence with the same multiset is it |
| Map.InventoryLogicWrites | src/map.rs:319-345 | only the current map's inventory and held-circle count change |
| Map.InventoryLogicIdempotent | src/map.rs:326-343 | the inventory is rebuilt from scratch: a second run in the same tick changes nothing |
| Map.DefeatCheck | src/map.rs:358-364 | the restart flag ends up set exactly when it was set or the wizard is gone; only that flag and the change time can change, and nothing changes unless the defeat is new |
| Map.VictoryCheck | src/map.rs:365-380 | the next-map flag ends up set exactly when it was set or no enemy can act; only that flag and the change time can change, and nothing changes unless the victory is new |
| Map.VictoryLogic | src/map.rs:352-380 | the behaviour keeps every slot's id, changes only the mint and pending list of the game state, and changes nothing without a live current map |
| Map.VictoryLogicAt | src/map.rs:354-380 | on the current map, the defeat check runs first and the victory check on its result |
| Map.VictoryLogicFlags | src/map.rs:358-380 | on the current map, restart is wanted exactly when it was or the wizard is gone, the next map exactly when it was or no enemy is left, a new defeat or victory sets the change time to four seconds from now, and no other map field changes |
| Map.VictoryLogicBanners | src/map.rs:360-377 | a new defeat queues "You have died!", then a new victory queues "You've won the game!" on the last map or "Victory!" otherwise, each on one fresh id and nothing else queued |
| Map.VictoryLogicIdempotent | src/map.rs:358-380 | the flags make each banner announce once: a second run changes nothing |
| PathSearch.MaxNode | src/path.rs:85 | `BinaryHeap::pop` takes a node no smaller, in the derived field-by-field order, than any other in the open heap |
| PathSearch.MaxApprox | src/path.rs:127 | the fallback pop takes the entry with the least distance to the goal, then the least cost, in the derived order |
| PathSearch.Relax | src/path.rs:94-117 | a move is taken exactly when the neighbour is unknown or would get a lower cost, is not solid, and stays within the action points; a taken move records cost plus one and the predecessor, anything else changes nothing |
| PathSearch.RelaxSound | src/path.rs:94-117 | a move keeps the search's bookkeeping sound: costs at least the distance from the start and within the action points, every open node known, predecessor links to cheaper neighbours, a fallback entry for every known tile |
| PathSearch.RelaxEstimatesOk | src/path.rs:100-115 | a pushed node carries minus the cost just recorded plus the distance left; since costs only fall afterwards, no open node promises less than its tile's best known cost plus that distance |
| PathSearch.RelaxShrinks | src/path.rs:98-116 | a taken move strictly lowers the set of still-possible cost improvements, the measure that makes the loop terminate |
| PathSearch.MovesRelax | src/path.rs:92-118 | after the four moves of an expanded tile, no move out of it can improve any neighbour |
| PathSearch.ExpandSpec | src/path.rs:92-118 | expanding the popped tile restores the full invariant (every known tile is open or fully relaxed) and either changes nothing or removes an improvement |
| PathSearch.Run | src/path.rs:83-119 | the loop ends; a found goal is a known tile, and otherwise the open heap is empty with every known tile relaxed |
| PathSearch.Initial | src/path.rs:62-79 | the start pushed on both heaps with cost 0 satisfies the loop invariant |
| PathSearch.Target | src/path.rs:121-138 | the backtracking starts at a known tile: the goal when found, else the fallback heap's best |
| PathSearch.BacktrackSpec | src/path.rs:139-148 | following the predecessors back to the start and reversing gives a walk from the start, ending at the target, through walkable tiles of strictly rising cost, no longer than the target's cost |
| PathSearch.PathIsWalk | src/path.rs:139-148 | the move orders form a walk of 4-neighbour steps from the unit's tile through distinct walkable tiles, never back onto the start, at most the action points long |
| PathSearch.PathIsReach | src/path.rs:96-99 | the unit's tile followed by the path is a walk the unit can afford |
| PathSearch.PathReachesFoundGoal | src/path.rs:87-91 | when the goal is found the path ends on it, or is empty when the unit already stands there |
| PathSearch.RouteKnown | src/path.rs:83-119 | when the loop ends without the goal, every tile of any affordable walk is known at a cost no more than its step |
| PathSearch.SearchComplete | src/path.rs:83-119 | the goal is found whenever some walk over walkable tiles within the action points reaches it |
| PathSearch.NoRouteWhenNotFound | src/path.rs:121-137 | when the goal is not found, no affordable walk leads to it (the converse of completeness) |
| PathSearch.FallbackIsNearest | src/path.rs:125-131 | without the goal, the path ends on a known tile nearest the goal, the cheapest among the nearest, and no farther than the start |
| PathSearch.FallbackNearestReachable | src/path.rs:125-131 | without the goal, no tile reachable within the action points is nearer the goal than where the path ends |
| PathSearch.BlockedAdjacentGoal | src/path.rs:98-99 | a solid goal next to the unit is never entered and nothing known is nearer to it than the start, so the path is empty |
| PathSearch.WalkDistLeft | src/path.rs:101 | the distance heuristic never overestimates: along any walk of 4-neighbour steps, a tile is no farther from the walk's end than the steps left |
| PathSearch.LateStepWaits | src/path.rs:98-116 | a route tile known in time whose successor is not cannot have been relaxed, so it still waits in the open heap at its best known cost |
| PathSearch.WaitingBound | src/path.rs:101-107 | such a waiting route tile's node promises no more than the route's length |
| PathSearch.FrontierBound | src/path.rs:83-119 | while the goal is not known at a cost within some route's length, an open node promises no more than that length |
| PathSearch.RunShortest | src/path.rs:83-91 | the loop stops at the goal only once the goal's best known cost is no more than the steps of any route to it within the action points |
| PathSearch.PathIsShortest | src/path.rs:83-147 | A* with the Manhattan heuristic: the path is no longer than any route to the goal within the action points |
| PathSearch.PathCoversDist | src/path.rs:139-148 | the path has at least as many moves as the Manhattan distance from the unit's tile to where it ends |
| Orders.MoveOrders | src/path.rs:145 | one move order per path tile, in order, each on that tile |
| Orders.MakePath | src/path.rs:40-155 | `make_path` replaces the unit's orders by move orders along a walk of 4-neighbour steps through distinct open tiles, never back onto the unit's tile, at most its action points long |
| Orders.MakePathReachesGoal | src/path.rs:40-155 | whenever some walk within the action points leads to the goal, the path ends on it |
| Orders.MakePathNearest | src/path.rs:121-138 | the path ends no farther from the goal than any tile the unit could reach with its action points |
| Orders.MakePathIsReach | src/path.rs:40-155 | the path itself is a walk the unit can afford, the partner of completeness |
| Orders.MakePathNextToBlocked | src/path.rs:98-99 | a goal on a solid tile right next to the unit yields no move orders |
| Orders.MakePathShortest | src/path.rs:40-155 | the move orders are no more than the steps of any route to the goal the unit can afford: `make_path` finds a shortest path |
| Orders.MakePathOpenGround | src/path.rs:40-155 | on open ground with action points for the distance, the number of move orders equals the Manhattan distance to the goal |
| Orders.PlanIsValid | src/path.rs:10-38 | `order_unit` gives a walk of moves, then at most one attack, on the goal, only when something with health on the other side stands there and the walk ends next to it, all within the action points |
| Orders.PlanAttacksAdjacentFoe | src/path.rs:10-38 | a unit next to a foe standing on a solid tile, with an action point, is ordered to attack it at once without moving |
| Orders.OrderUnit | src/path.rs:10-38 | only the ordered unit changes, and only its orders, which become a valid plan |
| Orders.FirstMover | src/path.rs:177-197 | the click concerns the first selected, positioned unit of ours that can act and has action points left, and none exactly when there is no such unit |
| Orders.Confirm | src/path.rs:188-207 | the chosen unit starts executing its orders; every object with another id loses its orders |
| Orders.ConfirmPlan | src/path.rs:198-208 | confirming also records on the map that orders are executing; the chosen unit keeps its plan |
| Orders.PathableInput | src/path.rs:159-214 | nothing changes without a right click on a live map on our turn with nothing executing, or without a unit to order; otherwise the first such unit's plan is confirmed or replanned; the state is untouched and every id stays in its slot |
| Orders.PathableInputConfirms | src/path.rs:184-208 | a right click on the tile the unit's plan ends on starts it walking, marks the map as executing, and drops every other object's orders |
| Orders.PathableInputPlans | src/path.rs:192-212 | a right click elsewhere than the unit's own tile gives that unit a valid plan toward the click and changes nothing else |
| Orders.PlanKeepsUnitChosen | src/path.rs:177-212 | after a planning click the click still applies and concerns the same unit, so a second click on the plan's end confirms it |
| Orders.PlanChangesOnlyOrders | src/path.rs:209-212 | with distinct ids, the planning click changes only the first mover's orders |
| Orders.AdvanceApproaches | src/path.rs:250-265 | each axis of the walk comes a full step nearer when at least a step away, stays within a step once there, and stays put on the destination |
| Orders.MoveStepArrives | src/path.rs:243-249 | a unit within 1.1 steps on both axes lands exactly on the tile, drops the order and spends one action point |
| Orders.MoveStepApproaches | src/path.rs:250-265 | a unit not yet there keeps its orders and action points and comes a step nearer on every axis a step or more away |
| Orders.Tick | src/path.rs:228-295 | a tick consumes at most the first order; objects not executing orders are untouched; a unit out of orders stops executing (and an enemy loses its action points); an attack pops the order, zeroes the action points and does not move the unit |
| Orders.LastHitSpec | src/path.rs:281-296 | `damage_this` holds a blow exactly when some unit attacks, and then it is the last attacker's |
| Orders.DamageOne | src/path.rs:298-304 | the blow changes the health of an object exactly when it has health and stands on the target tile, and nothing else of it |
| Orders.EffectsSpec | src/path.rs:269-278 | each attacker queues exactly one effect owned by the map, on a fresh id, in object order, and nothing else in the state changes |
| Orders.Stepped | src/path.rs:228-305 | after the tick every slot keeps its id, its motion is its own tick, and its health is changed only by the last blow |
| Orders.OrdersLogic | src/path.rs:221-307 | the behaviour keeps the object count, and changes nothing without a live current map |
| Orders.OrdersLogicIds | src/path.rs:228-305 | the tick changes no slot's id |
| Orders.OrdersLogicQueue | src/path.rs:230-295 | orders are consumed from the front, at most one per tick; an object not executing orders keeps its orders, position and action points |
| Orders.OrdersLogicNoBlow | src/path.rs:296-305 | with no attacker no health changes |
| Orders.OrdersLogicBlow | src/path.rs:281-305 | health changes only by minus the last attacker's damage, on the objects with health standing on its target tile |
| Orders.OrdersLogicFlag | src/path.rs:285-294 | the map keeps executing exactly when it was and no executing unit ran out of orders; nothing else of the map changes |
| Orders.OrdersLogicEffects | src/path.rs:267-283 | the state gains one map-owned effect per attacker and otherwise changes only in the ids taken |
| Unit.DefaultUnitConfig | src/unit.rs:10-23 | an empty unit file gives 25 action points, 4 health, sight 4, damage 1, no fire, and the name "unit" |
| Unit.CreateUnit | src/unit.rs:25-52 | `create_unit` builds, on the next minted id, a named, positioned, selectable, solid unit that can act, on the given side, at full health and full action points from its file, fire exactly when the file's fire is non-zero |
| Unit.CreateMagicCircle | src/unit.rs:54-68 | `create_magic_circle` builds, on the next minted id, a positioned, selectable circle named "Magic crcl" carrying the word, which cannot act, has no health, does not block and is on no side |
| Unit.Snap | src/unit.rs:111-112 | the tile is the one whose 32-pixel span, centred on the tile, holds the truncated pixel position; nothing else changes |
| Unit.UnitLogic | src/unit.rs:107-114 | every positioned object is snapped to its tile, every other object is untouched, and the state is unchanged |
| Unit.UnitLogicOnTileCentre | src/unit.rs:111-112 | an object standing on a tile's centre pixel gets that tile |
| Unit.MarkSolids | src/unit.rs:177-184 | the marking loop sets exactly the cells some positioned solid object's clamped tile names, keeping earlier marks, the map's length and every other map field |
| Unit.OccupiedFirst | src/unit.rs:177-184 | a cell is marked by the loop exactly when the first object marks it or one of the rest does |
| Unit.Recompute | src/unit.rs:173-184 | after clearing and marking, a cell is marked exactly when some positioned solid object stands on it |
| Unit.SolidLogic | src/unit.rs:165-187 | on the current map exactly the occupied cells are marked, the collision map keeps its length, and no other map field or object changes; without a live current map nothing changes |
| Unit.SolidLogicMarksEveryBlocker | src/unit.rs:179-183 | on a grid of positive size every positioned solid object's own tile is marked |
| Unit.DyingOnes | src/unit.rs:118-120 | the dying objects are exactly those with health whose health is at most zero |
| Unit.DeathStep | src/unit.rs:120-125 | a dying object's id is queued for removal and a death effect on the current map, at its position, lasting one second, is queued on the next id |
| Unit.HealthDeathRemovals | src/unit.rs:118-127 | the loop queues the ids of exactly the dying objects |
| Unit.HealthDeathEffects | src/unit.rs:118-127 | the loop appends one death effect per dying object, in slot order, on consecutive fresh ids, after the earlier pending objects |
| Unit.HealthDeathLogic | src/unit.rs:116-127 | the objects are untouched; the removal set gains exactly the dying objects' ids; one death effect per dying object is queued; nothing else in the state changes |
| Unit.HealthDeathQueuesExactlyTheDying | src/unit.rs:118-122 | an object's id is queued exactly when it was already or some dying object carries it |
| Unit.LastPickable | src/unit.rs:210-220 | the first pass remembers the last unselected selectable object on the cursor tile, and none exactly when there is none |
| Unit.PickPass | src/unit.rs:210-220 | the first pass selects every unselected selectable object on the cursor tile and changes nothing else |
| Unit.DeselectOthers | src/unit.rs:221-237 | the second pass deselects every selectable object whose id is not the remembered one and changes nothing else |
| Unit.Picked | src/unit.rs:209-237 | after both passes the last object picked is selected, every other selectable object by id is deselected, and non-selectable objects are untouched |
| Unit.SelectableInput | src/unit.rs:204-240 | only selection flags change; without a left click, or with nothing pickable on the cursor tile, nothing changes |
| Unit.SelectableInputPicks | src/unit.rs:207-237 | after a left click that picked something, the last one picked is selected, every other selectable object by id is deselected, and the rest are untouched |
| Unit.SelectionIsUnique | src/unit.rs:207-237 | with distinct ids a successful click leaves exactly one selectable object selected: the last one picked |
| Turn.ScanStep | src/turn.rs:24-45 | one step of the inner scan keeps its running tile the first nearest unit of ours in sight among the units scanned so far |
| Turn.NearestFromSpec | src/turn.rs:24-45 | the inner scan from any slot, started from a correct running best, ends with the first nearest unit in sight among all units |
| Turn.NearestSpec | src/turn.rs:24-45 | a monster targets the tile of the nearest unit of ours that can act and is strictly within its sight range, the first such in object order on ties, and targets nothing exactly when it sees none |
| Turn.FirstHunter | src/turn.rs:20-51 | the outer scan stops at the first monster that can act, has action points and sees one of our units, and at none exactly when no monster does |
| Turn.DispatchSpec | src/turn.rs:55-57 | the ordered monster gets a valid plan from `order_unit` and starts executing it; no other slot changes |
| Turn.EngageSpec | src/turn.rs:53-59 | engaging also marks the map as executing orders; only the map and the monster change |
| Turn.RefillOne | src/turn.rs:62-68 | a unit that can act gets its maximum action points back; anything else keeps its own |
| Turn.HandBack | src/turn.rs:69-71 | handing back makes it our turn, adds one to the turn count and two plus the held circles to the mana, and changes no other map field |
| Turn.TurnLogic | src/turn.rs:8-78 | every id stays in its slot, and nothing changes on our turn, while orders execute, or without a live current map |
| Turn.TurnLogicOrders | src/turn.rs:20-59 | on the monsters' turn the first ready monster that sees one of ours is ordered toward the nearest one it sees and starts, the map records that orders execute, nothing else changes and nothing is queued |
| Turn.TurnLogicHandsBack | src/turn.rs:60-74 | when no ready monster sees any unit of ours, the turn passes to the player: turn plus one, mana plus two plus the held circles, every unit that can act refilled, and the "Turn n begins!" banner queued |
| Turn.TurnLogicKeepsMana | src/turn.rs:53-74 | mana never falls during the monsters' turn: ordering leaves it and handing back adds to it |
| GameUi.InventoryXyGrid | src/game_ui.rs:18-24 | inventory slots fill rows of four, 72 pixels apart, starting 140 pixels left of the anchor, with rows 24 pixels apart |
| GameUi.InventoryXyInjective | src/game_ui.rs:18-24 | two different slots never share a place |
| GameUi.WordButtonsApart | src/game_ui.rs:184-195 | a click is inside at most one inventory button, so the word scan's early exit picks the only candidate |
| GameUi.ButtonsApart | src/game_ui.rs:204-223 | the newline, backspace and Craft buttons and the inventory buttons never overlap one another |
| GameUi.ClickedWord | src/game_ui.rs:184-195 | the scan returns a slot whose button holds the click, and returns none exactly when no slot's button does |
| GameUi.ClickedWordUnique | src/game_ui.rs:184-195 | a click inside word button `j` picks word `j` |
| GameUi.PushWordSpec | src/game_ui.rs:196-202 | a word click appends the word to the spell's words exactly when the last line holds fewer than five words, and keeps the spell within five lines of five words |
| GameUi.NewLineSpec | src/game_ui.rs:204-212 | the newline button adds an empty line only while there are fewer than five, and keeps the words |
| GameUi.BackspaceSpec | src/game_ui.rs:213-221 | backspace drops the last word of the last line, and that line too when it is left empty and is not the only one; the shape is kept |
| GameUi.BackspaceUndoesWord | src/game_ui.rs:196-221 | backspace right after a word click restores the spell, unless the word went onto a fresh empty line that backspace then also removes |
| GameUi.BackspaceUndoesNewLine | src/game_ui.rs:204-221 | backspace right after the newline button removes the new line again |
| GameUi.CostSpec | src/game_ui.rs:226-239 | a spell in the editor has at most 25 words and so costs at most 434 mana with no `i32` overflow, and spells of three words or fewer are free |
| GameUi.CostMonotone | src/game_ui.rs:239 | a spell with more words never costs less |
| GameUi.LastFree | src/game_ui.rs:252-261 | the last of the four neighbours in the order left, right, up, down that is not solid, or none when all four are |
| GameUi.PlacementSpec | src/game_ui.rs:252-261 | the placement scan ends on the last free neighbour in that order, since each free one overwrites the previous pick |
| GameUi.PlacementAdjacent | src/game_ui.rs:252-261 | a placement found is next to the wizard and not solid |
| GameUi.JudgeSpec | src/game_ui.rs:241-291 | the Craft button's verdict: gibberish when the spell text is not a known poem, else no space when every neighbour is solid, else not enough mana when the cost exceeds it, else a summon on the placement |
| GameUi.TypedSpellMatches | src/game_ui.rs:225-241 | a typed spell is found exactly when its text equals the cleaned poem of some spell of the book |
| GameUi.Summoned | src/game_ui.rs:268-271 | the summoned unit is one of ours, with the unit file's name, on the chosen tile, and with no action points left this turn |
| GameUi.Spawn | src/game_ui.rs:268-275 | a summon queues the unit and then its spawn effect at the same place, behind the pending objects, and mints two ids |
| GameUi.Cast | src/game_ui.rs:222-296 | the Craft button closes the panel and changes no map field but the mana |
| GameUi.CastSpendsOnlyOnSummon | src/game_ui.rs:263-291 | mana falls by the cost exactly on a summon, never below zero, and is untouched on every other verdict; one banner with the verdict's message is queued |
| GameUi.EditKeepsShape | src/game_ui.rs:183-221 | no click makes a sixth line or a sixth word on a line |
| GameUi.EditAddsClickedWord | src/game_ui.rs:183-202 | a click on inventory word `j` adds exactly that word when the last line has room, and nothing otherwise |
| GameUi.Press | src/game_ui.rs:172-297 | a left click with the panel open changes only the spell, the crafting flag and the mana; the mana never grows and never goes negative |
| GameUi.Consume | src/game_ui.rs:300-302 | the mouse position and button are cleared |
| GameUi.CraftInput | src/game_ui.rs:156-305 | every id stays in its slot, and nothing changes without a live current map |
| GameUi.CraftInputClick | src/game_ui.rs:172-302 | a left click with the panel open is a press at the window position divided by the scale of 4, after which the mouse is cleared |
| GameUi.CraftInputNoClick | src/game_ui.rs:172-302 | with the panel open and no left click only the mouse is cleared |
| GameUi.CraftInputClosed | src/game_ui.rs:167-170 | a closed panel changes nothing, not even the mouse |
| GameUi.ClickTouchesOnlyTheMap | src/game_ui.rs:160-302 | a left click with the panel open changes only the current map's data among the objects |
| GameUi.CastKeepsMouse | src/game_ui.rs:222-296 | handling the click leaves the mouse fields alone; only the final clearing touches them |
| GameUi.CraftInputKeepsInvariants | src/game_ui.rs:160-302 | mana stays at or above zero and never grows in the editor, and the spell keeps its shape |
| Words.SplitWhitespace | src/craft.rs:36 | the pieces are non-empty runs free of whitespace |
| Words.SplitWhitespaceKeepsText | src/craft.rs:36 | splitting loses only whitespace: the pieces run together are the non-whitespace characters in order |
| Words.SplitJoin | src/craft.rs:36-40 | whitespace-free words joined by single spaces split back into the same words |
| Words.JoinWordsEdges | src/craft.rs:36-41 | words joined by single spaces neither start nor end with whitespace and hold no newline |
| Words.Lines | src/craft.rs:34 | a text has no lines exactly when it is empty |
| Words.LinesCons | src/craft.rs:34 | a line without a newline that does not end in a carriage return, followed by a newline, is split off whole |
| Words.StrLeTotal | src/map.rs:343 | any two strings are ordered one way or the other |
| Words.StrLeAntisymmetric | src/map.rs:343 | strings ordered both ways are equal |
| Words.StrLeTransitive | src/map.rs:343 | the string order is transitive |
| Words.Sort | src/map.rs:343 | sorting gives an ascending permutation of the words |
| Words.SortedPermutationUnique | src/map.rs:343 | two ascending permutations of the same words are equal, so any sort the source uses gives `Sort`'s result |
| Craft.Pop | src/craft.rs:41-44 | popping drops the last character, and nothing from an empty text |
| Craft.BuildTextIsNormal | src/craft.rs:33-44 | the text builder produces each non-blank line's words joined by single spaces, those lines joined by single newlines, with one leading newline when the first line is blank |
| Craft.CleanIsNormal | src/craft.rs:33-44 | a poem's key is the normal form of its lines split into words |
| Craft.CleanEmpty | src/craft.rs:33-44 | the empty poem has the empty key |
| Craft.CleanIdempotent | src/craft.rs:33-44 | cleaning a cleaned poem gives it back unchanged |
| Craft.NormalTextIsClean | src/craft.rs:33-44 | text built from lines of whitespace-free words is its own key |
| Craft.BlankLineIgnored | src/craft.rs:34-43 | a blank line after the first contributes nothing to the key |
| Craft.LoadSpellsKeys | src/craft.rs:25-48 | the spell book's keys are exactly the cleaned poems of the spells |
| Craft.LoadSpellsLastWins | src/craft.rs:31-46 | a spell's cleaned poem maps to its summon unless a later spell has the same key, because later inserts overwrite |
| Cursor.CreateCursor | src/cursor.rs:4-10 | the cursor takes the next id from the mint, is marked as the cursor and belongs to `parent`; it has no position, cannot act, and is neither a map nor selectable |
| Cursor.ClampCursor | src/cursor.rs:31-34 | the tile is held at least 1 and then at most `n - 2`, so on a map of 3 or more tiles it lies inside the hard border and an inside tile is kept |
| Cursor.CursorInput | src/cursor.rs:14-42 | with both mouse coordinates, a current map and a cursor object, the cursor tile is the clamped tile under the mouse, the window scaled by 4 and scrolled by the camera; otherwise nothing changes, and only the cursor fields ever do |
| Cursor.CursorInsideBorder | src/cursor.rs:28-34 | on a map of at least 3 by 3 tiles the cursor never rests on the border |
| Parent.CheckObject | src/parent.rs:12-15 | the cascade's `check_object` holds exactly for objects with a parent. `World::logic` never consults it, and the cascade scans every object whatever its parent (see `Parent.ChildIds`) |
| Parent.ParentLogic | src/parent.rs:17-39 | the cascade only adds to the removal queue, only ids of existing objects, and changes nothing else |
| Parent.CascadeIds | src/parent.rs:25-35 | every id the cascade queues belongs to an object |
| Parent.CascadeHalts | src/parent.rs:22-38 | with acyclic parent links the rounds run dry within one more round than there are objects, so the loop ends |
| Parent.CascadeClosedWhenHalted | src/parent.rs:22-38 | once a round finds nothing, every child of a queued id is queued |
| Parent.CascadeLeast | src/parent.rs:22-38 | the cascade queues nothing outside any set that holds the queued ids and every child of its members |
| Parent.ParentLogicClosed | src/parent.rs:17-39 | with acyclic links the queue the cascade leaves holds every child of every queued id |
| Parent.ParentLogicLeast | src/parent.rs:17-39 | and nothing more than the least such set |
| Parent.ChainScenario | src/parent.rs:17-39 | removing a grandparent queues its child and grandchild, and leaves an unrelated object alone |
| Scheduler.NewWorld | src/engine/world.rs:36-46 | a new world has an empty registry, the given state, and no behaviours |
| Scheduler.AddLogicBehavior | src/engine/world.rs:48-51 | registration appends the behaviour to the logic list and changes nothing else |
| Scheduler.AddInputBehavior | src/engine/world.rs:74-77 | registration appends the behaviour to the input list and changes nothing else |
| Scheduler.AddDrawBehavior | src/engine/world.rs:87-90 | registration appends the behaviour to the draw list and changes nothing else |
| Scheduler.PipelineSplit | src/engine/world.rs:55-58 | running two lists of behaviours back to back is running the second on what the first leaves, so registration order is execution order |
| Scheduler.PipelineLast | src/engine/world.rs:55-58 | the last behaviour runs once, on the result of all the others |
| Scheduler.PipelineKeepsIds | src/engine/world.rs:55-58 | behaviours that each keep every id in its slot keep them together |
| Scheduler.OverlayKeys | src/engine/world.rs:60-63 | inserting the pending objects adds exactly their ids to the live ones |
| Scheduler.OverlayFinds | src/engine/world.rs:60-63 | with distinct ids every pending object is found under its own id, and older entries not overwritten survive |
| Scheduler.InsertAll | src/engine/world.rs:60-63 | the insertions keep the registry well formed |
| Scheduler.InsertAllSucceedsIff | src/engine/world.rs:60-63 | the insertions go through exactly when every pending id is positive, not live and not repeated; otherwise the source panics |
| Scheduler.InsertAllAppends | src/engine/world.rs:60-63 | the pending objects follow the old elements in queue order |
| Scheduler.InsertAllContents | src/engine/world.rs:60-63 | after the insertions every pending object resolves under its id, over the old contents |
| Scheduler.RemoveAll | src/engine/world.rs:65-71 | every queued id that is live is removed, the others are skipped, and the registry stays well formed |
| Scheduler.Logic | src/engine/world.rs:53-72 | a tick runs every logic behaviour in order, inserts the pending objects, then removes the queued ids, leaving both queues empty; no queued id survives, every pending object not also queued is live under its id, and it fails exactly when an insertion would panic |
| Scheduler.RunUncommitted | src/engine/world.rs:79-85 | running behaviours without committing keeps the registry's ids and slots and yields the pipeline's state |
| Scheduler.Input | src/engine/world.rs:79-85 | the input pass keeps the live ids and leaves the queues as the behaviours left them, without draining them |
| Scheduler.Draw | src/engine/world.rs:92-98 | the draw pass keeps the live ids and leaves the queues as the behaviours left them, without draining them |
| Pipeline.Register | src/main.rs:95-116 | the registration leaves an empty world whose input and logic lists are the modelled behaviours in the order they are added |
| Pipeline.CascadeRegisteredLast | src/main.rs:115-116 | the parent cascade is the eighth and last modelled logic behaviour |
| Pipeline.RegisteredKeepIds | src/main.rs:97-116 | every registered behaviour keeps each id in its slot, as the commit step needs |
| Pipeline.CascadeLastClosesRemovals | src/main.rs:115-116 | with acyclic links a tick's removal queue, at commit time, holds every child of every queued id |
| Pipeline.CascadeLastRemovesNoMore | src/main.rs:115-116 | and holds nothing beyond the least such set around what the earlier behaviours queued |
| Effect.CreateEffect | src/effect.rs:5-59 | an effect takes a fresh id, sits at the given pixel position with a sprite, belongs to `parent`, and expires one second from now |
| Announce.CreateAnnouncement | src/announce.rs:8-18 | a banner takes a fresh id, holds the text, starts at the top and begins to fall two seconds from now |
| Announce.Announce | src/announce.rs:8-18 | announcing queues one banner behind the pending objects, mints one id, and changes nothing else |

## Left out

- Drawing of every kind is left out: the draw behaviours, sprites, animations, fonts, the camera's drawing and `load_tilesheet`. They change no game rule.
- Reading configuration files (`populate_from_file`) is left out. The parsed map, unit and spell files are inputs: `MapConfig`, `UnitConfig`, `UnitFiles` and `SpellConfig` lists.
- `Unit.CreateUnit` takes the parsed unit file, not its path. The loader that `GameUi.CraftInput` and `Pipeline.Register` need is a parameter `load`.
- `UIInput` is left out because its circular button hit tests use the `f32` distance `dist`. So its three buttons are not modelled: the menu button, the end-turn button that sets `our_turn` and `crafting` to false (src/game_ui.rs:130-140), and the craft-panel toggle (src/game_ui.rs:141-150). `Turn.TurnLogic` and `GameUi.CraftInput` take `ourTurn` and `crafting` as given. `main_menu` is left out with it, because it is reached only through the menu button.
- `CameraInput` and `CameraLogic` are left out: the camera's smooth float movement. The camera offset appears only as an input to the cursor computation.
- `EffectLogic` and `AnnounceLogic` are left out: the lifetimes of effects and banners. They only move banners and queue removals when a timer runs out, so `Pipeline` registers only the modelled behaviours, in the source's relative order.
- Map.VictoryLogic: the map reload and the switch to the menu when a flagged change comes due (src/map.rs:381-403) are left out. They replace the whole world state with a freshly read map; only the flag setting is modelled.
- Effect.CreateEffect: `create_slash`, `create_fire`, `create_death` and `create_spawn` differ only in the animation file, which is not modelled, so one factory stands for all four.
- Parent.ParentLogic: the source loops until a round finds no children, and a cycle of parent links would never end. The model runs at most one round more than there are objects. `Parent.CascadeHalts` shows that this bound never cuts an acyclic run short.
- GameUi.CraftInput: a click on a word or backspace with an empty spell panics in the source (`last_mut().unwrap()`). The model leaves the spell unchanged instead. The editor never produces an empty spell.
- GameUi.InventoryXy: computed on unbounded integers. The source casts the slot index to `i32`, which differs only past 2^31 slots.
- Util.Trunc: the saturation of Rust's float-to-`i32` cast at the `i32` bounds is not modelled. Only coordinates far outside any map reach it.
- Mana, turn counts, action points and health are unbounded integers, and so is the id counter `IdMaps.IdMint.nextId` (a `usize` in the source). The source's `i32` fields would overflow only after billions of turns or summons, and the id counter only after 2^64 ids.
- Grid.XyToIndex: the row-major index is reduced into the `i32` range so that the function is total. On every map `create_map` builds, the cell count fits an `i32` and the reduction never takes effect.
- Map.CreateMap: a release build, where `i32` overflow wraps, is not modelled. There the cell-count check compares the wrapped product, so for example width and height 65536 with no tiles would pass it, where the debug build panics.
- Unit.SolidLogic: on a current map without cells, `Unit.MarkSolids` skips the collision write, where the source's `collision_map[idx] = true` (src/unit.rs:182) panics with an index out of range. `create_map` accepts such a map when the height or the width is 0 and the tile string is empty.
- Grid.ClampCoord: `n - 1` is computed on unbounded integers. In the source, `w - 1` and `h - 1` (src/map.rs:58-59) overflow and panic when the width or height is `i32::MIN`. `create_map` accepts that only for a map without cells.
- Scheduler.Logic: the order in which `HashSet::drain` yields the queued ids (src/engine/world.rs:65-71) is not modelled. Each swap-remove moves the last element into the freed slot, so the slot order after the removals depends on that order. The model leaves that slot order unspecified: `Scheduler.RemoveAll` removes the ids in an arbitrary order, and `Scheduler.Logic` states only which object each live id holds. Later behaviours that scan slots in order, such as `Orders.FirstMover` and `Turn.FirstHunter`, are stated for whatever slot order they are given.
- Hash-map and heap internals are not modelled. The hash maps are Dafny maps, and the removal queue is a Dafny set. A binary heap is a sequence from which the greatest element, under the derived order, is taken. Under that order, equal elements are identical.

=== FILE: announce.dfy ===
/**
  The announcement factory of src/announce.rs.  How an announcement falls and
  expires (`AnnounceLogic`) is not part of this model.
*/
module Announce {
  import opened Game

  /** A banner with the given text that starts falling two seconds from now. */
  function CreateAnnouncement(parent: nat, text: string, st: GameState): (r: (Object, GameState))
    ensures Minted(r.0, st, r.1)
    ensures r.0.isAnnouncement && r.0.announcement == text && r.0.parent == parent
    ensures r.0.y == 0.0 && r.0.startFallTime == st.time + 2.0
    ensures !r.0.hasPos && !r.0.canAct && !r.0.hasHealth && !r.0.isMap
  {
    var (id, st1) := NewId(st);
    (NewObject(id).(isAnnouncement := true, y := 0.0, announcement := text,
                    startFallTime := st.time + 2.0, parent := parent), st1)
  }

  /** `create_announcement` followed by `add_object`: the banner joins the end of the pending list. */
  function Announce(parent: nat, text: string, st: GameState): (r: GameState)
    ensures |r.newObjects| == |st.newObjects| + 1 && r.newObjects[..|st.newObjects|] == st.newObjects
    ensures var o := r.newObjects[|st.newObjects|];
      o.isAnnouncement && o.announcement == text && o.parent == parent && o.id == st.idMint.nextId
    ensures r.idMint.nextId == st.idMint.nextId + 1
    ensures r == st.(idMint := r.idMint, newObjects := r.newObjects)
  {
    var (o, st1) := CreateAnnouncement(parent, text, st);
    AddObject(st1, o)
  }
}

=== FILE: craft.dfy ===
/**
  Spell lookup keys (src/craft.rs).  A poem is normalised line by line: each
  line's whitespace-separated words joined by single spaces, the lines joined
  by single newlines.  The spell editor builds its text with the same loop,
  so `BuildText` serves both.
*/
module Craft {
  import opened Words

  /** One `[[spells]]` entry of the spell file: a poem and the unit file it summons. */
  datatype SpellConfig = SpellConfig(poem: string, summon: string)

  /** `String::pop`: the last character dropped, if there is one. */
  function Pop(s: string): (r: string)
    ensures |s| == 0 ==> r == s
    ensures |s| > 0 ==> s == r + [s[|s| - 1]]
  {
    if |s| == 0 then s else s[..|s| - 1]
  }

  /** Each word followed by one space. */
  function Spaced(words: seq<string>): string
    decreases |words|
  {
    if |words| == 0 then "" else words[0] + " " + Spaced(words[1..])
  }

  /** One line of the builder: push every word and a space, pop once, push a newline. */
  function PushLine(acc: string, words: seq<string>): string {
    Pop(acc + Spaced(words)) + "\n"
  }

  function PushLines(acc: string, lines: seq<seq<string>>): string
    decreases |lines|
  {
    if |lines| == 0 then acc else PushLines(PushLine(acc, lines[0]), lines[1..])
  }

  /** The text builder of `load_spells` and of the editor's Craft button: every line pushed, then one final pop. */
  function BuildText(lines: seq<seq<string>>): string {
    Pop(PushLines("", lines))
  }

  /** The lines that hold at least one word. */
  function NonBlank(lines: seq<seq<string>>): (r: seq<seq<string>>)
    ensures forall k | 0 <= k < |r| :: |r[k]| > 0
    ensures |r| <= |lines|
    decreases |lines|
  {
    if |lines| == 0 then []
    else (if |lines[0]| == 0 then [] else [lines[0]]) + NonBlank(lines[1..])
  }

  /** Each line's words joined by single spaces. */
  function Texts(lines: seq<seq<string>>): (r: seq<string>)
    ensures |r| == |lines|
    ensures forall k | 0 <= k < |r| :: r[k] == Join(lines[k], " ")
    decreases |lines|
  {
    if |lines| == 0 then [] else [Join(lines[0], " ")] + Texts(lines[1..])
  }

  /**
    The normal form: the texts of the non-blank lines joined by single
    newlines, behind one extra newline when the first line is blank; no text
    at all when no line holds a word.
  */
  function NormalText(lines: seq<seq<string>>): string {
    var t := Texts(NonBlank(lines));
    if |t| == 0 then "" else (if |lines[0]| == 0 then "\n" else "") + Join(t, "\n")
  }

  /** Every text followed by a newline. */
  function Body(t: seq<string>): string
    decreases |t|
  {
    if |t| == 0 then "" else t[0] + "\n" + Body(t[1..])
  }

  lemma {:induction false} BodyJoin(t: seq<string>)
    requires |t| > 0
    ensures Body(t) == Join(t, "\n") + "\n"
    decreases |t|
  {
    if |t| > 1 {
      BodyJoin(t[1..]);
    }
  }

  lemma TextsCons(line: seq<string>, lines: seq<seq<string>>)
    ensures Texts([line] + lines) == [Join(line, " ")] + Texts(lines)
  {
    assert ([line] + lines)[1..] == lines;
  }

  lemma BodyCons(t: string, ts: seq<string>)
    ensures Body([t] + ts) == t + "\n" + Body(ts)
  {
    assert ([t] + ts)[1..] == ts;
  }

  lemma {:induction false} PopSpaced(acc: string, words: seq<string>)
    requires |words| > 0
    ensures Pop(acc + Spaced(words)) == acc + Join(words, " ")
    decreases |words|
  {
    if |words| == 1 {
      assert Spaced(words) == words[0] + " ";
      assert acc + Spaced(words) == (acc + words[0]) + " ";
    } else {
      PopSpaced(acc + words[0] + " ", words[1..]);
      assert acc + Spaced(words) == acc + words[0] + " " + Spaced(words[1..]);
    }
  }

  /** A line with words adds their space-joined text and a newline. */
  lemma PushLineWords(acc: string, words: seq<string>)
    requires |words| > 0
    ensures PushLine(acc, words) == acc + Join(words, " ") + "\n"
  {
    PopSpaced(acc, words);
  }

  /** A blank line pops the newline before it and pushes it back. */
  lemma PushLineBlank(acc: string)
    requires |acc| > 0 && acc[|acc| - 1] == '\n'
    ensures PushLine(acc, []) == acc
  {
    assert acc + Spaced([]) == acc;
  }

  lemma NonBlankCons(line: seq<string>, lines: seq<seq<string>>)
    ensures NonBlank([line] + lines) == (if |line| == 0 then [] else [line]) + NonBlank(lines)
  {
    assert ([line] + lines)[1..] == lines;
  }

  lemma TextsOfNonBlankCons(line: seq<string>, lines: seq<seq<string>>)
    ensures Texts(NonBlank([line] + lines)) ==
      (if |line| == 0 then [] else [Join(line, " ")]) + Texts(NonBlank(lines))
  {
    NonBlankCons(line, lines);
    if |line| > 0 {
      TextsCons(line, NonBlank(lines));
    } else {
      assert [] + NonBlank(lines) == NonBlank(lines);
    }
  }

  lemma EndsWithNewline(s: string)
    ensures var t := s + "\n"; |t| > 0 && t[|t| - 1] == '\n'
  {
  }

  lemma AppendAssoc3(a: string, b: string, c: string)
    ensures a + b + c == a + (b + c)
  {
  }

  /** From a text ending in a newline on, the builder appends each non-blank line's text and a newline. */
  lemma {:induction false} PushLinesAfterNewline(acc: string, lines: seq<seq<string>>)
    requires |acc| > 0 && acc[|acc| - 1] == '\n'
    ensures PushLines(acc, lines) == acc + Body(Texts(NonBlank(lines)))
    decreases |lines|
  {
    if |lines| > 0 {
      var line, more := lines[0], lines[1..];
      assert lines == [line] + more;
      if |line| == 0 {
        PushLinesAfterNewline(acc, more);
        BlankStep(acc, line, more);
      } else {
        PushLineWords(acc, line);
        EndsWithNewline(acc + Join(line, " "));
        PushLinesAfterNewline(PushLine(acc, line), more);
        WordsStep(acc, line, more);
      }
    }
  }

  /** A blank line adds nothing after a newline. */
  lemma BlankStep(acc: string, line: seq<string>, more: seq<seq<string>>)
    requires |acc| > 0 && acc[|acc| - 1] == '\n' && |line| == 0
    requires PushLines(acc, more) == acc + Body(Texts(NonBlank(more)))
    ensures PushLines(acc, [line] + more) == acc + Body(Texts(NonBlank([line] + more)))
  {
    var lines := [line] + more;
    assert lines[1..] == more;
    PushLineBlank(acc);
    assert PushLines(acc, lines) == PushLines(acc, more);
    TextsOfNonBlankCons(line, more);
    assert Texts(NonBlank(lines)) == [] + Texts(NonBlank(more)) == Texts(NonBlank(more));
  }

  /** A line of words adds its text and a newline. */
  lemma WordsStep(acc: string, line: seq<string>, more: seq<seq<string>>)
    requires |acc| > 0 && acc[|acc| - 1] == '\n' && |line| > 0
    requires PushLine(acc, line) == acc + Join(line, " ") + "\n"
    requires PushLines(PushLine(acc, line), more) == PushLine(acc, line) + Body(Texts(NonBlank(more)))
    ensures PushLines(acc, [line] + more) == acc + Body(Texts(NonBlank([line] + more)))
  {
    var lines := [line] + more;
    assert lines[1..] == more;
    var j := Join(line, " ");
    var rest := Texts(NonBlank(more));
    assert PushLines(acc, lines) == PushLines(PushLine(acc, line), more);
    TextsOfNonBlankCons(line, more);
    assert Texts(NonBlank(lines)) == [j] + rest;
    BodyCons(j, rest);
    AppendAssoc3(acc, j + "\n", Body(rest));
  }

  /** The builder produces the normal form. */
  lemma BuildTextIsNormal(lines: seq<seq<string>>)
    ensures BuildText(lines) == NormalText(lines)
  {
    if |lines| > 0 {
      assert lines == [lines[0]] + lines[1..];
      if |lines[0]| == 0 {
        BlankFirstBuilt(lines[0], lines[1..]);
      } else {
        WordsFirstBuilt(lines[0], lines[1..]);
      }
    }
  }

  lemma PopNewline(x: string)
    ensures Pop(x + "\n") == x
  {
  }

  lemma BlankFirstBuilt(line: seq<string>, more: seq<seq<string>>)
    requires |line| == 0
    ensures BuildText([line] + more) == NormalText([line] + more)
  {
    var lines := [line] + more;
    assert lines[1..] == more;
    var first := PushLine("", line);
    assert first == "\n";
    assert PushLines("", lines) == PushLines(first, more);
    PushLinesAfterNewline(first, more);
    TextsOfNonBlankCons(line, more);
    var rest := Texts(NonBlank(more));
    assert [] + rest == rest;
    assert Texts(NonBlank(lines)) == rest;
    if |rest| > 0 {
      BodyJoin(rest);
      assert PushLines("", lines) == ("\n" + Join(rest, "\n")) + "\n";
      PopNewline("\n" + Join(rest, "\n"));
    } else {
      assert PushLines("", lines) == "" + "\n";
      PopNewline("");
    }
  }

  lemma WordsFirstBuilt(line: seq<string>, more: seq<seq<string>>)
    requires |line| > 0
    ensures BuildText([line] + more) == NormalText([line] + more)
  {
    var lines := [line] + more;
    assert lines[1..] == more;
    var j := Join(line, " ");
    var first := PushLine("", line);
    PushLineWords("", line);
    assert first == j + "\n";
    assert PushLines("", lines) == PushLines(first, more);
    PushLinesAfterNewline(first, more);
    TextsOfNonBlankCons(line, more);
    var rest := Texts(NonBlank(more));
    var t := [j] + rest;
    assert Texts(NonBlank(lines)) == t;
    BodyCons(j, rest);
    BodyJoin(t);
    assert PushLines("", lines) == Join(t, "\n") + "\n";
    PopNewline(Join(t, "\n"));
  }

  /** Each line of a text as its list of words. */
  function WordLines(ls: seq<string>): (r: seq<seq<string>>)
    ensures |r| == |ls|
    ensures forall k | 0 <= k < |r| :: r[k] == SplitWhitespace(ls[k])
  {
    seq(|ls|, k requires 0 <= k < |ls| => SplitWhitespace(ls[k]))
  }

  /** The normalisation loop of `load_spells`: a poem's lines, split into words, through the builder. */
  function Clean(poem: string): string {
    BuildText(WordLines(Lines(poem)))
  }

  /**
    A poem's key: the words of each line joined by single spaces, the
    non-blank lines joined by single newlines, with no space or newline at
    either end except one leading newline when the first line is blank.
  */
  lemma CleanIsNormal(poem: string)
    ensures Clean(poem) == NormalText(WordLines(Lines(poem)))
    ensures AllWords(WordLines(Lines(poem)))
  {
    BuildTextIsNormal(WordLines(Lines(poem)));
  }

  /** The empty poem has the empty key. */
  lemma CleanEmpty()
    ensures Clean("") == ""
  {
    CleanIsNormal("");
  }

  predicate AllWords(lines: seq<seq<string>>) {
    forall k, j | 0 <= k < |lines| && 0 <= j < |lines[k]| :: IsWord(lines[k][j])
  }

  lemma {:induction false} NonBlankWords(lines: seq<seq<string>>)
    requires AllWords(lines)
    ensures AllWords(NonBlank(lines))
    decreases |lines|
  {
    if |lines| > 0 {
      NonBlankWords(lines[1..]);
      NonBlankCons(lines[0], lines[1..]);
      assert lines == [lines[0]] + lines[1..];
    }
  }

  /** The lines of newline-joined texts that are free of newlines and do not end in whitespace are those texts. */
  lemma {:induction false} LinesJoin(t: seq<string>)
    requires |t| > 0
    requires forall k | 0 <= k < |t| :: |t[k]| > 0 && !IsWhitespace(t[k][|t[k]| - 1])
    requires forall k, i | 0 <= k < |t| && 0 <= i < |t[k]| :: t[k][i] != '\n'
    ensures Lines(Join(t, "\n")) == t
    decreases |t|
  {
    if |t| == 1 {
      LinesLast(t[0]);
    } else {
      LinesJoin(t[1..]);
      LinesCons(t[0], Join(t[1..], "\n"));
    }
  }

  /** Non-blank word lines are what the words of their texts split back into. */
  lemma {:induction false} SplitTexts(nb: seq<seq<string>>)
    requires AllWords(nb) && forall k | 0 <= k < |nb| :: |nb[k]| > 0
    ensures WordLines(Texts(nb)) == nb
  {
    forall k | 0 <= k < |nb| ensures SplitWhitespace(Join(nb[k], " ")) == nb[k] {
      SplitJoin(nb[k]);
    }
  }

  lemma {:induction false} NonBlankOfNonBlank(nb: seq<seq<string>>)
    requires forall k | 0 <= k < |nb| :: |nb[k]| > 0
    ensures NonBlank(nb) == nb
    decreases |nb|
  {
    if |nb| > 0 {
      NonBlankOfNonBlank(nb[1..]);
      assert nb == [nb[0]] + nb[1..];
    }
  }

  /**
    Text built from lines of whitespace-free words is already normal: feeding
    it back through the normalisation gives it back unchanged.
  */
  lemma NormalTextIsClean(lines: seq<seq<string>>)
    requires AllWords(lines)
    ensures Clean(NormalText(lines)) == NormalText(lines)
  {
    var n := NormalText(lines);
    CleanIsNormal(n);
    if |Texts(NonBlank(lines))| == 0 {
      assert n == "";
      assert WordLines(Lines(n)) == [];
    } else if |lines[0]| == 0 {
      BlankFirstClean(lines);
    } else {
      WordsFirstClean(lines);
    }
  }

  lemma BlankFirstClean(lines: seq<seq<string>>)
    requires AllWords(lines) && |Texts(NonBlank(lines))| > 0 && |lines[0]| == 0
    ensures NormalText(WordLines(Lines(NormalText(lines)))) == NormalText(lines)
  {
    var nb := NonBlank(lines);
    var t := Texts(nb);
    var n := NormalText(lines);
    NonBlankWords(lines);
    TextsAreLines(nb);
    var j := Join(t, "\n");
    assert n == "\n" + j;
    LinesCons("", j);
    assert "" + "\n" + j == n;
    assert Lines(n) == [""] + t;
    WordLinesCons("", t);
    assert WordLines(Lines(n)) == [[]] + nb;
    NonBlankCons([], nb);
    NonBlankOfNonBlank(nb);
    assert NonBlank([[]] + nb) == nb;
  }

  lemma WordsFirstClean(lines: seq<seq<string>>)
    requires AllWords(lines) && |Texts(NonBlank(lines))| > 0 && |lines[0]| > 0
    ensures NormalText(WordLines(Lines(NormalText(lines)))) == NormalText(lines)
  {
    var nb := NonBlank(lines);
    var t := Texts(nb);
    var n := NormalText(lines);
    NonBlankWords(lines);
    TextsAreLines(nb);
    NonBlankOfNonBlank(nb);
    assert n == Join(t, "\n");
    assert Lines(n) == t;
    assert WordLines(Lines(n)) == nb;
    assert |nb[0]| > 0;
  }

  lemma WordLinesCons(l: string, ls: seq<string>)
    ensures WordLines([l] + ls) == [SplitWhitespace(l)] + WordLines(ls)
  {
  }

  /** Non-blank lines of words, as texts joined by newlines, split back into those lines. */
  lemma TextsAreLines(nb: seq<seq<string>>)
    requires |nb| > 0 && AllWords(nb) && forall k | 0 <= k < |nb| :: |nb[k]| > 0
    ensures Lines(Join(Texts(nb), "\n")) == Texts(nb)
    ensures WordLines(Texts(nb)) == nb
  {
    var t := Texts(nb);
    forall k | 0 <= k < |t|
      ensures |t[k]| > 0 && !IsWhitespace(t[k][|t[k]| - 1])
      ensures forall i | 0 <= i < |t[k]| :: t[k][i] != '\n'
    {
      JoinWordsEdges(nb[k]);
    }
    LinesJoin(t);
    SplitTexts(nb);
  }

  /** Normalisation is a projection: a normalised poem normalises to itself. */
  lemma CleanIdempotent(poem: string)
    ensures Clean(Clean(poem)) == Clean(poem)
  {
    CleanIsNormal(poem);
    NormalTextIsClean(WordLines(Lines(poem)));
  }

  /** A blank line anywhere after the first line contributes nothing to the text. */
  lemma BlankLineIgnored(pre: seq<seq<string>>, post: seq<seq<string>>)
    requires |pre| > 0
    ensures BuildText(pre + [[]] + post) == BuildText(pre + post)
  {
    var a, b := pre + [[]] + post, pre + post;
    BlankDropped(pre, post);
    SameNormal(a, b);
    BuildTextIsNormal(a);
    BuildTextIsNormal(b);
  }

  lemma BlankDropped(pre: seq<seq<string>>, post: seq<seq<string>>)
    requires |pre| > 0
    ensures NonBlank(pre + [[]] + post) == NonBlank(pre + post)
    ensures (pre + [[]] + post)[0] == (pre + post)[0]
  {
    NonBlankAppend(pre, [[]] + post);
    NonBlankAppend(pre, post);
    NonBlankCons([], post);
    assert pre + [[]] + post == pre + ([[]] + post);
    assert NonBlank([[]] + post) == NonBlank(post);
  }

  /** The normal form depends only on the non-blank lines and on whether the first line is blank. */
  lemma SameNormal(a: seq<seq<string>>, b: seq<seq<string>>)
    requires |a| > 0 && |b| > 0 && (|a[0]| == 0 <==> |b[0]| == 0) && NonBlank(a) == NonBlank(b)
    ensures NormalText(a) == NormalText(b)
  {
  }

  lemma SeqAssoc<T>(x: seq<T>, y: seq<T>, z: seq<T>)
    ensures x + (y + z) == (x + y) + z
  {
  }

  lemma {:induction false} NonBlankAppend(a: seq<seq<string>>, b: seq<seq<string>>)
    ensures NonBlank(a + b) == NonBlank(a) + NonBlank(b)
    decreases |a|
  {
    if |a| == 0 {
      assert a + b == b;
    } else {
      NonBlankAppend(a[1..], b);
      var h := if |a[0]| == 0 then [] else [a[0]];
      assert (a + b)[0] == a[0];
      assert (a + b)[1..] == a[1..] + b;
      assert NonBlank(a + b) == h + NonBlank(a[1..] + b);
      assert NonBlank(a) == h + NonBlank(a[1..]);
      SeqAssoc(h, NonBlank(a[1..]), NonBlank(b));
    }
  }

  /** Key/value pairs inserted into a map in order, later pairs overwriting earlier ones. */
  function InsertPairs(pairs: seq<(string, string)>): (r: map<string, string>)
    decreases |pairs|
  {
    if |pairs| == 0 then map[]
    else
      var n := |pairs| - 1;
      InsertPairs(pairs[..n])[pairs[n].0 := pairs[n].1]
  }

  lemma {:induction false} InsertPairsKeys(pairs: seq<(string, string)>, k: string)
    ensures k in InsertPairs(pairs) <==> exists i | 0 <= i < |pairs| :: pairs[i].0 == k
    decreases |pairs|
  {
    if |pairs| > 0 {
      var n := |pairs| - 1;
      InsertPairsKeys(pairs[..n], k);
      if i :| 0 <= i < n && pairs[..n][i].0 == k {
        assert pairs[i].0 == k;
      }
      if i :| 0 <= i < |pairs| && pairs[i].0 == k {
        if i < n {
          assert pairs[..n][i].0 == k;
        }
      }
    }
  }

  lemma {:induction false} InsertPairsLastWins(pairs: seq<(string, string)>, i: nat)
    requires i < |pairs|
    requires forall j | i < j < |pairs| :: pairs[j].0 != pairs[i].0
    ensures pairs[i].0 in InsertPairs(pairs) && InsertPairs(pairs)[pairs[i].0] == pairs[i].1
    decreases |pairs|
  {
    var n := |pairs| - 1;
    if i < n {
      assert pairs[..n][i] == pairs[i];
      forall j | i < j < n ensures pairs[..n][j].0 != pairs[..n][i].0 {
        assert pairs[..n][j] == pairs[j];
      }
      InsertPairsLastWins(pairs[..n], i);
    }
  }

  /** Each spell as the pair `load_spells` inserts: its cleaned poem and its summon. */
  function SpellPairs(spells: seq<SpellConfig>): (r: seq<(string, string)>)
    ensures |r| == |spells|
  {
    seq(|spells|, i requires 0 <= i < |spells| => (Clean(spells[i].poem), spells[i].summon))
  }

  /** `load_spells` after the file is parsed: each spell's cleaned poem keys its summon, inserted in file order. */
  function LoadSpells(spells: seq<SpellConfig>): map<string, string> {
    InsertPairs(SpellPairs(spells))
  }

  /** The keys are exactly the cleaned poems: nothing else is ever inserted. */
  lemma LoadSpellsKeys(spells: seq<SpellConfig>, k: string)
    ensures k in LoadSpells(spells) <==> exists i | 0 <= i < |spells| :: Clean(spells[i].poem) == k
  {
    var pairs := SpellPairs(spells);
    InsertPairsKeys(pairs, k);
    if i :| 0 <= i < |spells| && Clean(spells[i].poem) == k {
      assert pairs[i].0 == k;
    }
  }

  /** A later spell with the same cleaned poem overwrites an earlier one: the last spell with a key decides its summon. */
  lemma LoadSpellsLastWins(spells: seq<SpellConfig>, i: nat)
    requires i < |spells|
    requires forall j | i < j < |spells| :: Clean(spells[j].poem) != Clean(spells[i].poem)
    ensures Clean(spells[i].poem) in LoadSpells(spells)
    ensures LoadSpells(spells)[Clean(spells[i].poem)] == spells[i].summon
  {
    var pairs := SpellPairs(spells);
    assert pairs[i] == (Clean(spells[i].poem), spells[i].summon);
    forall j | i < j < |pairs| ensures pairs[j].0 != pairs[i].0 {
      assert pairs[j].0 == Clean(spells[j].poem);
    }
    InsertPairsLastWins(pairs, i);
  }
}

=== FILE: cursor.dfy ===
/** The cursor of src/cursor.rs: its factory and the mouse-to-tile computation of `CursorInput`. */
module Cursor {
  import opened Util
  import opened Game
  import opened Grid

  /** `create_cursor`: a bare cursor object owned by `parent`. */
  function CreateCursor(parent: nat, st: GameState): (r: (Object, GameState))
    ensures Minted(r.0, st, r.1)
    ensures r.0.isCursor && r.0.parent == parent
    ensures !r.0.hasPos && !r.0.canAct && !r.0.isMap && !r.0.isSelectable
  {
    var (id, st1) := NewId(st);
    (NewObject(id).(isCursor := true, parent := parent), st1)
  }

  /** The tile under a window mouse coordinate: the window is scaled by 4 and scrolled by the camera. */
  function CursorTile(mouse: int, camera: real): int {
    SnapToTile(TruncDiv(mouse, 4) + Trunc(camera))
  }

  /** `max(c, 1)` then `min(c, n - 2)`, in the source's order. */
  function ClampCursor(c: int, n: int): (r: int)
    ensures n >= 3 ==> 1 <= r <= n - 2
    ensures n >= 3 && 1 <= c <= n - 2 ==> r == c
    ensures n >= 3 && c < 1 ==> r == 1
    ensures c > n - 2 ==> r == n - 2
  {
    Min(Max(c, 1), n - 2)
  }

  predicate HasCursor(objs: seq<Object>) {
    exists i | 0 <= i < |objs| :: objs[i].isCursor
  }

  /**
    `CursorInput`: with a mouse position, a live current map and some cursor
    object, the state's cursor tile becomes the clamped tile under the mouse;
    otherwise nothing changes.  The objects are never changed.
  */
  function CursorInput(objs: seq<Object>, st: GameState): (r: (seq<Object>, GameState))
    ensures r.0 == objs
    ensures !(st.mouseX.Some? && st.mouseY.Some? && CurrentMap(objs, st).Some? && HasCursor(objs)) ==> r.1 == st
    ensures r.1 == st.(cursorX := r.1.cursorX, cursorY := r.1.cursorY)
    ensures st.mouseX.Some? && st.mouseY.Some? && CurrentMap(objs, st).Some? && HasCursor(objs) ==>
      var md := objs[CurrentMap(objs, st).value].mapData;
      r.1.cursorX == ClampCursor(CursorTile(st.mouseX.value, md.cameraX), md.width) &&
      r.1.cursorY == ClampCursor(CursorTile(st.mouseY.value, md.cameraY), md.height)
  {
    match (st.mouseX, st.mouseY, CurrentMap(objs, st))
    case (Some(mx), Some(my), Some(k)) =>
      if HasCursor(objs) then
        var md := objs[k].mapData;
        (objs, st.(cursorX := ClampCursor(CursorTile(mx, md.cameraX), md.width),
                   cursorY := ClampCursor(CursorTile(my, md.cameraY), md.height)))
      else (objs, st)
    case _ => (objs, st)
  }

  /** On a map of at least 3 x 3 tiles the cursor never rests on the hard border. */
  lemma CursorInsideBorder(objs: seq<Object>, st: GameState)
    requires st.mouseX.Some? && st.mouseY.Some? && CurrentMap(objs, st).Some? && HasCursor(objs)
    requires var md := objs[CurrentMap(objs, st).value].mapData; md.width >= 3 && md.height >= 3
    ensures var md := objs[CurrentMap(objs, st).value].mapData;
      var st' := CursorInput(objs, st).1;
      Interior(st'.cursorX, st'.cursorY, md)
  {
  }
}

=== FILE: effect.dfy ===
/**
  The sprite-effect factories of src/effect.rs.  `create_slash`,
  `create_fire`, `create_death` and `create_spawn` differ only in the
  animation they play, which is not modelled, so one factory stands for all
  four.  Effect expiry (`EffectLogic`) is not part of this model.
*/
module Effect {
  import opened Game

  /** A one-second effect at a pixel position, owned by `parent`. */
  function CreateEffect(parent: nat, x: real, y: real, st: GameState): (r: (Object, GameState))
    ensures Minted(r.0, st, r.1)
    ensures r.0.parent == parent && r.0.x == x && r.0.y == y
    ensures r.0.hasPos && r.0.hasSprite && r.0.isEffect
    ensures r.0.effectDeathTime == st.time + 1.0
    ensures !r.0.canAct && !r.0.hasHealth && !r.0.isSolid && !r.0.isSelectable && !r.0.isMap
  {
    var (id, st1) := NewId(st);
    (NewObject(id).(parent := parent, x := x, y := y, hasPos := true, hasSprite := true,
                    isEffect := true, effectDeathTime := st.time + 1.0), st1)
  }
}

=== FILE: game_state.dfy ===
/**
  The records of src/game_state.rs: orders, the per-map data, the flat
  capability-flag entity record and the game state that buffers creations and
  removals.  Rendering resources (bitmaps, fonts, animations) are not part of
  this model; floating-point quantities (positions, camera, time) are `real`.
*/
module Game {
  import opened Wrappers
  import IdMaps

  datatype OrderType = MoveTo | Attack

  /** `Order`: a tile and what to do there. */
  datatype Order = Order(x: int, y: int, orderType: OrderType)

  /** `MapData` without its tilesheet. */
  datatype MapData = MapData(
    collisionMap: seq<bool>,
    tiles: seq<char>,
    width: int,
    height: int,
    executingOrders: bool,
    cameraX: real,
    cameraY: real,
    cameraVx: real,
    cameraVy: real,
    ourTurn: bool,
    crafting: bool,
    baseInventory: seq<string>,
    inventory: seq<string>,
    spell: seq<seq<string>>,
    mana: int,
    turn: int,
    wizardId: nat,
    numCirclesHeld: int,
    wantRestart: bool,
    wantNextMap: bool,
    changeTime: real,
    filename: string,
    nextMap: string)

  /**
    One tile per cell of the width x height grid, and one collision flag per
    tile; the cell count is an `i32`, as the tile-count check computes it.
  */
  predicate WellFormed(md: MapData) {
    |md.tiles| == md.width * md.height && |md.collisionMap| == |md.tiles| && md.width * md.height < 0x8000_0000
  }

  /** Map data as every behaviour sees it: `create_map` checks the tile count and sizes the collision map. */
  type MapState = md: MapData | WellFormed(md) witness NewMapData()

  /** The words every map's inventory starts with. */
  const BASE_INVENTORY: seq<string> := ["b\U{f6}sh", "b\U{ef}shi", "car\U{e5}zo"]

  /** `MapData::new`. */
  function NewMapData(): (md: MapData)
    ensures WellFormed(md)
    ensures md.ourTurn && !md.executingOrders && !md.crafting
    ensures md.mana == 10 && md.turn == 1
    ensures md.spell == [[]]
    ensures !md.wantRestart && !md.wantNextMap
    ensures md.tiles == [] && md.collisionMap == [] && md.width == 0 && md.height == 0
    ensures md.baseInventory == BASE_INVENTORY && md.inventory == []
    ensures md.wizardId == 0 && md.numCirclesHeld == 0
  {
    MapData([], [], 0, 0, false, 0.0, 0.0, 0.0, 0.0, true, false, BASE_INVENTORY, [], [[]],
            10, 1, 0, 0, false, false, 0.0, "", "")
  }

  /**
    `Object`, the flat entity record built by the `object!` macro.  Sprites,
    velocities and interpolation history are not modelled.
  */
  datatype Object = Object(
    id: nat,
    parent: nat,
    hasPos: bool,
    x: real,
    y: real,
    tileX: int,
    tileY: int,
    hasVel: bool,
    debugDraw: bool,
    isOurs: bool,
    isMap: bool,
    mapData: MapState,
    hasSprite: bool,
    isSelectable: bool,
    selected: bool,
    isSolid: bool,
    hasHealth: bool,
    health: int,
    maxHealth: int,
    canAct: bool,
    maxActionPoints: int,
    actionPoints: int,
    orders: seq<Order>,
    executingOrders: bool,
    sightRange: int,
    damage: int,
    fire: bool,
    isCursor: bool,
    isEffect: bool,
    effectDeathTime: real,
    isAnnouncement: bool,
    announcement: string,
    startFallTime: real,
    hasName: bool,
    name: string,
    isMagicCircle: bool,
    word: string,
    isMainMenu: bool)

  /** No capability flag is set, nothing is queued and nothing is attached. */
  predicate Blank(o: Object) {
    && o.parent == 0
    && !o.hasPos && !o.hasVel && !o.debugDraw && !o.isOurs && !o.isMap && !o.hasSprite
    && !o.isSelectable && !o.selected && !o.isSolid && !o.hasHealth && !o.canAct
    && !o.fire && !o.isCursor && !o.isEffect && !o.isAnnouncement && !o.hasName
    && !o.isMagicCircle && !o.isMainMenu
    && o.orders == [] && !o.executingOrders
    && o.health == 0 && o.maxHealth == 0 && o.actionPoints == 0 && o.maxActionPoints == 0
    && o.sightRange == 0 && o.damage == 0 && o.tileX == 0 && o.tileY == 0
    && o.x == 0.0 && o.y == 0.0
    && o.mapData == NewMapData()
  }

  /** `Object::new`: only the id is set. */
  function NewObject(id: nat): (o: Object)
    ensures o.id == id && Blank(o)
  {
    Object(id, 0, false, 0.0, 0.0, 0, 0, false, false, false, false, NewMapData(), false,
           false, false, false, false, 0, 0, false, 0, 0, [], false, 0, 0, false, false, false,
           0.0, false, "", 0.0, false, "", false, "", false)
  }

  /** `HasId::get_id` for objects. */
  function GetId(o: Object): nat {
    o.id
  }

  /** `get_id` returns the id the object was constructed with. */
  lemma GetIdOfNew(id: nat)
    ensures GetId(NewObject(id)) == id
  {
  }

  /**
    `GameState` without its rendering resources: the id mint, the buffered
    creations and removals, input and cursor, the clock, the current map and the
    spell book.  `bufferWidth`/`bufferHeight` are the size of the scaled
    backbuffer the UI lays itself out on.
  */
  datatype GameState = GameState(
    idMint: IdMaps.IdMint,
    newObjects: seq<Object>,
    idsToRemove: set<nat>,
    mouseButtonDown: Option<int>,
    time: real,
    mouseX: Option<int>,
    mouseY: Option<int>,
    cursorX: int,
    cursorY: int,
    currentMapId: nat,
    spells: map<string, string>,
    bufferWidth: int,
    bufferHeight: int)

  /** `add_object`: the object joins the end of the pending list. */
  function AddObject(st: GameState, o: Object): (r: GameState)
    ensures r.newObjects == st.newObjects + [o]
    ensures r == st.(newObjects := r.newObjects)
  {
    st.(newObjects := st.newObjects + [o])
  }

  /** `remove_object`: the id joins the pending removal set. */
  function RemoveObject(st: GameState, id: nat): (r: GameState)
    ensures r.idsToRemove == st.idsToRemove + {id}
    ensures r == st.(idsToRemove := r.idsToRemove)
  {
    st.(idsToRemove := st.idsToRemove + {id})
  }

  /** Queuing an id twice is the same as queuing it once. */
  lemma RemoveObjectIdempotent(st: GameState, id: nat)
    ensures RemoveObject(RemoveObject(st, id), id) == RemoveObject(st, id)
  {
  }

  /** `GameState::new_id`: delegates to the single mint. */
  function NewId(st: GameState): (r: (nat, GameState))
    ensures r.0 == st.idMint.nextId && r.1.idMint.nextId == r.0 + 1
    ensures r.1 == st.(idMint := r.1.idMint)
  {
    var (id, mint) := IdMaps.NewId(st.idMint);
    (id, st.(idMint := mint))
  }

  /** `o` was built on the next id of `st`'s mint, and `st'` is `st` after that id was taken. */
  predicate Minted(o: Object, st: GameState, st': GameState) {
    o.id == st.idMint.nextId && st' == NewId(st).1
  }

  /** Every id in use (live, pending or otherwise handed out) is below the mint's counter. */
  ghost predicate IdsBelowMint(objs: seq<Object>, st: GameState) {
    && (forall i | 0 <= i < |objs| :: objs[i].id < st.idMint.nextId)
    && (forall i | 0 <= i < |st.newObjects| :: st.newObjects[i].id < st.idMint.nextId)
  }

  /** An id handed out by the state is fresh: no live or pending object carries it, and it stays so. */
  lemma NewIdIsFresh(objs: seq<Object>, st: GameState)
    requires IdsBelowMint(objs, st)
    ensures var (id, st') := NewId(st);
      && (forall i | 0 <= i < |objs| :: objs[i].id != id)
      && (forall i | 0 <= i < |st.newObjects| :: st.newObjects[i].id != id)
      && IdsBelowMint(objs, st')
  {
  }

  /** An object built on a minted id may join the pending list without breaking freshness. */
  lemma MintedKeepsIdsBelowMint(objs: seq<Object>, st: GameState, o: Object, st': GameState)
    requires IdsBelowMint(objs, st) && Minted(o, st, st')
    ensures forall i | 0 <= i < |objs| :: objs[i].id != o.id
    ensures IdsBelowMint(objs, AddObject(st', o))
  {
  }

  /** The first slot holding an object with the given id (what `IdMap::get` finds when ids are unique). */
  function FindById(objs: seq<Object>, id: nat): (r: Option<nat>)
    ensures r.Some? ==> r.value < |objs| && objs[r.value].id == id
    ensures r.Some? ==> forall j | 0 <= j < r.value :: objs[j].id != id
    ensures r.None? <==> forall j | 0 <= j < |objs| :: objs[j].id != id
  {
    if |objs| == 0 then None
    else if objs[0].id == id then Some(0)
    else match FindById(objs[1..], id)
      case Some(k) => Some(k + 1)
      case None => None
  }

  /** Whether any object carries the id. */
  predicate IsLive(objs: seq<Object>, id: nat) {
    FindById(objs, id).Some?
  }

  /** No two live objects share an id, as the id map guarantees. */
  predicate DistinctIds(objs: seq<Object>) {
    forall i, j | 0 <= i < j < |objs| :: objs[i].id != objs[j].id
  }

  /** With distinct ids, looking an object's id up finds that object's own slot. */
  lemma FindOwnId(objs: seq<Object>, i: nat)
    requires DistinctIds(objs) && i < |objs|
    ensures FindById(objs, objs[i].id) == Some(i)
  {
    assert FindById(objs, objs[i].id).Some?;
  }

  /** The slots of `b` hold objects with the same ids as the slots of `a`. */
  ghost predicate SameIds(a: seq<Object>, b: seq<Object>) {
    |a| == |b| && forall i | 0 <= i < |a| :: a[i].id == b[i].id
  }

  lemma {:induction false} SameIdsFind(a: seq<Object>, b: seq<Object>, id: nat)
    requires SameIds(a, b)
    ensures FindById(a, id) == FindById(b, id)
  {
    if |a| > 0 {
      assert SameIds(a[1..], b[1..]);
      SameIdsFind(a[1..], b[1..], id);
    }
  }

  /** `objects.get(state.current_map_id)`: the slot of the current map, if it is live. */
  function CurrentMap(objs: seq<Object>, st: GameState): (r: Option<nat>)
    ensures r.Some? ==> r.value < |objs| && objs[r.value].id == st.currentMapId
    ensures r.None? <==> forall j | 0 <= j < |objs| :: objs[j].id != st.currentMapId
  {
    FindById(objs, st.currentMapId)
  }

  /** The map object's data replaced by `md`. */
  function WithMapData(objs: seq<Object>, k: nat, md: MapState): (r: seq<Object>)
    requires k < |objs|
    ensures SameIds(objs, r)
    ensures r[k] == objs[k].(mapData := md)
    ensures forall i | 0 <= i < |objs| && i != k :: r[i] == objs[i]
  {
    objs[k := objs[k].(mapData := md)]
  }

  /** Writing back the data a map already holds changes nothing. */
  lemma WithMapDataUnchanged(objs: seq<Object>, k: nat, md: MapState)
    requires k < |objs| && objs[k].mapData == md
    ensures WithMapData(objs, k, md) == objs
  {
    UpdateSameMapData(objs[k], md);
    assert objs[k := objs[k]] == objs;
  }

  lemma UpdateSameMapData(o: Object, md: MapState)
    requires o.mapData == md
    ensures o.(mapData := md) == o
  {
  }
}

=== FILE: game_ui.dfy ===
/**
  The spell editor of src/game_ui.rs (`CraftInput`): while the crafting panel
  is open, a left click on an inventory word adds it to the spell, the
  newline and backspace buttons edit the spell's lines, and the Craft button
  looks the spell up in the spell book and summons a unit next to the wizard
  if there is room and mana enough.
*/
module GameUi {
  import opened Wrappers
  import opened Util
  import opened Game
  import opened Grid
  import Unit
  import Effect
  import Announce
  import Craft

  type Pos = (int, int)

  const Y_OFFSET: int := 64
  const WIDTH: int := 64
  const HEIGHT: int := 16
  const SPACE: int := 8

  /** Most words on a spell line, and most lines in a spell. */
  const MAX_WORDS: int := 5
  const MAX_LINES: int := 5

  // ---------------------------------------------------------------------------
  // Layout
  // ---------------------------------------------------------------------------

  /** `get_inventory_xy`: the offset of inventory slot `idx` from the panel's anchor. */
  function InventoryXy(idx: nat): (r: Pos) {
    var xSlot := TruncRem(idx, 4);
    var ySlot := TruncDiv(idx, 4);
    ((xSlot - 2) * (WIDTH + SPACE) + SPACE / 2, ySlot * (HEIGHT + SPACE))
  }

  /** Slots fill rows of four, 72 pixels apart, rows 24 pixels apart, the columns starting 140 pixels left of the anchor. */
  lemma InventoryXyGrid(idx: nat)
    ensures InventoryXy(idx) == (72 * (idx % 4) - 140, 24 * (idx / 4))
  {
  }

  /** Different slots have different places. */
  lemma InventoryXyInjective(i: nat, j: nat)
    requires InventoryXy(i) == InventoryXy(j)
    ensures i == j
  {
    InventoryXyGrid(i);
    InventoryXyGrid(j);
    assert i % 4 == j % 4;
    assert i / 4 == j / 4;
  }

  /** Inside a button whose top-left corner is at `(x, y)`: the strict test of the source. */
  predicate Inside(mx: int, my: int, x: int, y: int) {
    mx > x && mx < x + WIDTH && my > y && my < y + HEIGHT
  }

  /** Where inventory slot `i` is drawn, for a screen centre `mid`. */
  function WordButton(i: nat, mid: Pos): Pos {
    (InventoryXy(i).0 + mid.0, InventoryXy(i).1 + mid.1 + Y_OFFSET)
  }

  /** The row of the three editor buttons. */
  function ButtonRow(mid: Pos): int {
    mid.1 - SPACE - HEIGHT + Y_OFFSET
  }

  function NewlineButton(mid: Pos): Pos {
    (mid.0 - WIDTH - SPACE - WIDTH / 2, ButtonRow(mid))
  }

  function BackspaceButton(mid: Pos): Pos {
    (mid.0 + SPACE + WIDTH / 2, ButtonRow(mid))
  }

  function CraftButton(mid: Pos): Pos {
    (mid.0 - WIDTH / 2, ButtonRow(mid))
  }

  predicate Hits(mx: int, my: int, b: Pos) {
    Inside(mx, my, b.0, b.1)
  }

  /** Two inventory buttons never overlap, so a click is inside at most one of them. */
  lemma WordButtonsApart(i: nat, j: nat, mid: Pos, mx: int, my: int)
    requires Hits(mx, my, WordButton(i, mid)) && Hits(mx, my, WordButton(j, mid))
    ensures i == j
  {
    InventoryXyGrid(i);
    InventoryXyGrid(j);
    if i % 4 != j % 4 {
      assert false;
    }
    assert i / 4 == j / 4;
  }

  /** The three editor buttons and the inventory buttons never overlap either. */
  lemma ButtonsApart(mid: Pos, mx: int, my: int, i: nat)
    ensures !(Hits(mx, my, NewlineButton(mid)) && Hits(mx, my, CraftButton(mid)))
    ensures !(Hits(mx, my, NewlineButton(mid)) && Hits(mx, my, BackspaceButton(mid)))
    ensures !(Hits(mx, my, CraftButton(mid)) && Hits(mx, my, BackspaceButton(mid)))
    ensures Hits(mx, my, WordButton(i, mid)) ==> !Hits(mx, my, NewlineButton(mid)) && !Hits(mx, my, CraftButton(mid)) && !Hits(mx, my, BackspaceButton(mid))
  {
    InventoryXyGrid(i);
  }

  /** The loop over the inventory: the first word whose button holds the click. */
  function ClickedWord(inv: seq<string>, mid: Pos, mx: int, my: int, i: nat): (r: Option<nat>)
    requires i <= |inv|
    ensures r.Some? ==> i <= r.value < |inv| && Hits(mx, my, WordButton(r.value, mid))
    ensures r.None? <==> forall j | i <= j < |inv| :: !Hits(mx, my, WordButton(j, mid))
    decreases |inv| - i
  {
    if i == |inv| then None
    else if Hits(mx, my, WordButton(i, mid)) then Some(i)
    else ClickedWord(inv, mid, mx, my, i + 1)
  }

  /** The click picks the one word under it, whichever order the slots are searched in. */
  lemma ClickedWordUnique(inv: seq<string>, mid: Pos, mx: int, my: int, j: nat)
    requires j < |inv| && Hits(mx, my, WordButton(j, mid))
    ensures ClickedWord(inv, mid, mx, my, 0) == Some(j)
  {
    var r := ClickedWord(inv, mid, mx, my, 0);
    WordButtonsApart(r.value, j, mid, mx, my);
  }

  // ---------------------------------------------------------------------------
  // Spell editing
  // ---------------------------------------------------------------------------

  /** What every edit keeps: one to five lines of at most five words each. */
  predicate SpellShape(spell: seq<seq<string>>) {
    && 1 <= |spell| <= MAX_LINES
    && forall k | 0 <= k < |spell| :: |spell[k]| <= MAX_WORDS
  }

  /** All the words of the spell, line after line. */
  function Flat(spell: seq<seq<string>>): (r: seq<string>)
    decreases |spell|
  {
    if |spell| == 0 then [] else Flat(spell[..|spell| - 1]) + spell[|spell| - 1]
  }

  /** A word click: the word goes on the end of the last line, unless that line is full. */
  function PushWord(spell: seq<seq<string>>, w: string): (r: seq<seq<string>>)
    requires |spell| > 0
    ensures |r| == |spell| && r[..|r| - 1] == spell[..|spell| - 1]
  {
    var n := |spell| - 1;
    if |spell[n]| < MAX_WORDS then spell[n := spell[n] + [w]] else spell
  }

  /** The newline button: a fresh empty line, unless the spell already has five. */
  function NewLine(spell: seq<seq<string>>): (r: seq<seq<string>>)
    ensures |spell| < MAX_LINES ==> |r| == |spell| + 1
  {
    if |spell| < MAX_LINES then spell + [[]] else spell
  }

  /** `Vec::pop` on a line: its last word dropped, if it has one. */
  function DropLast(line: seq<string>): (r: seq<string>)
    ensures |line| > 0 ==> line == r + [line[|line| - 1]]
    ensures |line| == 0 ==> r == []
  {
    if |line| == 0 then line else line[..|line| - 1]
  }

  /** The backspace button: the last word goes; a line left empty goes too, unless it is the only one. */
  function Backspace(spell: seq<seq<string>>): (r: seq<seq<string>>)
    requires |spell| > 0
    ensures |r| > 0
  {
    var n := |spell| - 1;
    var s1 := spell[n := DropLast(spell[n])];
    if |s1[n]| == 0 && |s1| > 1 then s1[..n] else s1
  }

  lemma FlatSnoc(spell: seq<seq<string>>, line: seq<string>)
    ensures Flat(spell + [line]) == Flat(spell) + line
  {
    assert (spell + [line])[..|spell|] == spell;
  }

  lemma FlatLast(spell: seq<seq<string>>, line: seq<string>)
    requires |spell| > 0
    ensures Flat(spell[|spell| - 1 := line]) == Flat(spell[..|spell| - 1]) + line
  {
    var n := |spell| - 1;
    assert spell[n := line] == spell[..n] + [line];
    FlatSnoc(spell[..n], line);
  }

  /** A word click appends the word to the spell's words exactly when the last line has room, and changes nothing else. */
  lemma PushWordSpec(spell: seq<seq<string>>, w: string)
    requires SpellShape(spell)
    ensures SpellShape(PushWord(spell, w))
    ensures Flat(PushWord(spell, w)) == if |spell[|spell| - 1]| < MAX_WORDS then Flat(spell) + [w] else Flat(spell)
  {
    var n := |spell| - 1;
    FlatLast(spell, spell[n] + [w]);
    FlatLast(spell, spell[n]);
    assert spell[n := spell[n]] == spell;
  }

  /** The newline button keeps the words and the shape. */
  lemma NewLineSpec(spell: seq<seq<string>>)
    requires SpellShape(spell)
    ensures SpellShape(NewLine(spell))
    ensures Flat(NewLine(spell)) == Flat(spell)
  {
    FlatSnoc(spell, []);
  }

  /**
    Backspace removes the last word of the spell when the last line holds
    one; on an empty last line it removes the line instead, and on the lone
    empty line it does nothing.
  */
  lemma BackspaceSpec(spell: seq<seq<string>>)
    requires SpellShape(spell)
    ensures SpellShape(Backspace(spell))
    ensures var n := |spell| - 1;
      |spell[n]| > 0 ==> Flat(Backspace(spell)) + [spell[n][|spell[n]| - 1]] == Flat(spell)
    ensures var n := |spell| - 1;
      |spell[n]| == 0 ==> Backspace(spell) == (if n > 0 then spell[..n] else spell)
  {
    var n := |spell| - 1;
    var d := DropLast(spell[n]);
    var s1 := spell[n := d];
    FlatLast(spell, d);
    FlatLast(spell, spell[n]);
    assert spell[n := spell[n]] == spell;
    if |d| == 0 && n > 0 {
      assert Backspace(spell) == spell[..n];
      assert Flat(s1) == Flat(spell[..n]);
    }
    if |spell[n]| == 0 {
      assert s1 == spell;
    }
  }

  /** Backspace undoes a word click, unless the word went onto a fresh empty line, which backspace then also removes. */
  lemma BackspaceUndoesWord(spell: seq<seq<string>>, w: string)
    requires SpellShape(spell)
    requires var n := |spell| - 1; |spell[n]| < MAX_WORDS && (|spell[n]| > 0 || n == 0)
    ensures Backspace(PushWord(spell, w)) == spell
  {
    var n := |spell| - 1;
    var p := PushWord(spell, w);
    assert DropLast(p[n]) == spell[n];
    assert p[n := spell[n]] == spell;
  }

  /** Backspace right after the newline button removes the new line again. */
  lemma BackspaceUndoesNewLine(spell: seq<seq<string>>)
    requires SpellShape(spell) && |spell| < MAX_LINES
    ensures Backspace(NewLine(spell)) == spell
  {
    var p := NewLine(spell);
    assert p[..|spell|] == spell;
  }

  // ---------------------------------------------------------------------------
  // Casting
  // ---------------------------------------------------------------------------

  function WordCount(spell: seq<seq<string>>): nat {
    |Flat(spell)|
  }

  lemma {:induction false} FlatBound(spell: seq<seq<string>>)
    requires forall k | 0 <= k < |spell| :: |spell[k]| <= MAX_WORDS
    ensures |Flat(spell)| <= MAX_WORDS * |spell|
    decreases |spell|
  {
    if |spell| > 0 {
      FlatBound(spell[..|spell| - 1]);
    }
  }

  /** The price of a spell of `n` words: `n * n * n / 36` in integer arithmetic. */
  function Cost(n: nat): (c: nat) {
    n * n * n / 36
  }

  /** The price grows with the word count, stays within `i32` for any spell the editor can hold, and short spells are free. */
  lemma CostSpec(spell: seq<seq<string>>)
    requires SpellShape(spell)
    ensures WordCount(spell) <= 25 && 0 <= Cost(WordCount(spell)) <= 434
    ensures WordCount(spell) <= 3 ==> Cost(WordCount(spell)) == 0
  {
    FlatBound(spell);
    var n := WordCount(spell);
    CostMonotone(n, 25);
    if n <= 3 {
      CostMonotone(n, 3);
    }
  }

  lemma CostMonotone(a: nat, b: nat)
    requires a <= b
    ensures Cost(a) <= Cost(b)
  {
    assert a * a <= b * b by { MulLe(a, a, b, b); }
    MulLe(a * a, a, b * b, b);
  }

  lemma MulLe(a: nat, b: nat, c: nat, d: nat)
    requires a <= c && b <= d
    ensures a * b <= c * d
  {
  }

  /** The four tiles next to the wizard, in the order the source tries them. */
  const NEIGHBOURS: seq<Pos> := [(-1, 0), (1, 0), (0, -1), (0, 1)]

  function Neighbour(w: Pos, m: nat): Pos
    requires m < 4
  {
    (w.0 + NEIGHBOURS[m].0, w.1 + NEIGHBOURS[m].1)
  }

  /** The scan for a free tile: each open neighbour replaces the previous pick, so the last one wins. */
  function PlaceFrom(w: Pos, md: MapState, m: nat, found: Option<Pos>): (r: Option<Pos>)
    requires m <= 4
    decreases 4 - m
  {
    if m == 4 then found
    else
      var c := Neighbour(w, m);
      PlaceFrom(w, md, m + 1, if !MapTileSolid(c.0, c.1, md) then Some(c) else found)
  }

  function Placement(w: Pos, md: MapState): Option<Pos> {
    PlaceFrom(w, md, 0, None)
  }

  /** Neighbour `j` of the wizard is free. */
  predicate Free(w: Pos, md: MapState, j: nat)
    requires j < 4
  {
    !MapTileSolid(Neighbour(w, j).0, Neighbour(w, j).1, md)
  }

  /** The last free neighbour in the source's order, written out. */
  function LastFree(w: Pos, md: MapState): (r: Option<nat>)
    ensures r.Some? ==> r.value < 4 && Free(w, md, r.value) && forall j | r.value < j < 4 :: !Free(w, md, j)
    ensures r.None? <==> forall j | 0 <= j < 4 :: !Free(w, md, j)
  {
    if Free(w, md, 3) then Some(3)
    else if Free(w, md, 2) then Some(2)
    else if Free(w, md, 1) then Some(1)
    else if Free(w, md, 0) then Some(0)
    else None
  }

  /**
    The unit is placed on the last of the four neighbours, in the order
    left, right, up, down, that is not solid; there is no place exactly when
    all four are solid.
  */
  lemma PlacementSpec(w: Pos, md: MapState)
    ensures Placement(w, md) == match LastFree(w, md) case Some(j) => Some(Neighbour(w, j)) case None => None
  {
    var f0 := if Free(w, md, 0) then Some(Neighbour(w, 0)) else None;
    var f1 := if Free(w, md, 1) then Some(Neighbour(w, 1)) else f0;
    var f2 := if Free(w, md, 2) then Some(Neighbour(w, 2)) else f1;
    var f3 := if Free(w, md, 3) then Some(Neighbour(w, 3)) else f2;
    assert PlaceFrom(w, md, 4, f3) == f3;
    assert PlaceFrom(w, md, 3, f2) == f3;
    assert PlaceFrom(w, md, 2, f1) == f3;
    assert PlaceFrom(w, md, 1, f0) == f3;
  }

  /** The placement is always a free tile next to the wizard. */
  lemma PlacementAdjacent(w: Pos, md: MapState)
    requires Placement(w, md).Some?
    ensures Adjacent(w, Placement(w, md).value)
    ensures !MapTileSolid(Placement(w, md).value.0, Placement(w, md).value.1, md)
  {
    PlacementSpec(w, md);
    var j := LastFree(w, md).value;
    assert Free(w, md, j);
  }

  /** How the Craft button ends. */
  datatype Verdict = Gibberish | NoSpace | NoMana | Summon(at: Pos, cost: nat, summon: string)

  /** The wizard's tile, or the origin when the wizard is gone. */
  function WizardTile(objs: seq<Object>, md: MapState): Pos {
    match FindById(objs, md.wizardId)
    case Some(i) => (objs[i].tileX, objs[i].tileY)
    case None => (0, 0)
  }

  /** The decision of the Craft button. */
  function Judge(spells: map<string, string>, spell: seq<seq<string>>, w: Pos, md: MapState): Verdict {
    var text := Craft.BuildText(spell);
    if text !in spells then Gibberish
    else match Placement(w, md)
      case None => NoSpace
      case Some(p) =>
        var cost := Cost(WordCount(spell));
        if cost <= md.mana then Summon(p, cost, spells[text]) else NoMana
  }

  /**
    A summon needs all three: the spell text in the book, a free tile next
    to the wizard, and mana covering the price; each failure has its own
    verdict, checked in that order.
  */
  lemma JudgeSpec(spells: map<string, string>, spell: seq<seq<string>>, w: Pos, md: MapState)
    ensures var v := Judge(spells, spell, w, md);
      && (v.Gibberish? <==> Craft.BuildText(spell) !in spells)
      && (v.NoSpace? <==> Craft.BuildText(spell) in spells && forall j | 0 <= j < 4 :: !Free(w, md, j))
      && (v.NoMana? ==> Cost(WordCount(spell)) > md.mana)
      && (v.Summon? <==> Craft.BuildText(spell) in spells && Placement(w, md).Some? && Cost(WordCount(spell)) <= md.mana)
      && (v.Summon? ==>
            v.at == Placement(w, md).value && v.cost == Cost(WordCount(spell))
            && v.summon == spells[Craft.BuildText(spell)] && Adjacent(w, v.at))
  {
    PlacementSpec(w, md);
    if Placement(w, md).Some? {
      PlacementAdjacent(w, md);
    }
  }

  /**
    A spell typed in the editor matches a spell of the book exactly when its
    normal form is that poem's normal form: spacing and blank lines after the
    first do not matter.
  */
  lemma TypedSpellMatches(book: seq<Craft.SpellConfig>, spell: seq<seq<string>>)
    ensures Craft.BuildText(spell) in Craft.LoadSpells(book) <==>
      exists i | 0 <= i < |book| :: Craft.Clean(book[i].poem) == Craft.NormalText(spell)
  {
    Craft.BuildTextIsNormal(spell);
    Craft.LoadSpellsKeys(book, Craft.BuildText(spell));
  }

  function Message(v: Verdict, name: string): string {
    match v
    case Gibberish => "Gibberish..."
    case NoSpace => "No space to summon!"
    case NoMana => "Not enough mana!"
    case Summon(_, _, _) => "Summoned " + name + "!"
  }

  /** The summoned unit: one of ours, on the chosen tile, with no action points left this turn. */
  function Summoned(parent: nat, cfg: Unit.UnitConfig, at: Pos, st: GameState): (r: (Object, GameState))
    ensures Minted(r.0, st, r.1)
    ensures r.0.isOurs && r.0.canAct && r.0.actionPoints == 0 && r.0.name == cfg.name && r.0.parent == parent
    ensures r.0.x == at.0 as real * 32.0 && r.0.y == at.1 as real * 32.0
  {
    var (u, st1) := Unit.CreateUnit(parent, cfg, true, st);
    (u.(x := at.0 as real * 32.0, y := at.1 as real * 32.0, actionPoints := 0), st1)
  }

  /** On a summon: the unit and its spawn effect join the pending objects, in that order. */
  function Spawn(parent: nat, cfg: Unit.UnitConfig, at: Pos, st: GameState): (r: GameState)
    ensures |r.newObjects| == |st.newObjects| + 2 && r.newObjects[..|st.newObjects|] == st.newObjects
    ensures var u := r.newObjects[|st.newObjects|];
      u.isOurs && u.actionPoints == 0 && u.name == cfg.name && u.x == at.0 as real * 32.0 && u.y == at.1 as real * 32.0
    ensures var e := r.newObjects[|st.newObjects| + 1];
      e.isEffect && e.x == at.0 as real * 32.0 && e.y == at.1 as real * 32.0
    ensures r.idMint.nextId == st.idMint.nextId + 2
  {
    var (u, st1) := Summoned(parent, cfg, at, st);
    var (e, st2) := Effect.CreateEffect(parent, u.x, u.y, st1);
    AddObject(AddObject(st2, u), e)
  }

  /** The Craft button: judge the spell, pay and summon on success, announce the verdict, close the panel. */
  function Cast(load: string -> Unit.UnitConfig, objs: seq<Object>, md: MapState, st: GameState): (r: (MapState, GameState))
    ensures !r.0.crafting
    ensures r.0 == md.(crafting := false, mana := r.0.mana)
  {
    var v := Judge(st.spells, md.spell, WizardTile(objs, md), md);
    var name := if v.Summon? then load(v.summon).name else "";
    var md' := md.(crafting := false, mana := if v.Summon? then md.mana - v.cost else md.mana);
    var st' := if v.Summon? then Spawn(st.currentMapId, load(v.summon), v.at, st) else st;
    (md', Announce.Announce(st.currentMapId, Message(v, name), st'))
  }

  /** Casting never costs more mana than there is, and costs nothing unless a unit is summoned. */
  lemma CastSpendsOnlyOnSummon(load: string -> Unit.UnitConfig, objs: seq<Object>, md: MapState, st: GameState)
    ensures var v := Judge(st.spells, md.spell, WizardTile(objs, md), md);
      var r := Cast(load, objs, md, st);
      && (v.Summon? ==> r.0.mana == md.mana - Cost(WordCount(md.spell)) >= 0 && |r.1.newObjects| == |st.newObjects| + 3)
      && (!v.Summon? ==> r.0.mana == md.mana && |r.1.newObjects| == |st.newObjects| + 1)
      && r.1.newObjects[|r.1.newObjects| - 1].announcement == Message(v, if v.Summon? then load(v.summon).name else "")
  {
    JudgeSpec(st.spells, md.spell, WizardTile(objs, md), md);
  }

  // ---------------------------------------------------------------------------
  // CraftInput
  // ---------------------------------------------------------------------------

  /** The spell after a click's edits, applied in the source's order; a click lands on at most one button. */
  function Edit(spell: seq<seq<string>>, inv: seq<string>, mid: Pos, mx: int, my: int): (r: seq<seq<string>>)
  {
    var s1 := match ClickedWord(inv, mid, mx, my, 0)
      case Some(i) => if |spell| > 0 then PushWord(spell, inv[i]) else spell
      case None => spell;
    var s2 := if Hits(mx, my, NewlineButton(mid)) then NewLine(s1) else s1;
    if Hits(mx, my, BackspaceButton(mid)) && |s2| > 0 then Backspace(s2) else s2
  }

  /** Every click keeps the spell's shape: the editor never makes a sixth line or a sixth word on a line. */
  lemma EditKeepsShape(spell: seq<seq<string>>, inv: seq<string>, mid: Pos, mx: int, my: int)
    requires SpellShape(spell)
    ensures SpellShape(Edit(spell, inv, mid, mx, my))
  {
    var s1 := match ClickedWord(inv, mid, mx, my, 0)
      case Some(i) => PushWord(spell, inv[i])
      case None => spell;
    if ClickedWord(inv, mid, mx, my, 0).Some? {
      PushWordSpec(spell, inv[ClickedWord(inv, mid, mx, my, 0).value]);
    }
    NewLineSpec(s1);
    var s2 := if Hits(mx, my, NewlineButton(mid)) then NewLine(s1) else s1;
    BackspaceSpec(s2);
  }

  /** A click on inventory word `j` adds that word and nothing else to the spell, when the last line has room. */
  lemma EditAddsClickedWord(spell: seq<seq<string>>, inv: seq<string>, mid: Pos, mx: int, my: int, j: nat)
    requires SpellShape(spell) && j < |inv| && Hits(mx, my, WordButton(j, mid))
    ensures Flat(Edit(spell, inv, mid, mx, my)) == if |spell[|spell| - 1]| < MAX_WORDS then Flat(spell) + [inv[j]] else Flat(spell)
  {
    ClickedWordUnique(inv, mid, mx, my, j);
    ButtonsApart(mid, mx, my, j);
    PushWordSpec(spell, inv[j]);
  }

  /** The click in game pixels: the window position divided by the scale of 4. */
  function Scaled(m: int): int {
    TruncDiv(m, 4)
  }

  function Mid(st: GameState): Pos {
    (TruncDiv(st.bufferWidth, 2), TruncDiv(st.bufferHeight, 2))
  }

  /** A left click with the crafting panel open: the edits, then the Craft button if it was hit. */
  function Press(load: string -> Unit.UnitConfig, objs: seq<Object>, md: MapState, st: GameState, mx: int, my: int): (r: (MapState, GameState))
    ensures r.0.mana <= md.mana && (md.mana >= 0 ==> r.0.mana >= 0)
    ensures r.0 == md.(spell := r.0.spell, crafting := r.0.crafting, mana := r.0.mana)
    ensures r.0.spell == Edit(md.spell, md.inventory, Mid(st), mx, my)
  {
    var mid := Mid(st);
    var md1 := md.(spell := Edit(md.spell, md.inventory, mid, mx, my));
    if Hits(mx, my, CraftButton(mid)) then
      CastSpendsOnlyOnSummon(load, objs, md1, st);
      Cast(load, objs, md1, st)
    else (md1, st)
  }

  /** The mouse is used up. */
  function Consume(st: GameState): (r: GameState)
    ensures r.mouseX.None? && r.mouseY.None? && r.mouseButtonDown.None?
  {
    st.(mouseX := None, mouseY := None, mouseButtonDown := None)
  }

  /**
    `CraftInput`: nothing happens without a current map or with the crafting
    panel closed; otherwise a left click is handled and the mouse is used
    up, click or no click.
  */
  function CraftInput(load: string -> Unit.UnitConfig, objs: seq<Object>, st: GameState): (r: (seq<Object>, GameState))
    ensures SameIds(objs, r.0)
    ensures CurrentMap(objs, st).None? ==> r == (objs, st)
  {
    match CurrentMap(objs, st)
    case None => (objs, st)
    case Some(k) =>
      var md := objs[k].mapData;
      if !md.crafting then (objs, st)
      else if st.mouseX.Some? && st.mouseY.Some? && st.mouseButtonDown == Some(1) then
        var (md', st') := Press(load, objs, md, Consume(st), Scaled(st.mouseX.value), Scaled(st.mouseY.value));
        (WithMapData(objs, k, md'), st')
      else (objs, Consume(st))
  }

  /** A left click with the panel open is handled by `Press` on the consumed state. */
  lemma CraftInputClick(load: string -> Unit.UnitConfig, objs: seq<Object>, st: GameState, k: nat)
    requires CurrentMap(objs, st) == Some(k) && objs[k].mapData.crafting
    requires st.mouseX.Some? && st.mouseY.Some? && st.mouseButtonDown == Some(1)
    ensures var p := Press(load, objs, objs[k].mapData, Consume(st), Scaled(st.mouseX.value), Scaled(st.mouseY.value));
      CraftInput(load, objs, st) == (WithMapData(objs, k, p.0), p.1)
  {
  }

  /** Without a left click the open panel only uses up the mouse. */
  lemma CraftInputNoClick(load: string -> Unit.UnitConfig, objs: seq<Object>, st: GameState, k: nat)
    requires CurrentMap(objs, st) == Some(k) && objs[k].mapData.crafting
    requires !(st.mouseX.Some? && st.mouseY.Some? && st.mouseButtonDown == Some(1))
    ensures CraftInput(load, objs, st) == (objs, Consume(st))
  {
  }

  /** A closed panel changes nothing. */
  lemma CraftInputClosed(load: string -> Unit.UnitConfig, objs: seq<Object>, st: GameState, k: nat)
    requires CurrentMap(objs, st) == Some(k) && !objs[k].mapData.crafting
    ensures CraftInput(load, objs, st) == (objs, st)
  {
  }

  /** With the panel open, a left click changes only the current map's data, and the mouse is used up. */
  lemma ClickTouchesOnlyTheMap(load: string -> Unit.UnitConfig, objs: seq<Object>, st: GameState, k: nat)
    requires CurrentMap(objs, st) == Some(k) && objs[k].mapData.crafting
    requires st.mouseX.Some? && st.mouseY.Some? && st.mouseButtonDown == Some(1)
    ensures var r := CraftInput(load, objs, st);
      && (forall i | 0 <= i < |objs| && i != k :: r.0[i] == objs[i])
      && r.0[k] == objs[k].(mapData := r.0[k].mapData)
      && r.1.mouseX.None? && r.1.mouseY.None? && r.1.mouseButtonDown.None?
  {
    var mx, my := Scaled(st.mouseX.value), Scaled(st.mouseY.value);
    var c := Consume(st);
    var p := Press(load, objs, objs[k].mapData, c, mx, my);
    CraftInputClick(load, objs, st, k);
    CastKeepsMouse(load, objs, objs[k].mapData, c, mx, my);
    var r := CraftInput(load, objs, st);
    assert r.0 == WithMapData(objs, k, p.0);
    assert r.1 == p.1;
  }

  /** Handling the click queues objects but leaves the mouse as it was. */
  lemma CastKeepsMouse(load: string -> Unit.UnitConfig, objs: seq<Object>, md: MapState, st: GameState, mx: int, my: int)
    ensures var r := Press(load, objs, md, st, mx, my).1;
      r.mouseX == st.mouseX && r.mouseY == st.mouseY && r.mouseButtonDown == st.mouseButtonDown
  {
  }

  /** Mana never goes negative and never grows in the editor, and the spell keeps its shape. */
  lemma CraftInputKeepsInvariants(load: string -> Unit.UnitConfig, objs: seq<Object>, st: GameState)
    requires CurrentMap(objs, st).Some?
    requires var md := objs[CurrentMap(objs, st).value].mapData; md.mana >= 0 && SpellShape(md.spell)
    ensures var k := CurrentMap(objs, st).value;
      var md' := CraftInput(load, objs, st).0[k].mapData;
      0 <= md'.mana <= objs[k].mapData.mana && SpellShape(md'.spell)
  {
    var k := CurrentMap(objs, st).value;
    var md := objs[k].mapData;
    if md.crafting && st.mouseX.Some? && st.mouseY.Some? && st.mouseButtonDown == Some(1) {
      var mx, my := Scaled(st.mouseX.value), Scaled(st.mouseY.value);
      CraftInputClick(load, objs, st, k);
      EditKeepsShape(md.spell, md.inventory, Mid(Consume(st)), mx, my);
    } else if md.crafting {
      CraftInputNoClick(load, objs, st, k);
    }
  }
}

=== FILE: grid.dfy ===
/**
  The grid geometry at the top of src/map.rs: the corner classifier of the
  autotiler, the clamped row-major cell index and its inverse, and tile
  solidity with its one-tile hard border.
*/
module Grid {
  import opened Util
  import opened Game

  /** The two letters the autotiler reads at a cell corner: wall and space. */
  predicate IsCorner(c: char) {
    c == 'w' || c == 's'
  }

  /**
    `tiles_to_index`: which of the 16 sheet tiles is drawn for the corners
    top-left, top-right, bottom-right, bottom-left.  Anything but a pattern of
    'w' and 's' falls back to tile 0.
  */
  function TilesToIndex(tl: char, tr: char, br: char, bl: char): (r: nat)
    ensures r <= 15
    ensures !(IsCorner(tl) && IsCorner(tr) && IsCorner(br) && IsCorner(bl)) ==> r == 0
  {
    match (tl, tr, br, bl)
    case ('w', 'w', 'w', 'w') => 0
    case ('s', 's', 's', 's') => 1
    case ('w', 'w', 's', 's') => 2
    case ('s', 'w', 'w', 's') => 3
    case ('s', 's', 'w', 'w') => 4
    case ('w', 's', 's', 'w') => 5
    case ('w', 'w', 's', 'w') => 6
    case ('w', 'w', 'w', 's') => 7
    case ('s', 'w', 'w', 'w') => 8
    case ('w', 's', 'w', 'w') => 9
    case ('s', 'w', 's', 'w') => 10
    case ('w', 's', 'w', 's') => 11
    case ('s', 's', 'w', 's') => 12
    case ('s', 's', 's', 'w') => 13
    case ('w', 's', 's', 's') => 14
    case ('s', 'w', 's', 's') => 15
    case _ => 0
  }

  /** The corner pattern (top-left, top-right, bottom-right, bottom-left) sheet tile `i` depicts. */
  function SheetPattern(i: nat): (p: (char, char, char, char))
    requires i <= 15
    ensures IsCorner(p.0) && IsCorner(p.1) && IsCorner(p.2) && IsCorner(p.3)
  {
    [('w', 'w', 'w', 'w'), ('s', 's', 's', 's'),
     ('w', 'w', 's', 's'), ('s', 'w', 'w', 's'), ('s', 's', 'w', 'w'), ('w', 's', 's', 'w'),
     ('w', 'w', 's', 'w'), ('w', 'w', 'w', 's'), ('s', 'w', 'w', 'w'), ('w', 's', 'w', 'w'),
     ('s', 'w', 's', 'w'), ('w', 's', 'w', 's'),
     ('s', 's', 'w', 's'), ('s', 's', 's', 'w'), ('w', 's', 's', 's'), ('s', 'w', 's', 's')][i]
  }

  /** Every sheet tile is what the classifier answers for its own pattern: the classifier is onto 0..15. */
  lemma TilesToIndexOnto(i: nat)
    requires i <= 15
    ensures var p := SheetPattern(i); TilesToIndex(p.0, p.1, p.2, p.3) == i
  {
  }

  /** The classifier tells every 'w'/'s' pattern apart: the 16 patterns get 16 distinct tiles. */
  lemma TilesToIndexInjective(tl: char, tr: char, br: char, bl: char)
    requires IsCorner(tl) && IsCorner(tr) && IsCorner(br) && IsCorner(bl)
    ensures SheetPattern(TilesToIndex(tl, tr, br, bl)) == (tl, tr, br, bl)
  {
  }

  /** One coordinate as `xy_to_index` clamps it: first down to `n - 1`, then up to 0. */
  function ClampCoord(v: int, n: int): (r: int)
    ensures r >= 0
    ensures n >= 1 ==> r < n
    ensures 0 <= v < n ==> r == v
  {
    Max(Min(v, n - 1), 0)
  }

  /** The row-major value `xy_to_index` computes in `i32` before the cast. */
  function RawIndex(x: int, y: int, w: int, h: int): int {
    ClampCoord(y, h) * w + ClampCoord(x, w)
  }

  lemma CellBelowArea(x: int, y: int, w: int, h: int)
    ensures 0 <= x < w && 0 <= y < h ==> 0 <= y * w + x < w * h
  {
    if 0 <= x < w && 0 <= y < h {
      assert y * w <= (h - 1) * w;
    }
  }

  /**
    `xy_to_index`: the clamped cell flattened row by row, reduced into the
    `i32` range and cast to `usize`.  Whenever the grid's cell count is an
    `i32` the reduction changes nothing and the result is a cell of the grid.
  */
  function XyToIndex(x: int, y: int, w: int, h: int): (r: nat)
    ensures w >= 1 && h >= 1 && w * h < 0x8000_0000 ==> r < w * h
    ensures 0 <= x < w && 0 <= y < h && w * h < 0x8000_0000 ==> r == y * w + x
  {
    CellBelowArea(ClampCoord(x, w), ClampCoord(y, h), w, h);
    AsUsize(WrapI32(RawIndex(x, y, w, h)))
  }

  /** Coordinates left of, above, right of or below the grid land on the nearest edge cell. */
  lemma XyToIndexClampsToEdge(x: int, y: int, w: int, h: int)
    requires w >= 1 && h >= 1
    ensures x < 0 ==> XyToIndex(x, y, w, h) == XyToIndex(0, y, w, h)
    ensures x >= w ==> XyToIndex(x, y, w, h) == XyToIndex(w - 1, y, w, h)
    ensures y < 0 ==> XyToIndex(x, y, w, h) == XyToIndex(x, 0, w, h)
    ensures y >= h ==> XyToIndex(x, y, w, h) == XyToIndex(x, h - 1, w, h)
  {
  }

  /** `index_to_xy`: column and row of a flat index, with Rust's truncating `%` and `/`. */
  function IndexToXy(idx: int, w: int): (r: (int, int))
    requires w != 0
    ensures r.1 * w + r.0 == idx
    ensures idx >= 0 && w > 0 ==> 0 <= r.0 < w && r.1 == idx / w
  {
    (TruncRem(idx, w), TruncDiv(idx, w))
  }

  /** Inside the grid, `index_to_xy` undoes `xy_to_index`. */
  lemma IndexToXyOfXyToIndex(x: int, y: int, w: int, h: int)
    requires 0 <= x < w && 0 <= y < h
    requires w * h < 0x8000_0000
    ensures IndexToXy(XyToIndex(x, y, w, h), w) == (x, y)
  {
    var idx := XyToIndex(x, y, w, h);
    assert idx == y * w + x;
    LemmaDivModUnique(idx, w, y, x);
    var p := IndexToXy(idx, w);
    assert p.1 == y;
    assert p.1 * w == y * w;
  }

  /** Every cell index comes from the cell `index_to_xy` names: `xy_to_index` undoes `index_to_xy`. */
  lemma XyToIndexOfIndexToXy(idx: int, w: int, h: int)
    requires w >= 1 && h >= 1 && 0 <= idx < w * h
    requires w * h < 0x8000_0000
    ensures var (x, y) := IndexToXy(idx, w); 0 <= y < h && XyToIndex(x, y, w, h) == idx
  {
    var p := IndexToXy(idx, w);
    var x, y := p.0, p.1;
    RowBelowHeight(idx, w, h);
    assert XyToIndex(x, y, w, h) == y * w + x;
  }

  lemma RowBelowHeight(idx: int, w: int, h: int)
    requires w >= 1 && 0 <= idx < w * h
    ensures 0 <= idx / w < h
  {
    if idx / w >= h {
      MulMonotone(idx / w, h, w);
    }
  }

  lemma MulMonotone(a: int, b: int, c: int)
    requires a >= b && c >= 0
    ensures a * c >= b * c
  {
  }

  lemma LemmaDivModUnique(a: int, b: int, q: int, r: int)
    requires b > 0 && 0 <= r < b && a == q * b + r
    ensures a / b == q && a % b == r
  {
    var d := q - a / b;
    assert d * b == a % b - r;
  }

  /** The tile whose centre is nearest a pixel coordinate: tile `k` is centred on pixel `32 k`. */
  function SnapToTile(p: int): int {
    TruncDiv(p + 16, 32)
  }

  /** From pixel -16 on, a pixel snaps to the tile whose 32-pixel span, centred on the tile, holds it. */
  lemma SnapToTileNearest(p: int)
    ensures p >= -16 ==> 32 * SnapToTile(p) - 16 <= p < 32 * SnapToTile(p) + 16
  {
  }

  /** A tile's own centre pixel snaps back to it. */
  lemma SnapTileCentre(k: int)
    requires k >= 0
    ensures SnapToTile(32 * k) == k
  {
    SnapToTileNearest(32 * k);
  }

  /** `is_solid`: only 's' (space) can be walked on. */
  function IsSolid(tile: char): (r: bool)
    ensures r <==> tile != 's'
  {
    match tile
    case 's' => false
    case 'w' => true
    case _ => true
  }

  /** The cells away from the one-tile border. */
  predicate Interior(x: int, y: int, md: MapState) {
    1 <= x <= md.width - 2 && 1 <= y <= md.height - 2
  }

  /** The flat index of an interior cell, which the map's tile and collision vectors hold. */
  function CellIndex(x: int, y: int, md: MapState): (i: nat)
    requires Interior(x, y, md)
    ensures i < |md.tiles| && i < |md.collisionMap|
    ensures i == y * md.width + x
  {
    CellBelowArea(x, y, md.width, md.height);
    y * md.width + x
  }

  /**
    `map_tile_solid`: the border and everything beyond it is solid whatever the
    tile; inside, a cell is solid when its tile is or when a solid object
    stands on it.
  */
  function MapTileSolid(x: int, y: int, md: MapState): (r: bool)
    ensures !Interior(x, y, md) ==> r
    ensures Interior(x, y, md) ==>
      (r <==> IsSolid(md.tiles[CellIndex(x, y, md)]) || md.collisionMap[CellIndex(x, y, md)])
  {
    var idx := XyToIndex(x, y, md.width, md.height);
    x < 1 || y < 1 || x > md.width - 2 || y > md.height - 2 ||
      IsSolid(md.tiles[idx]) || md.collisionMap[idx]
  }
}

=== FILE: id_map.dfy ===
/**
  The entity registry of src/engine/id_map.rs: an id mint, and a swap-remove
  vector paired with an id -> slot index.  Elements carry their own id, read
  through `key` (the source's `HasId::get_id`).
*/
module IdMaps {
  import opened Wrappers

  /** `IdMint`: the next id to hand out. */
  datatype IdMint = IdMint(nextId: nat)

  /** `IdMint::new`: the first id handed out is 1. */
  function NewMint(): (m: IdMint)
    ensures m.nextId == 1
  {
    IdMint(1)
  }

  /** `IdMint::new_id`: returns the counter and increments it. */
  function NewId(m: IdMint): (r: (nat, IdMint))
    ensures r.0 == m.nextId && r.1.nextId > r.0
  {
    (m.nextId, IdMint(m.nextId + 1))
  }

  /** The ids handed out by `k` successive calls of `new_id`, and the mint afterwards. */
  function MintMany(m: IdMint, k: nat): (r: (seq<nat>, IdMint))
    decreases k
  {
    if k == 0 then ([], m)
    else
      var (id, m1) := NewId(m);
      var (rest, m2) := MintMany(m1, k - 1);
      ([id] + rest, m2)
  }

  /**
    Minted ids are at least the counter they started from, strictly increasing
    (so never repeated), and all below the final counter.
  */
  lemma {:induction false} MintManyFresh(m: IdMint, k: nat)
    ensures var (ids, m') := MintMany(m, k);
      && |ids| == k
      && m'.nextId == m.nextId + k
      && (forall i | 0 <= i < k :: m.nextId <= ids[i] < m'.nextId)
      && (forall i, j | 0 <= i < j < k :: ids[i] < ids[j])
    decreases k
  {
    if k > 0 {
      MintManyFresh(IdMint(m.nextId + 1), k - 1);
    }
  }

  /** Ids minted from a fresh mint are all at least 1. */
  lemma MintFromNewIsPositive(k: nat)
    ensures var ids := MintMany(NewMint(), k).0;
      |ids| == k && forall i | 0 <= i < k :: ids[i] >= 1
  {
    MintManyFresh(NewMint(), k);
  }

  /** `IdMap<T>`: the element vector and the id -> slot index. */
  datatype IdMap<T> = IdMap(elems: seq<T>, idToIdx: map<nat, nat>)

  /**
    The representation invariant: the index and the vector are a bijection
    between the live ids and the slots 0..len, every live id is positive and
    the element in an id's slot carries that id.
  */
  ghost predicate Valid<T>(m: IdMap<T>, key: T -> nat) {
    && (forall id | id in m.idToIdx :: id > 0 && m.idToIdx[id] < |m.elems| && key(m.elems[m.idToIdx[id]]) == id)
    && (forall i | 0 <= i < |m.elems| :: key(m.elems[i]) in m.idToIdx && m.idToIdx[key(m.elems[i])] == i)
  }

  /** The abstract contents: each live id and the element it resolves to. */
  ghost function Contents<T>(m: IdMap<T>): map<nat, T> {
    map id | id in m.idToIdx && m.idToIdx[id] < |m.elems| :: m.elems[m.idToIdx[id]]
  }

  /** `IdMap::new`. */
  function Empty<T>(key: T -> nat): (m: IdMap<T>)
    ensures Valid(m, key)
    ensures Contents(m) == map[]
  {
    IdMap([], map[])
  }

  /** The live ids are exactly the ids of the stored elements. */
  lemma LiveIdsAreElementIds<T>(m: IdMap<T>, key: T -> nat)
    requires Valid(m, key)
    ensures m.idToIdx.Keys == set i | 0 <= i < |m.elems| :: key(m.elems[i])
    ensures Contents(m).Keys == m.idToIdx.Keys
  {
  }

  /** The set of keys of the first `n` elements has `n` members, since no two slots share an id. */
  lemma {:induction false} PrefixIdsCard<T>(m: IdMap<T>, key: T -> nat, n: nat)
    requires Valid(m, key)
    requires n <= |m.elems|
    ensures |set i | 0 <= i < n :: key(m.elems[i])| == n
    decreases n
  {
    if n > 0 {
      PrefixIdsCard(m, key, n - 1);
      var s := set i | 0 <= i < n - 1 :: key(m.elems[i]);
      var s' := set i | 0 <= i < n :: key(m.elems[i]);
      assert s' == s + {key(m.elems[n - 1])};
      assert key(m.elems[n - 1]) !in s;
    }
  }

  /** `len` equals the number of live ids. */
  lemma LenIsLiveCount<T>(m: IdMap<T>, key: T -> nat)
    requires Valid(m, key)
    ensures |m.idToIdx| == |m.elems|
    ensures |Contents(m)| == |m.elems|
  {
    PrefixIdsCard(m, key, |m.elems|);
    LiveIdsAreElementIds(m, key);
    assert |Contents(m).Keys| == |m.idToIdx.Keys|;
  }

  /** `IdMap::insert`: the id must be positive and not yet live (the source asserts both). */
  function Insert<T>(m: IdMap<T>, key: T -> nat, e: T): (r: IdMap<T>)
    requires Valid(m, key)
    requires key(e) > 0 && key(e) !in m.idToIdx
    ensures Valid(r, key)
    ensures r.elems == m.elems + [e]
    ensures Contents(r) == Contents(m)[key(e) := e]
    ensures Len(r, key) == Len(m, key) + 1
  {
    var r := IdMap(m.elems + [e], m.idToIdx[key(e) := |m.elems|]);
    assert Contents(r) == Contents(m)[key(e) := e];
    r
  }

  /** `Vec::swap_remove`: the last element takes the removed slot. */
  function SwapRemove<T>(s: seq<T>, i: nat): (r: seq<T>)
    requires i < |s|
    ensures |r| == |s| - 1
    ensures forall j | 0 <= j < |r| && j != i :: r[j] == s[j]
    ensures i < |r| ==> r[i] == s[|s| - 1]
  {
    s[i := s[|s| - 1]][..|s| - 1]
  }

  /** `IdMap::remove`: the id must be live (the source indexes the map with it). */
  function Remove<T>(m: IdMap<T>, key: T -> nat, id: nat): (r: IdMap<T>)
    requires Valid(m, key)
    requires id in m.idToIdx
    ensures Valid(r, key)
    ensures Contents(r) == Contents(m) - {id}
    ensures Len(r, key) == Len(m, key) - 1
  {
    var idx := m.idToIdx[id];
    var lastId := key(m.elems[|m.elems| - 1]);
    var r := IdMap(SwapRemove(m.elems, idx), m.idToIdx[lastId := idx] - {id});
    RemovedValid(m, key, id, idx, lastId, r);
    RemovedContents(m, key, id, idx, lastId, r);
    LenIsLiveCount(r, key);
    LenIsLiveCount(m, key);
    r
  }

  /** The shape `Remove` builds: the swap-removed vector, and the last id moved to the freed slot. */
  ghost predicate RemovedShape<T>(m: IdMap<T>, key: T -> nat, id: nat, idx: nat, lastId: nat, r: IdMap<T>)
    requires id in m.idToIdx && idx < |m.elems|
  {
    && idx == m.idToIdx[id] && lastId == key(m.elems[|m.elems| - 1])
    && r.elems == SwapRemove(m.elems, idx) && r.idToIdx == m.idToIdx[lastId := idx] - {id}
  }

  lemma RemovedValid<T>(m: IdMap<T>, key: T -> nat, id: nat, idx: nat, lastId: nat, r: IdMap<T>)
    requires Valid(m, key) && id in m.idToIdx && idx < |m.elems|
    requires RemovedShape(m, key, id, idx, lastId, r)
    ensures Valid(r, key)
  {
    forall i | 0 <= i < |r.elems|
      ensures key(r.elems[i]) in r.idToIdx && r.idToIdx[key(r.elems[i])] == i
    {
      if i == idx {
        assert key(r.elems[i]) == lastId;
      } else {
        assert r.elems[i] == m.elems[i];
      }
    }
  }

  lemma RemovedContents<T>(m: IdMap<T>, key: T -> nat, id: nat, idx: nat, lastId: nat, r: IdMap<T>)
    requires Valid(m, key) && id in m.idToIdx && idx < |m.elems|
    requires RemovedShape(m, key, id, idx, lastId, r)
    ensures Contents(r) == Contents(m) - {id}
  {
    RemovedValid(m, key, id, idx, lastId, r);
    ContentsKeys(m, key);
    ContentsKeys(r, key);
    assert Contents(r).Keys == Contents(m).Keys - {id};
    forall k | k in r.idToIdx ensures Contents(r)[k] == Contents(m)[k] {
      var j := m.idToIdx[k];
      if k == lastId {
        assert r.elems[idx] == m.elems[|m.elems| - 1];
      } else {
        assert j != idx && j != |m.elems| - 1;
        assert r.elems[j] == m.elems[j];
      }
    }
  }

  /** Under the invariant the live ids are the keys of the contents, each resolving through its slot. */
  lemma ContentsKeys<T>(m: IdMap<T>, key: T -> nat)
    requires Valid(m, key)
    ensures Contents(m).Keys == m.idToIdx.Keys
    ensures forall k | k in m.idToIdx :: Contents(m)[k] == m.elems[m.idToIdx[k]]
  {
  }

  /**
    Removing the element that is itself stored last just drops the last slot:
    the index fix-up of the last element's id is undone by the removal of that id.
  */
  lemma RemoveStoredLast<T>(m: IdMap<T>, key: T -> nat, id: nat)
    requires Valid(m, key)
    requires id in m.idToIdx && m.idToIdx[id] == |m.elems| - 1
    ensures Remove(m, key, id).elems == m.elems[..|m.elems| - 1]
    ensures Remove(m, key, id).idToIdx == m.idToIdx - {id}
  {
  }

  /** `IdMap::get`: Some exactly for live ids, holding the element that carries the queried id. */
  function Get<T>(m: IdMap<T>, key: T -> nat, id: nat): (r: Option<T>)
    requires Valid(m, key)
    ensures r.Some? <==> id in Contents(m)
    ensures r.Some? ==> r.value == Contents(m)[id] && key(r.value) == id
  {
    if id in m.idToIdx then Some(m.elems[m.idToIdx[id]]) else None
  }

  /**
    `IdMap::get_mut` followed by an update through the returned reference: the
    element stored for a live id is replaced (its id cannot change, the source
    keeps it private); for an id that is not live nothing happens.
  */
  function Update<T>(m: IdMap<T>, key: T -> nat, id: nat, e: T): (r: IdMap<T>)
    requires Valid(m, key)
    requires key(e) == id
    ensures Valid(r, key)
    ensures id in Contents(m) ==> Contents(r) == Contents(m)[id := e]
    ensures id !in Contents(m) ==> r == m
  {
    if id in m.idToIdx then
      var r := IdMap(m.elems[m.idToIdx[id] := e], m.idToIdx);
      assert Contents(r) == Contents(m)[id := e];
      r
    else m
  }

  /** `IdMap::len`. */
  function Len<T>(m: IdMap<T>, key: T -> nat): (n: nat)
    requires Valid(m, key)
    ensures n == |Contents(m)|
  {
    LenIsLiveCount(m, key);
    |m.elems|
  }

  /** `IdMap::elems`: every live element once, each resolving to itself through its id. */
  function Elems<T>(m: IdMap<T>, key: T -> nat): (s: seq<T>)
    requires Valid(m, key)
    ensures |s| == Len(m, key)
    ensures forall i | 0 <= i < |s| :: key(s[i]) in Contents(m) && Contents(m)[key(s[i])] == s[i]
    ensures forall id | id in Contents(m) :: exists i | 0 <= i < |s| :: key(s[i]) == id
    ensures forall i, j | 0 <= i < j < |s| :: key(s[i]) != key(s[j])
  {
    assert forall id | id in Contents(m) :: key(m.elems[m.idToIdx[id]]) == id;
    m.elems
  }

  /** The elements of the `basic` test are their own ids. */
  function SelfId(x: nat): nat { x }

  /** The `basic` test: insert 1, insert 2, remove 1, insert 3. */
  lemma BasicScenario()
    ensures var m2 := Insert(Insert(Empty(SelfId), SelfId, 1), SelfId, 2);
      && Get(m2, SelfId, 1) == Some(1) && Get(m2, SelfId, 2) == Some(2) && Len(m2, SelfId) == 2
      && var m3 := Remove(m2, SelfId, 1);
      && Get(m3, SelfId, 2) == Some(2) && Len(m3, SelfId) == 1
      && 3 !in m3.idToIdx
      && var m4 := Insert(m3, SelfId, 3);
      && Get(m4, SelfId, 3) == Some(3) && Len(m4, SelfId) == 2
  {
    var m0: IdMap<nat> := Empty(SelfId);
    var m1 := Insert(m0, SelfId, 1);
    var m2 := Insert(m1, SelfId, 2);
    var m3 := Remove(m2, SelfId, 1);
    assert 3 !in Contents(m3);
  }
}

=== FILE: map.dfy ===
/**
  The map behaviours of src/map.rs: the tile loop of `create_map` with the
  units and magic circles it spawns, `InventoryLogic`, and the flag-setting
  half of `VictoryLogic`.  Reading the map file is not modelled: its parsed
  settings arrive as a `MapConfig`, and those of the four unit files as a
  `UnitFiles`.
*/
module Map {
  import opened Wrappers
  import opened Util
  import opened Game
  import opened Grid
  import opened Words
  import Unit
  import Cursor
  import Announce

  /** `MapConfig`: the settings a map file holds. */
  datatype MapConfig = MapConfig(
    tilesheet: string,
    width: int,
    height: int,
    tiles: string,
    words: seq<string>,
    nextMap: string)

  /** `MapConfig::new`: the values of an empty map file. */
  function DefaultMapConfig(): (c: MapConfig)
    ensures c.width == 32 && c.height == 32
    ensures c.tiles == "" && c.words == [] && c.nextMap == "" && c.tilesheet == ""
  {
    MapConfig("", 32, 32, "", [], "")
  }

  /** The parsed data/wizard.cfg, data/goblin.cfg, data/duck.cfg and data/dragon.cfg. */
  datatype UnitFiles = UnitFiles(wizard: Unit.UnitConfig, goblin: Unit.UnitConfig, duck: Unit.UnitConfig, dragon: Unit.UnitConfig)

  /**
    Why `create_map` gives up (the source panics): a zero width divides by
    zero in `index_to_xy`, a digit indexes past the word list, the cell count
    overflows `i32`, or the tile count is not width x height.
  */
  datatype MapError = ZeroWidth | MissingWord(index: nat) | CellCountOverflow | TileCount(cells: int, tiles: nat)

  /** The characters that spawn a unit: W (the wizard), g d r (monsters) and D R G (allies). */
  predicate IsUnitChar(c: char) {
    c == 'W' || c == 'g' || c == 'd' || c == 'D' || c == 'r' || c == 'R' || c == 'G'
  }

  /** The unit characters whose unit is on the player's side. */
  predicate IsOursChar(c: char) {
    c == 'W' || c == 'D' || c == 'R' || c == 'G'
  }

  /** The unit file each unit character spawns from. */
  function UnitFileOf(files: UnitFiles, c: char): Unit.UnitConfig
    requires IsUnitChar(c)
  {
    match c
    case 'W' => files.wizard
    case 'g' => files.goblin
    case 'G' => files.goblin
    case 'd' => files.duck
    case 'D' => files.duck
    case _ => files.dragon
  }

  /** A character that places an object on its tile. */
  predicate IsSpawnChar(c: char) {
    IsUnitChar(c) || IsDigitChar(c)
  }

  /** The tile a character leaves behind: a spawn character stands on open floor. */
  function TileOf(c: char): (t: char)
    ensures IsSpawnChar(c) ==> t == 's'
    ensures !IsSpawnChar(c) ==> t == c
  {
    if IsSpawnChar(c) then 's' else c
  }

  /** The pixel position of the `n`-th tile: its column and row (from the `i32` index) times 32. */
  function TilePixel(n: nat, w: int): (p: (real, real))
    requires w != 0
    ensures n < 0x8000_0000 && w > 0 ==> p == ((n % w) as real * 32.0, (n / w) as real * 32.0)
  {
    var (x, y) := IndexToXy(WrapI32(n), w);
    (x as real * 32.0, y as real * 32.0)
  }

  /** What the tile loop has built so far: the tiles, the wizard's id and the game state. */
  datatype Spawn = Spawn(tiles: seq<char>, wizardId: nat, st: GameState)

  /** One character of the tile loop. */
  function SpawnOne(mapId: nat, cfg: MapConfig, files: UnitFiles, acc: Spawn, c: char): (r: Result<Spawn, MapError>)
  {
    if cfg.width == 0 then Err(ZeroWidth)
    else
      var (x, y) := TilePixel(|acc.tiles|, cfg.width);
      if IsUnitChar(c) then
        var (u, st1) := Unit.CreateUnit(mapId, UnitFileOf(files, c), IsOursChar(c), acc.st);
        Ok(Spawn(acc.tiles + ['s'], if c == 'W' then u.id else acc.wizardId, AddObject(st1, u.(x := x, y := y))))
      else if IsDigitChar(c) then
        if DigitValue(c) >= |cfg.words| then Err(MissingWord(DigitValue(c)))
        else
          var (m, st1) := Unit.CreateMagicCircle(mapId, cfg.words[DigitValue(c)], acc.st);
          Ok(Spawn(acc.tiles + ['s'], acc.wizardId, AddObject(st1, m.(x := x, y := y))))
      else Ok(Spawn(acc.tiles + [c], acc.wizardId, acc.st))
  }

  /** The object a spawn character places: a unit from the character's file or a circle with the digit's word. */
  predicate SpawnedAs(o: Object, c: char, id: nat, mapId: nat, pos: (real, real), cfg: MapConfig, files: UnitFiles)
    requires IsSpawnChar(c)
  {
    && o.id == id && o.parent == mapId && o.hasPos && o.x == pos.0 && o.y == pos.1
    && (IsUnitChar(c) ==>
          var u := UnitFileOf(files, c);
          && o.canAct && o.hasHealth && o.isSolid && !o.isMagicCircle
          && o.isOurs == IsOursChar(c) && o.name == u.name
          && o.health == u.health && o.actionPoints == u.actionPoints && o.damage == u.damage)
    && (IsDigitChar(c) ==>
          && DigitValue(c) < |cfg.words|
          && o.isMagicCircle && o.hasName && o.word == cfg.words[DigitValue(c)]
          && !o.canAct && !o.isOurs && !o.hasHealth)
  }

  /** How many spawn characters a string holds. */
  function SpawnCount(cs: seq<char>): (n: nat)
    ensures n <= |cs|
  {
    if |cs| == 0 then 0
    else SpawnCount(cs[..|cs| - 1]) + (if IsSpawnChar(cs[|cs| - 1]) then 1 else 0)
  }

  /** One character's step: its tile is pushed, and a spawn character adds exactly one object on a fresh id. */
  lemma SpawnOneSpec(mapId: nat, cfg: MapConfig, files: UnitFiles, acc: Spawn, c: char)
    ensures SpawnOne(mapId, cfg, files, acc, c).Ok? <==>
      cfg.width != 0 && (IsDigitChar(c) ==> DigitValue(c) < |cfg.words|)
    ensures SpawnOne(mapId, cfg, files, acc, c).Ok? ==>
      var r := SpawnOne(mapId, cfg, files, acc, c).value;
      && r.tiles == acc.tiles + [TileOf(c)]
      && r.st == acc.st.(idMint := r.st.idMint, newObjects := r.st.newObjects)
      && (!IsSpawnChar(c) ==> r.st == acc.st && r.wizardId == acc.wizardId)
      && (IsSpawnChar(c) ==>
            && r.st.idMint.nextId == acc.st.idMint.nextId + 1
            && |r.st.newObjects| == |acc.st.newObjects| + 1
            && r.st.newObjects[..|acc.st.newObjects|] == acc.st.newObjects
            && SpawnedAs(r.st.newObjects[|acc.st.newObjects|], c, acc.st.idMint.nextId, mapId,
                         TilePixel(|acc.tiles|, cfg.width), cfg, files))
      && r.wizardId == (if c == 'W' then acc.st.idMint.nextId else acc.wizardId)
  {
  }

  /** The tile loop of `create_map` over the non-whitespace characters, left to right. */
  function SpawnAll(mapId: nat, cfg: MapConfig, files: UnitFiles, cs: seq<char>, st: GameState): (r: Result<Spawn, MapError>)
    decreases |cs|
  {
    if |cs| == 0 then Ok(Spawn([], 0, st))
    else match SpawnAll(mapId, cfg, files, cs[..|cs| - 1], st)
      case Err(e) => Err(e)
      case Ok(acc) => SpawnOne(mapId, cfg, files, acc, cs[|cs| - 1])
  }

  /** Every character of `cs` can be placed: a non-zero width, and a word for every digit. */
  predicate Placeable(cfg: MapConfig, cs: seq<char>) {
    && (|cs| == 0 || cfg.width != 0)
    && forall j | 0 <= j < |cs| :: IsDigitChar(cs[j]) ==> DigitValue(cs[j]) < |cfg.words|
  }

  /** The tile loop completes exactly when every character is placeable. */
  lemma {:induction false} SpawnAllSucceedsIff(mapId: nat, cfg: MapConfig, files: UnitFiles, cs: seq<char>, st: GameState)
    ensures SpawnAll(mapId, cfg, files, cs, st).Ok? <==> Placeable(cfg, cs)
    decreases |cs|
  {
    if |cs| > 0 {
      var n := |cs| - 1;
      var pre := cs[..n];
      SpawnAllSucceedsIff(mapId, cfg, files, pre, st);
      assert Placeable(cfg, cs) <==> Placeable(cfg, pre) && (IsDigitChar(cs[n]) ==> DigitValue(cs[n]) < |cfg.words|) && cfg.width != 0 by {
        assert forall j | 0 <= j < n :: pre[j] == cs[j];
      }
      if SpawnAll(mapId, cfg, files, pre, st).Ok? {
        SpawnOneSpec(mapId, cfg, files, SpawnAll(mapId, cfg, files, pre, st).value, cs[n]);
      }
    }
  }

  lemma SpawnCountPrefix(cs: seq<char>, j: nat)
    requires j < |cs|
    ensures SpawnCount(cs[..j + 1]) == SpawnCount(cs[..j]) + (if IsSpawnChar(cs[j]) then 1 else 0)
    ensures IsSpawnChar(cs[j]) ==> SpawnCount(cs[..j]) < SpawnCount(cs)
  {
    assert cs[..j + 1][..j] == cs[..j];
    SpawnCountMonotone(cs, j + 1);
  }

  lemma {:induction false} SpawnCountMonotone(cs: seq<char>, j: nat)
    requires j <= |cs|
    ensures SpawnCount(cs[..j]) <= SpawnCount(cs)
    decreases |cs|
  {
    if j < |cs| {
      var n := |cs| - 1;
      assert cs[..n][..j] == cs[..j];
      SpawnCountMonotone(cs[..n], j);
    } else {
      assert cs[..j] == cs;
    }
  }

  /** A successful tile loop pushes the tiles in order and appends one object per spawn character on as many fresh ids. */
  lemma {:induction false} SpawnAllShape(mapId: nat, cfg: MapConfig, files: UnitFiles, cs: seq<char>, st: GameState)
    requires SpawnAll(mapId, cfg, files, cs, st).Ok?
    ensures var r := SpawnAll(mapId, cfg, files, cs, st).value;
      && |r.tiles| == |cs|
      && (forall j | 0 <= j < |cs| :: r.tiles[j] == TileOf(cs[j]))
      && r.st == st.(idMint := r.st.idMint, newObjects := r.st.newObjects)
      && r.st.idMint.nextId == st.idMint.nextId + SpawnCount(cs)
      && |r.st.newObjects| == |st.newObjects| + SpawnCount(cs)
      && r.st.newObjects[..|st.newObjects|] == st.newObjects
    decreases |cs|
  {
    if |cs| > 0 {
      var n := |cs| - 1;
      var pre := cs[..n];
      SpawnAllShape(mapId, cfg, files, pre, st);
      var acc := SpawnAll(mapId, cfg, files, pre, st).value;
      SpawnOneSpec(mapId, cfg, files, acc, cs[n]);
      var r := SpawnAll(mapId, cfg, files, cs, st).value;
      assert r == SpawnOne(mapId, cfg, files, acc, cs[n]).value;
      assert r.tiles == acc.tiles + [TileOf(cs[n])];
      forall j | 0 <= j < |cs| ensures r.tiles[j] == TileOf(cs[j]) {
        if j < n {
          assert pre[j] == cs[j];
        }
      }
      assert r.st.newObjects[..|st.newObjects|] == st.newObjects by {
        assert acc.st.newObjects[..|st.newObjects|] == st.newObjects;
        assert r.st.newObjects[..|acc.st.newObjects|] == acc.st.newObjects;
      }
    }
  }

  /** The object the `j`-th character spawned sits at the loop's `SpawnCount(cs[..j])`-th new slot and id. */
  predicate PlacedAt(mapId: nat, cfg: MapConfig, files: UnitFiles, cs: seq<char>, st: GameState, r: Spawn, j: int)
    requires cfg.width != 0
    requires 0 <= j < |cs| && IsSpawnChar(cs[j])
  {
    && |st.newObjects| + SpawnCount(cs[..j]) < |r.st.newObjects|
    && SpawnedAs(r.st.newObjects[|st.newObjects| + SpawnCount(cs[..j])], cs[j],
                 st.idMint.nextId + SpawnCount(cs[..j]), mapId, TilePixel(j, cfg.width), cfg, files)
  }

  /** Each spawn character's object is a unit from its file, or a circle with its word, on its tile's pixel position. */
  lemma {:induction false} SpawnAllPlaced(mapId: nat, cfg: MapConfig, files: UnitFiles, cs: seq<char>, st: GameState)
    requires SpawnAll(mapId, cfg, files, cs, st).Ok?
    ensures |cs| > 0 ==> cfg.width != 0
    ensures forall j | 0 <= j < |cs| && IsSpawnChar(cs[j]) ::
      PlacedAt(mapId, cfg, files, cs, st, SpawnAll(mapId, cfg, files, cs, st).value, j)
    decreases |cs|
  {
    if |cs| > 0 {
      var n := |cs| - 1;
      var pre := cs[..n];
      SpawnAllPlaced(mapId, cfg, files, pre, st);
      SpawnAllShape(mapId, cfg, files, pre, st);
      var acc := SpawnAll(mapId, cfg, files, pre, st).value;
      SpawnOneSpec(mapId, cfg, files, acc, cs[n]);
      var r := SpawnAll(mapId, cfg, files, cs, st).value;
      assert r == SpawnOne(mapId, cfg, files, acc, cs[n]).value;
      forall j | 0 <= j < |cs| && IsSpawnChar(cs[j])
        ensures PlacedAt(mapId, cfg, files, cs, st, r, j)
      {
        SpawnCountPrefix(cs, j);
        if j < n {
          PlacedBefore(mapId, cfg, files, cs, st, acc, r, j);
        } else {
          assert cs[..j] == pre;
        }
      }
    }
  }

  /** An object placed before the last character keeps its slot when that character is processed. */
  lemma PlacedBefore(mapId: nat, cfg: MapConfig, files: UnitFiles, cs: seq<char>, st: GameState, acc: Spawn, r: Spawn, j: int)
    requires cfg.width != 0 && 0 <= j < |cs| - 1 && IsSpawnChar(cs[j])
    requires PlacedAt(mapId, cfg, files, cs[..|cs| - 1], st, acc, j)
    requires |acc.st.newObjects| <= |r.st.newObjects| && r.st.newObjects[..|acc.st.newObjects|] == acc.st.newObjects
    ensures PlacedAt(mapId, cfg, files, cs, st, r, j)
  {
    var pre := cs[..|cs| - 1];
    assert pre[j] == cs[j];
    assert pre[..j] == cs[..j];
    var k := |st.newObjects| + SpawnCount(cs[..j]);
    assert r.st.newObjects[k] == r.st.newObjects[..|acc.st.newObjects|][k];
  }

  /** No 'W' in `cs` after position `j`. */
  predicate LastWizardAt(cs: seq<char>, j: int) {
    0 <= j < |cs| && cs[j] == 'W' && forall k | j < k < |cs| :: cs[k] != 'W'
  }

  /** The wizard id is that of the unit the last 'W' spawned, or 0 when there is no 'W'. */
  lemma {:induction false} SpawnAllWizard(mapId: nat, cfg: MapConfig, files: UnitFiles, cs: seq<char>, st: GameState)
    requires SpawnAll(mapId, cfg, files, cs, st).Ok?
    ensures (forall k | 0 <= k < |cs| :: cs[k] != 'W') ==> SpawnAll(mapId, cfg, files, cs, st).value.wizardId == 0
    ensures forall j | LastWizardAt(cs, j) ::
      SpawnAll(mapId, cfg, files, cs, st).value.wizardId == st.idMint.nextId + SpawnCount(cs[..j])
    decreases |cs|
  {
    if |cs| > 0 {
      var n := |cs| - 1;
      var pre := cs[..n];
      SpawnAllWizard(mapId, cfg, files, pre, st);
      SpawnAllShape(mapId, cfg, files, pre, st);
      var acc := SpawnAll(mapId, cfg, files, pre, st).value;
      SpawnOneSpec(mapId, cfg, files, acc, cs[n]);
      assert cs[..n] == pre;
      forall j | LastWizardAt(cs, j)
        ensures SpawnAll(mapId, cfg, files, cs, st).value.wizardId == st.idMint.nextId + SpawnCount(cs[..j])
      {
        if j < n {
          assert LastWizardAt(pre, j);
          assert pre[..j] == cs[..j];
        }
      }
      if forall k | 0 <= k < |cs| :: cs[k] != 'W' {
        assert forall k | 0 <= k < n :: pre[k] != 'W' by {
          assert forall k | 0 <= k < n :: pre[k] == cs[k];
        }
      }
    }
  }

  /** The map text as the loop reads it: `trim` and the whitespace filter leave the non-whitespace characters. */
  function MapChars(cfg: MapConfig): string {
    NonWhitespace(cfg.tiles)
  }

  /** Fresh map data holding the loop's tiles and wizard, with an all-clear collision map. */
  function LoadedMapData(filename: string, cfg: MapConfig, sp: Spawn): (md: MapState)
    requires IsI32(cfg.height * cfg.width) && cfg.height * cfg.width == |sp.tiles|
    ensures md.tiles == sp.tiles && md.width == cfg.width && md.height == cfg.height
    ensures forall j | 0 <= j < |md.collisionMap| :: !md.collisionMap[j]
    ensures md.wizardId == sp.wizardId && md.filename == filename && md.nextMap == cfg.nextMap
    ensures md == NewMapData().(filename := md.filename, nextMap := md.nextMap, tiles := md.tiles, width := md.width,
                                height := md.height, wizardId := md.wizardId, collisionMap := md.collisionMap)
  {
    var cells := seq(|sp.tiles|, _ => false);
    var md := NewMapData().(filename := filename, nextMap := cfg.nextMap, tiles := sp.tiles,
                             width := cfg.width, height := cfg.height, wizardId := sp.wizardId,
                             collisionMap := cells);
    assert md.width * md.height == cfg.height * cfg.width;
    md
  }

  /**
    `create_map` after the file is parsed: the map object takes the next id,
    the tile loop spawns units and circles on the following ids, the tile
    count is checked, the collision map is cleared, and a cursor and the
    "Defeat all monsters!" banner follow.  The map object is returned to the
    caller, which adds it; the state now names it as the current map.
  */
  function CreateMap(filename: string, cfg: MapConfig, files: UnitFiles, st: GameState): (r: Result<(Object, GameState), MapError>)
  {
    var (mapId, st1) := NewId(st);
    match SpawnAll(mapId, cfg, files, MapChars(cfg), st1)
    case Err(e) => Err(e)
    case Ok(sp) =>
      if !IsI32(cfg.height * cfg.width) then Err(CellCountOverflow)
      else if cfg.height * cfg.width != |sp.tiles| then Err(TileCount(cfg.height * cfg.width, |sp.tiles|))
      else
        var md := LoadedMapData(filename, cfg, sp);
        var (cursor, st2) := Cursor.CreateCursor(mapId, sp.st);
        var st3 := AddObject(st2, cursor).(currentMapId := mapId);
        Ok((NewObject(mapId).(isMap := true, mapData := md), Announce.Announce(mapId, "Defeat all monsters!", st3)))
  }

  /** `create_map` succeeds exactly when every character is placeable and the cell count is an `i32` equal to the tile count. */
  lemma CreateMapSucceedsIff(filename: string, cfg: MapConfig, files: UnitFiles, st: GameState)
    ensures CreateMap(filename, cfg, files, st).Ok? <==>
      && Placeable(cfg, MapChars(cfg))
      && IsI32(cfg.height * cfg.width)
      && cfg.height * cfg.width == |MapChars(cfg)|
  {
    var (mapId, st1) := NewId(st);
    SpawnAllSucceedsIff(mapId, cfg, files, MapChars(cfg), st1);
    if SpawnAll(mapId, cfg, files, MapChars(cfg), st1).Ok? {
      SpawnAllShape(mapId, cfg, files, MapChars(cfg), st1);
    }
  }

  /**
    A loaded map object carries the next id and fresh map data: the map text
    with spawn characters turned to floor, a clear collision map, the file's
    size and next map, and the id of the unit the last 'W' spawned.
  */
  lemma CreateMapObject(filename: string, cfg: MapConfig, files: UnitFiles, st: GameState)
    requires CreateMap(filename, cfg, files, st).Ok?
    ensures var m := CreateMap(filename, cfg, files, st).value.0;
      var cs := MapChars(cfg);
      var mapId := st.idMint.nextId;
      && m.id == mapId && m.isMap && !m.hasPos && !m.canAct
      && m.mapData.width == cfg.width && m.mapData.height == cfg.height
      && m.mapData.filename == filename && m.mapData.nextMap == cfg.nextMap
      && |m.mapData.tiles| == |cs| && (forall j | 0 <= j < |cs| :: m.mapData.tiles[j] == TileOf(cs[j]))
      && (forall j | 0 <= j < |cs| :: !m.mapData.collisionMap[j])
      && m.mapData.ourTurn && m.mapData.mana == 10 && m.mapData.turn == 1 && m.mapData.spell == [[]]
      && ((forall j | 0 <= j < |cs| :: cs[j] != 'W') ==> m.mapData.wizardId == 0)
      && (forall j | LastWizardAt(cs, j) :: m.mapData.wizardId == mapId + 1 + SpawnCount(cs[..j]))
  {
    var (mapId, st1) := NewId(st);
    var cs := MapChars(cfg);
    SpawnAllShape(mapId, cfg, files, cs, st1);
    SpawnAllWizard(mapId, cfg, files, cs, st1);
  }

  /**
    Loading a map makes it current and queues, in order and on consecutive
    ids after the map's, the spawned objects, the cursor and the banner;
    nothing else in the state changes.
  */
  lemma CreateMapPending(filename: string, cfg: MapConfig, files: UnitFiles, st: GameState)
    requires CreateMap(filename, cfg, files, st).Ok?
    ensures var st' := CreateMap(filename, cfg, files, st).value.1;
      var cs := MapChars(cfg);
      var mapId := st.idMint.nextId;
      var n0 := |st.newObjects|;
      var spawned := SpawnCount(cs);
      && st'.currentMapId == mapId
      && st'.idMint.nextId == mapId + spawned + 3
      && |st'.newObjects| == n0 + spawned + 2
      && st'.newObjects[..n0] == st.newObjects
      && st'.newObjects[n0 + spawned].isCursor && st'.newObjects[n0 + spawned].parent == mapId
      && st'.newObjects[n0 + spawned].id == mapId + 1 + spawned
      && st'.newObjects[n0 + spawned + 1].isAnnouncement
      && st'.newObjects[n0 + spawned + 1].announcement == "Defeat all monsters!"
      && st'.newObjects[n0 + spawned + 1].id == mapId + spawned + 2
      && st' == st.(idMint := st'.idMint, newObjects := st'.newObjects, currentMapId := st'.currentMapId)
  {
    var (mapId, st1) := NewId(st);
    var cs := MapChars(cfg);
    SpawnAllShape(mapId, cfg, files, cs, st1);
    var sp := SpawnAll(mapId, cfg, files, cs, st1).value;
    var (cursor, st2) := Cursor.CreateCursor(mapId, sp.st);
    var st3 := AddObject(st2, cursor).(currentMapId := mapId);
    var st4 := Announce.Announce(mapId, "Defeat all monsters!", st3);
    var n0 := |st.newObjects|;
    assert st4.newObjects[..n0] == st.newObjects by {
      assert st4.newObjects[..|st3.newObjects|] == st3.newObjects;
      assert st3.newObjects[..n0] == sp.st.newObjects[..n0] == st.newObjects;
    }
  }

  /** The spawned objects of a loaded map are queued in character order, each described by its character. */
  lemma CreateMapSpawns(filename: string, cfg: MapConfig, files: UnitFiles, st: GameState, j: int)
    requires CreateMap(filename, cfg, files, st).Ok?
    requires 0 <= j < |MapChars(cfg)| && IsSpawnChar(MapChars(cfg)[j])
    ensures cfg.width != 0
    ensures var st' := CreateMap(filename, cfg, files, st).value.1;
      var cs := MapChars(cfg);
      var k := |st.newObjects| + SpawnCount(cs[..j]);
      && k < |st'.newObjects|
      && SpawnedAs(st'.newObjects[k], cs[j], st.idMint.nextId + 1 + SpawnCount(cs[..j]),
                   st.idMint.nextId, TilePixel(j, cfg.width), cfg, files)
  {
    var cs := MapChars(cfg);
    CreateMapSpawnsAt(filename, cfg, files, st, j, cs, CreateMap(filename, cfg, files, st).value.1.newObjects,
      |st.newObjects| + SpawnCount(cs[..j]), st.idMint.nextId + 1 + SpawnCount(cs[..j]));
  }

  lemma CreateMapSpawnsAt(filename: string, cfg: MapConfig, files: UnitFiles, st: GameState, j: int,
                          cs: seq<char>, q: seq<Object>, k: int, id: nat)
    requires CreateMap(filename, cfg, files, st).Ok? && q == CreateMap(filename, cfg, files, st).value.1.newObjects
    requires cs == MapChars(cfg) && 0 <= j < |cs| && IsSpawnChar(cs[j])
    requires k == |st.newObjects| + SpawnCount(cs[..j]) && id == st.idMint.nextId + 1 + SpawnCount(cs[..j])
    ensures cfg.width != 0
    ensures 0 <= k < |q| && SpawnedAs(q[k], cs[j], id, st.idMint.nextId, TilePixel(j, cfg.width), cfg, files)
  {
    var (mapId, st1) := NewId(st);
    SpawnAllShape(mapId, cfg, files, cs, st1);
    SpawnAllPlaced(mapId, cfg, files, cs, st1);
    var sp := SpawnAll(mapId, cfg, files, cs, st1).value;
    assert PlacedAt(mapId, cfg, files, cs, st1, sp, j);
    CreateMapKeepsSpawns(filename, cfg, files, st);
    assert |st1.newObjects| == |st.newObjects| && st1.idMint.nextId + SpawnCount(cs[..j]) == id;
    PrefixAt(q, sp.st.newObjects, k);
    PlacedAtIs(mapId, cfg, files, cs, st1, sp, j, k, id);
    assert mapId == st.idMint.nextId;
    SpawnedAsSame(sp.st.newObjects[k], q[k], cs[j], id, st.idMint.nextId, TilePixel(j, cfg.width), cfg, files);
  }

  lemma PlacedAtIs(mapId: nat, cfg: MapConfig, files: UnitFiles, cs: seq<char>, st: GameState, r: Spawn, j: int, k: int, id: nat)
    requires cfg.width != 0 && 0 <= j < |cs| && IsSpawnChar(cs[j]) && PlacedAt(mapId, cfg, files, cs, st, r, j)
    requires k == |st.newObjects| + SpawnCount(cs[..j]) && id == st.idMint.nextId + SpawnCount(cs[..j])
    ensures 0 <= k < |r.st.newObjects| && SpawnedAs(r.st.newObjects[k], cs[j], id, mapId, TilePixel(j, cfg.width), cfg, files)
  {
  }

  lemma SpawnedAsSame(o: Object, o': Object, c: char, id: nat, mapId: nat, pos: (real, real), cfg: MapConfig, files: UnitFiles)
    requires IsSpawnChar(c) && o' == o && SpawnedAs(o, c, id, mapId, pos, cfg, files)
    ensures SpawnedAs(o', c, id, mapId, pos, cfg, files)
  {
  }

  /** Loading queues the spawned objects first: the spawn's queue is a prefix of the loaded state's queue. */
  lemma CreateMapKeepsSpawns(filename: string, cfg: MapConfig, files: UnitFiles, st: GameState)
    requires CreateMap(filename, cfg, files, st).Ok?
    ensures var (mapId, st1) := NewId(st);
      var q := SpawnAll(mapId, cfg, files, MapChars(cfg), st1).value.st.newObjects;
      var st' := CreateMap(filename, cfg, files, st).value.1;
      |q| <= |st'.newObjects| && st'.newObjects[..|q|] == q
  {
    var (mapId, st1) := NewId(st);
    var sp := SpawnAll(mapId, cfg, files, MapChars(cfg), st1).value;
    var (cursor, st2) := Cursor.CreateCursor(mapId, sp.st);
    var st3 := AddObject(st2, cursor).(currentMapId := mapId);
    var st4 := Announce.Announce(mapId, "Defeat all monsters!", st3);
    assert st4.newObjects[..|st3.newObjects|] == st3.newObjects;
    assert st3.newObjects[..|sp.st.newObjects|] == sp.st.newObjects;
    PrefixOfPrefix(st4.newObjects, st3.newObjects, sp.st.newObjects);
  }

  lemma PrefixOfPrefix<T>(a: seq<T>, b: seq<T>, c: seq<T>)
    requires |b| <= |a| && a[..|b|] == b && |c| <= |b| && b[..|c|] == c
    ensures a[..|c|] == c
  {
    assert a[..|c|] == a[..|b|][..|c|];
  }

  lemma PrefixAt<T>(a: seq<T>, b: seq<T>, k: int)
    requires |b| <= |a| && a[..|b|] == b && 0 <= k < |b|
    ensures a[k] == b[k]
  {
    assert a[..|b|][k] == a[k];
  }

  /** The outer filter of `InventoryLogic`: a positioned unit of ours that can act. */
  predicate Holder(o: Object) {
    o.isOurs && o.canAct && o.hasPos
  }

  /** The inner filter: a positioned, named magic circle. */
  predicate Circle(o: Object) {
    o.isMagicCircle && o.hasPos && o.hasName
  }

  predicate SameTile(a: Object, b: Object) {
    a.tileX == b.tileX && a.tileY == b.tileY
  }

  /** The inner loop for one holder: the words of the circles on its tile, in slot order. */
  function CirclesUnder(u: Object, objs: seq<Object>): (r: seq<string>)
    ensures |r| <= |objs|
    decreases |objs|
  {
    if |objs| == 0 then []
    else
      var n := |objs| - 1;
      CirclesUnder(u, objs[..n]) + (if Circle(objs[n]) && SameTile(u, objs[n]) then [objs[n].word] else [])
  }

  /** Both loops over the first `n` holders' slots: every held circle's word, once per holder standing on it. */
  function HeldWordsUpTo(objs: seq<Object>, n: nat): (r: seq<string>)
    requires n <= |objs|
  {
    if n == 0 then [] else HeldWordsUpTo(objs, n - 1) + HolderWords(objs, n - 1)
  }

  /** The inner loop's contribution for slot `i`: nothing unless it holds a holder. */
  function HolderWords(objs: seq<Object>, i: nat): seq<string>
    requires i < |objs|
  {
    if Holder(objs[i]) then CirclesUnder(objs[i], objs) else []
  }

  function HeldWords(objs: seq<Object>): seq<string> {
    HeldWordsUpTo(objs, |objs|)
  }

  /** A circle on the tile of `u` that carries the word `w`. */
  predicate CircleWith(u: Object, o: Object, w: string) {
    Circle(o) && SameTile(u, o) && o.word == w
  }

  /** Some circle among the first `n` slots is on the tile of `u` and carries `w`. */
  ghost predicate Covers(u: Object, objs: seq<Object>, n: nat, w: string)
    requires n <= |objs|
  {
    exists j | 0 <= j < n :: CircleWith(u, objs[j], w)
  }

  /** Covering within a prefix is covering within the first slots of the whole. */
  lemma CoversPrefix(u: Object, objs: seq<Object>, n: nat, w: string)
    requires n <= |objs|
    ensures Covers(u, objs[..n], n, w) <==> Covers(u, objs, n, w)
  {
    if Covers(u, objs[..n], n, w) {
      var j :| 0 <= j < n && CircleWith(u, objs[..n][j], w);
      assert objs[..n][j] == objs[j];
    }
    if Covers(u, objs, n, w) {
      var j :| 0 <= j < n && CircleWith(u, objs[j], w);
      assert objs[..n][j] == objs[j];
    }
  }

  /** One more slot covers exactly when the earlier ones did or the new one does. */
  lemma CoversStep(u: Object, objs: seq<Object>, n: nat, w: string)
    requires n < |objs|
    ensures Covers(u, objs, n + 1, w) <==> Covers(u, objs, n, w) || CircleWith(u, objs[n], w)
  {
    if Covers(u, objs, n + 1, w) && !CircleWith(u, objs[n], w) {
      var j :| 0 <= j < n + 1 && CircleWith(u, objs[j], w);
      assert j < n;
    }
  }

  /** A word is under a holder exactly when some circle on its tile carries it. */
  lemma {:induction false} CirclesUnderMembers(u: Object, objs: seq<Object>, w: string)
    ensures w in CirclesUnder(u, objs) <==> Covers(u, objs, |objs|, w)
    decreases |objs|
  {
    if |objs| > 0 {
      var n := |objs| - 1;
      CirclesUnderMembers(u, objs[..n], w);
      CoversPrefix(u, objs, n, w);
      CoversStep(u, objs, n, w);
    }
  }

  /** A held word: some circle carrying it shares a tile with one of the first `n` holders. */
  ghost predicate Held(objs: seq<Object>, n: nat, w: string)
    requires n <= |objs|
  {
    exists i | 0 <= i < n :: Holder(objs[i]) && Covers(objs[i], objs, |objs|, w)
  }

  /** One more slot holds a word exactly when the earlier ones did or the new one does. */
  lemma HeldStep(objs: seq<Object>, n: nat, w: string)
    requires n < |objs|
    ensures Held(objs, n + 1, w) <==> Held(objs, n, w) || (Holder(objs[n]) && Covers(objs[n], objs, |objs|, w))
  {
    if Held(objs, n + 1, w) && !(Holder(objs[n]) && Covers(objs[n], objs, |objs|, w)) {
      var i :| 0 <= i < n + 1 && Holder(objs[i]) && Covers(objs[i], objs, |objs|, w);
      assert i < n;
    }
  }

  lemma InConcat<T>(a: seq<T>, b: seq<T>, x: T)
    ensures x in a + b <==> x in a || x in b
  {
    if x in a + b {
      var i :| 0 <= i < |a + b| && (a + b)[i] == x;
      if i >= |a| {
        assert b[i - |a|] == x;
      }
    }
  }

  lemma {:induction false} HeldWordsUpToMembers(objs: seq<Object>, n: nat, w: string)
    requires n <= |objs|
    ensures w in HeldWordsUpTo(objs, n) <==> Held(objs, n, w)
  {
    if n > 0 {
      InConcat(HeldWordsUpTo(objs, n - 1), HolderWords(objs, n - 1), w);
      HeldWordsUpToMembers(objs, n - 1, w);
      HolderWordsMembers(objs, n - 1, w);
      HeldStep(objs, n - 1, w);
    }
  }

  lemma HolderWordsMembers(objs: seq<Object>, i: nat, w: string)
    requires i < |objs|
    ensures w in HolderWords(objs, i) <==> Holder(objs[i]) && Covers(objs[i], objs, |objs|, w)
  {
    if Holder(objs[i]) {
      CirclesUnderMembers(objs[i], objs, w);
    }
  }

  /** The held words are exactly those of circles that share a tile with a unit of ours that can act. */
  lemma HeldWordsMembers(objs: seq<Object>, w: string)
    ensures w in HeldWords(objs) <==> Held(objs, |objs|, w)
  {
    HeldWordsUpToMembers(objs, |objs|, w);
  }

  /** The fields the inventory loops read. */
  predicate InventoryView(a: Object, b: Object) {
    && a.isOurs == b.isOurs && a.canAct == b.canAct && a.hasPos == b.hasPos
    && a.isMagicCircle == b.isMagicCircle && a.hasName == b.hasName
    && a.tileX == b.tileX && a.tileY == b.tileY && a.word == b.word
  }

  lemma {:induction false} CirclesUnderView(u: Object, v: Object, a: seq<Object>, b: seq<Object>)
    requires InventoryView(u, v) && |a| == |b|
    requires forall i | 0 <= i < |a| :: InventoryView(a[i], b[i])
    ensures CirclesUnder(u, a) == CirclesUnder(v, b)
    decreases |a|
  {
    if |a| > 0 {
      var n := |a| - 1;
      assert forall i | 0 <= i < n :: a[..n][i] == a[i] && b[..n][i] == b[i];
      CirclesUnderView(u, v, a[..n], b[..n]);
      assert InventoryView(a[n], b[n]);
    }
  }

  lemma {:induction false} HeldWordsUpToView(a: seq<Object>, b: seq<Object>, n: nat)
    requires |a| == |b| && n <= |a|
    requires forall i | 0 <= i < |a| :: InventoryView(a[i], b[i])
    ensures HeldWordsUpTo(a, n) == HeldWordsUpTo(b, n)
  {
    if n > 0 {
      HeldWordsUpToView(a, b, n - 1);
      CirclesUnderView(a[n - 1], b[n - 1], a, b);
      assert HolderWords(a, n - 1) == HolderWords(b, n - 1);
    }
  }

  /** The inventory the map should show: the base words and the held words, sorted. */
  function Inventory(base: seq<string>, objs: seq<Object>): (r: seq<string>)
    ensures Sorted(r)
    ensures multiset(r) == multiset(base) + multiset(HeldWords(objs))
  {
    Sort(base + HeldWords(objs))
  }

  /**
    `InventoryLogic`: the current map's inventory is rebuilt from its base
    inventory plus the word of every circle a unit of ours stands on, and
    sorted; the held-circle count is recorded.  Without a live current map
    nothing changes.
  */
  function InventoryLogic(objs: seq<Object>, st: GameState): (r: (seq<Object>, GameState))
    ensures SameIds(objs, r.0) && r.1 == st
    ensures CurrentMap(objs, st).None? ==> r.0 == objs
  {
    match CurrentMap(objs, st)
    case None => (objs, st)
    case Some(k) =>
      var md := objs[k].mapData;
      var held := HeldWords(objs);
      (WithMapData(objs, k, md.(inventory := Inventory(md.baseInventory, objs), numCirclesHeld := |held|)), st)
  }

  /**
    After `InventoryLogic` the inventory is sorted, holds each base word and
    each held word as many times as they occur, contains a word exactly when
    it is a base word or a circle's word under a unit of ours, and the count
    is the number of held words.
  */
  lemma InventoryLogicContents(objs: seq<Object>, st: GameState, w: string)
    requires CurrentMap(objs, st).Some?
    ensures var k := CurrentMap(objs, st).value;
      var md := objs[k].mapData;
      var md' := InventoryLogic(objs, st).0[k].mapData;
      && Sorted(md'.inventory)
      && multiset(md'.inventory) == multiset(md.baseInventory) + multiset(HeldWords(objs))
      && md'.numCirclesHeld == |HeldWords(objs)|
      && (w in md'.inventory <==> w in md.baseInventory || Held(objs, |objs|, w))
  {
    var k := CurrentMap(objs, st).value;
    var md := objs[k].mapData;
    var inv := InventoryLogic(objs, st).0[k].mapData.inventory;
    HeldWordsMembers(objs, w);
    assert w in inv <==> w in multiset(inv);
    assert w in md.baseInventory <==> w in multiset(md.baseInventory);
    assert w in HeldWords(objs) <==> w in multiset(HeldWords(objs));
  }

  /** The inventory is the one sorted arrangement of its words: sorting is all `sort` can have done. */
  lemma InventoryIsTheSortedOrder(objs: seq<Object>, st: GameState, order: seq<string>)
    requires CurrentMap(objs, st).Some?
    requires var md := objs[CurrentMap(objs, st).value].mapData;
      Sorted(order) && multiset(order) == multiset(md.baseInventory + HeldWords(objs))
    ensures InventoryLogic(objs, st).0[CurrentMap(objs, st).value].mapData.inventory == order
  {
    var md := objs[CurrentMap(objs, st).value].mapData;
    SortedPermutationUnique(Inventory(md.baseInventory, objs), order);
  }

  /** Replacing the map data leaves every field the inventory loops read, and so the held words. */
  lemma WithMapDataKeepsHeld(objs: seq<Object>, k: nat, md: MapState)
    requires k < |objs|
    ensures HeldWords(WithMapData(objs, k, md)) == HeldWords(objs)
  {
    var r := WithMapData(objs, k, md);
    forall i | 0 <= i < |objs| ensures InventoryView(objs[i], r[i]) {
      if i == k {
        assert r[i] == objs[i].(mapData := md);
      }
    }
    HeldWordsUpToView(objs, r, |objs|);
  }

  /** The map data `InventoryLogic` writes depends only on the base inventory and the held words. */
  function Restocked(md: MapState, objs: seq<Object>): (r: MapState)
    ensures r == md.(inventory := r.inventory, numCirclesHeld := r.numCirclesHeld)
  {
    md.(inventory := Inventory(md.baseInventory, objs), numCirclesHeld := |HeldWords(objs)|)
  }

  /** Only the current map's inventory and held-circle count change. */
  lemma InventoryLogicWrites(objs: seq<Object>, st: GameState)
    requires CurrentMap(objs, st).Some?
    ensures var k := CurrentMap(objs, st).value;
      InventoryLogic(objs, st) == (WithMapData(objs, k, Restocked(objs[k].mapData, objs)), st)
  {
  }

  /** The inventory is rebuilt from scratch each tick: a second run changes nothing. */
  lemma InventoryLogicIdempotent(objs: seq<Object>, st: GameState)
    ensures var r := InventoryLogic(objs, st); InventoryLogic(r.0, r.1) == r
  {
    var r := InventoryLogic(objs, st);
    SameIdsFind(objs, r.0, st.currentMapId);
    if CurrentMap(objs, st).Some? {
      var k := CurrentMap(objs, st).value;
      var md1 := Restocked(objs[k].mapData, objs);
      InventoryLogicWrites(objs, st);
      WithMapDataKeepsHeld(objs, k, md1);
      assert r.0[k].mapData == md1;
      assert Restocked(md1, r.0) == md1;
      InventoryLogicWrites(r.0, r.1);
      WithMapDataUnchanged(r.0, k, md1);
    }
  }

  /** What `VictoryLogic` counts as a remaining enemy: an acting object not on the player's side. */
  predicate Enemy(o: Object) {
    !o.isOurs && o.canAct
  }

  predicate AnyEnemy(objs: seq<Object>) {
    exists i | 0 <= i < |objs| :: Enemy(objs[i])
  }

  /** The wizard is gone and the defeat has not been announced yet. */
  predicate Defeated(md: MapState, objs: seq<Object>) {
    !IsLive(objs, md.wizardId) && !md.wantRestart
  }

  /** No enemy is left and the victory has not been announced yet. */
  predicate Won(md: MapState, objs: seq<Object>) {
    !AnyEnemy(objs) && !md.wantNextMap
  }

  /** The banner for a won map: the last map ends the game. */
  function VictoryText(md: MapState): string {
    if md.nextMap == "" then "You've won the game!" else "Victory!"
  }

  /** The defeat half: a missing wizard asks for a restart in four seconds, once. */
  function DefeatCheck(md: MapState, objs: seq<Object>, st: GameState): (r: (MapState, GameState))
    ensures r.0 == md.(wantRestart := r.0.wantRestart, changeTime := r.0.changeTime)
    ensures r.0.wantRestart <==> md.wantRestart || !IsLive(objs, md.wizardId)
    ensures !Defeated(md, objs) ==> r == (md, st)
  {
    if Defeated(md, objs) then
      (md.(wantRestart := true, changeTime := st.time + 4.0), Announce.Announce(st.currentMapId, "You have died!", st))
    else (md, st)
  }

  /** The victory half: with no enemy left the next map is wanted in four seconds, once. */
  function VictoryCheck(md: MapState, objs: seq<Object>, st: GameState): (r: (MapState, GameState))
    ensures r.0 == md.(wantNextMap := r.0.wantNextMap, changeTime := r.0.changeTime)
    ensures r.0.wantNextMap <==> md.wantNextMap || !AnyEnemy(objs)
    ensures !Won(md, objs) ==> r == (md, st)
  {
    if Won(md, objs) then
      (md.(wantNextMap := true, changeTime := st.time + 4.0), Announce.Announce(st.currentMapId, VictoryText(md), st))
    else (md, st)
  }

  /**
    The flag-setting part of `VictoryLogic`: on the current map, the defeat
    check and then the victory check.  Without a live current map nothing
    changes.
  */
  function VictoryLogic(objs: seq<Object>, st: GameState): (r: (seq<Object>, GameState))
    ensures SameIds(objs, r.0)
    ensures r.1 == st.(idMint := r.1.idMint, newObjects := r.1.newObjects)
    ensures CurrentMap(objs, st).None? ==> r == (objs, st)
  {
    match CurrentMap(objs, st)
    case None => (objs, st)
    case Some(k) =>
      var (md1, st1) := DefeatCheck(objs[k].mapData, objs, st);
      var (md2, st2) := VictoryCheck(md1, objs, st1);
      (WithMapData(objs, k, md2), st2)
  }

  /** On a live current map `k`, `VictoryLogic` is the two checks in turn. */
  lemma VictoryLogicAt(objs: seq<Object>, st: GameState, k: nat)
    requires CurrentMap(objs, st) == Some(k)
    ensures var c1 := DefeatCheck(objs[k].mapData, objs, st);
      var c2 := VictoryCheck(c1.0, objs, c1.1);
      VictoryLogic(objs, st) == (WithMapData(objs, k, c2.0), c2.1)
  {
  }

  /** The flags the two checks leave on a map state `md`. */
  lemma ChecksFlags(md: MapState, objs: seq<Object>, st: GameState)
    ensures var c1 := DefeatCheck(md, objs, st);
      var md' := VictoryCheck(c1.0, objs, c1.1).0;
      && (md'.wantRestart <==> md.wantRestart || !IsLive(objs, md.wizardId))
      && (md'.wantNextMap <==> md.wantNextMap || !AnyEnemy(objs))
      && md' == md.(wantRestart := md'.wantRestart, wantNextMap := md'.wantNextMap, changeTime := md'.changeTime)
      && (Defeated(md, objs) || Won(md, objs) ==> md'.changeTime == st.time + 4.0)
      && (!Defeated(md, objs) && !Won(md, objs) ==> md'.changeTime == md.changeTime)
  {
    var c1 := DefeatCheck(md, objs, st);
    assert Won(c1.0, objs) == Won(md, objs);
  }

  /**
    After `VictoryLogic` a restart is wanted exactly when it was before or the
    wizard is gone, the next map exactly when it was before or no enemy is
    left, and `change_time` is four seconds from now when either was newly
    raised.
  */
  lemma VictoryLogicFlags(objs: seq<Object>, st: GameState, k: nat)
    requires CurrentMap(objs, st) == Some(k)
    ensures var md := objs[k].mapData;
      var md' := VictoryLogic(objs, st).0[k].mapData;
      && (md'.wantRestart <==> md.wantRestart || !IsLive(objs, md.wizardId))
      && (md'.wantNextMap <==> md.wantNextMap || !AnyEnemy(objs))
      && md' == md.(wantRestart := md'.wantRestart, wantNextMap := md'.wantNextMap, changeTime := md'.changeTime)
      && (Defeated(md, objs) || Won(md, objs) ==> md'.changeTime == st.time + 4.0)
      && (!Defeated(md, objs) && !Won(md, objs) ==> md'.changeTime == md.changeTime)
  {
    VictoryLogicAt(objs, st, k);
    ChecksFlags(objs[k].mapData, objs, st);
  }

  /** The banners the two checks queue on a map state `md`. */
  lemma ChecksBanners(md: MapState, objs: seq<Object>, st: GameState)
    ensures var c1 := DefeatCheck(md, objs, st);
      var st' := VictoryCheck(c1.0, objs, c1.1).1;
      var n0 := |st.newObjects|;
      var d := if Defeated(md, objs) then 1 else 0;
      var v := if Won(md, objs) then 1 else 0;
      && |st'.newObjects| == n0 + d + v
      && st'.newObjects[..n0] == st.newObjects
      && st'.idMint.nextId == st.idMint.nextId + d + v
      && (Defeated(md, objs) ==>
            st'.newObjects[n0].isAnnouncement && st'.newObjects[n0].announcement == "You have died!")
      && (Won(md, objs) ==>
            st'.newObjects[n0 + d].isAnnouncement && st'.newObjects[n0 + d].announcement == VictoryText(md))
  {
    var c1 := DefeatCheck(md, objs, st);
    var st1 := c1.1;
    assert Won(c1.0, objs) == Won(md, objs);
    assert VictoryText(c1.0) == VictoryText(md);
    if Won(md, objs) {
      var st2 := VictoryCheck(c1.0, objs, st1).1;
      assert st2 == Announce.Announce(st.currentMapId, VictoryText(md), st1);
      PrefixOfPrefix(st2.newObjects, st1.newObjects, st.newObjects);
      if Defeated(md, objs) {
        PrefixAt(st2.newObjects, st1.newObjects, |st.newObjects|);
      }
    }
  }

  /**
    `VictoryLogic` queues a "You have died!" banner when the wizard has just
    gone missing, then the victory banner when the last enemy has just gone,
    and nothing else.
  */
  lemma VictoryLogicBanners(objs: seq<Object>, st: GameState, k: nat)
    requires CurrentMap(objs, st) == Some(k)
    ensures var md := objs[k].mapData;
      var st' := VictoryLogic(objs, st).1;
      var n0 := |st.newObjects|;
      var d := if Defeated(md, objs) then 1 else 0;
      var v := if Won(md, objs) then 1 else 0;
      && |st'.newObjects| == n0 + d + v
      && st'.newObjects[..n0] == st.newObjects
      && st'.idMint.nextId == st.idMint.nextId + d + v
      && (Defeated(md, objs) ==>
            st'.newObjects[n0].isAnnouncement && st'.newObjects[n0].announcement == "You have died!")
      && (Won(md, objs) ==>
            st'.newObjects[n0 + d].isAnnouncement && st'.newObjects[n0 + d].announcement == VictoryText(md))
  {
    VictoryLogicAt(objs, st, k);
    ChecksBanners(objs[k].mapData, objs, st);
  }

  /** Replacing the map data keeps who is live and whether an enemy remains. */
  lemma WithMapDataKeepsVictory(objs: seq<Object>, k: nat, md: MapState, id: nat)
    requires k < |objs|
    ensures IsLive(WithMapData(objs, k, md), id) == IsLive(objs, id)
    ensures AnyEnemy(WithMapData(objs, k, md)) == AnyEnemy(objs)
  {
    var r := WithMapData(objs, k, md);
    SameIdsFind(objs, r, id);
    assert forall i | 0 <= i < |objs| :: Enemy(r[i]) == Enemy(objs[i]) by {
      forall i | 0 <= i < |objs| ensures Enemy(r[i]) == Enemy(objs[i]) {
        if i == k {
          assert r[i] == objs[i].(mapData := md);
        }
      }
    }
  }

  /** Each banner is queued once: a second run of `VictoryLogic` changes nothing. */
  lemma VictoryLogicIdempotent(objs: seq<Object>, st: GameState)
    ensures var r := VictoryLogic(objs, st); VictoryLogic(r.0, r.1) == r
  {
    var r := VictoryLogic(objs, st);
    SameIdsFind(objs, r.0, st.currentMapId);
    if CurrentMap(objs, st).Some? {
      var k := CurrentMap(objs, st).value;
      var md := objs[k].mapData;
      var (md1, st1) := DefeatCheck(md, objs, st);
      var (md2, st2) := VictoryCheck(md1, objs, st1);
      assert r == (WithMapData(objs, k, md2), st2);
      WithMapDataKeepsVictory(objs, k, md2, md2.wizardId);
      assert r.0[k].mapData == md2;
      assert !Defeated(md2, r.0) && !Won(md2, r.0);
      assert DefeatCheck(md2, r.0, r.1) == (md2, r.1);
      assert VictoryCheck(md2, r.0, r.1) == (md2, r.1);
      assert r.1.currentMapId == st.currentMapId;
      WithMapDataUnchanged(r.0, k, md2);
    }
  }
}

=== FILE: orders.dfy ===
/**
  The order-giving half of src/path.rs: `make_path` run on a unit and its map,
  `order_unit` (a path plus a possible attack), `PathableInput` (the right
  click that plans a path or confirms the planned one) and `OrdersLogic`
  (walking and attacking, one tick at a time).
*/
module Orders {
  import opened Wrappers
  import opened Util
  import opened Game
  import opened Grid
  import PathSearch
  import Effect

  type Pos = (int, int)

  function Tile(o: Object): Pos {
    (o.tileX, o.tileY)
  }

  function OrderPos(o: Order): Pos {
    (o.x, o.y)
  }

  /** `map_tile_solid` on the map, as a test on tiles. */
  function Solid(md: MapState): Pos -> bool {
    (p: Pos) => MapTileSolid(p.0, p.1, md)
  }

  /** The search `make_path` runs for unit `o`: its tile, its action points, and the map's solidity. */
  function PathCtx(o: Object, goal: Pos, md: MapState): PathSearch.Ctx {
    PathSearch.Ctx(Tile(o), goal, o.actionPoints, Solid(md))
  }

  /** One move order per tile. */
  function MoveOrders(ps: seq<Pos>): (r: seq<Order>)
    ensures |r| == |ps|
    ensures forall i | 0 <= i < |ps| :: r[i].orderType == MoveTo && OrderPos(r[i]) == ps[i]
  {
    seq(|ps|, i requires 0 <= i < |ps| => Order(ps[i].0, ps[i].1, MoveTo))
  }

  /** Move orders along a walk out of `start` through distinct open tiles of the map. */
  predicate WalkFrom(start: Pos, orders: seq<Order>, md: MapState) {
    && (forall i | 0 <= i < |orders| :: orders[i].orderType == MoveTo && !Solid(md)(OrderPos(orders[i])))
    && (|orders| > 0 ==> Adjacent(start, OrderPos(orders[0])))
    && (forall i | 0 <= i < |orders| - 1 :: Adjacent(OrderPos(orders[i]), OrderPos(orders[i + 1])))
    && (forall i, j | 0 <= i < j < |orders| :: OrderPos(orders[i]) != OrderPos(orders[j]))
  }

  /** Where a unit stands once its orders are walked: the last order's tile, or its own tile. */
  function PathEnd(start: Pos, orders: seq<Order>): Pos {
    if |orders| == 0 then start else OrderPos(orders[|orders| - 1])
  }

  /**
    `make_path`: the unit's orders are replaced by move orders along a walk
    through open tiles that never returns to its own tile and costs at most
    its action points.
  */
  function MakePath(o: Object, goal: Pos, md: MapState): (r: seq<Order>)
    ensures WalkFrom(Tile(o), r, md)
    ensures forall i | 0 <= i < |r| :: OrderPos(r[i]) != Tile(o)
    ensures |r| > 0 ==> |r| <= o.actionPoints
  {
    var c := PathCtx(o, goal, md);
    var ps := PathSearch.PathOf(c);
    PathSearch.PathIsWalk(c);
    MovesWalk(c, ps, md);
    MoveOrders(ps)
  }

  /** Tiles that form a walk of open tiles away from the unit's tile become move orders that do too. */
  lemma MovesWalk(c: PathSearch.Ctx, ps: seq<Pos>, md: MapState)
    requires c.solid == Solid(md) && PathSearch.Chain(c.start, ps)
    requires forall i | 0 <= i < |ps| :: PathSearch.Walkable(c, ps[i]) && ps[i] != c.start
    requires forall i, j | 0 <= i < j < |ps| :: ps[i] != ps[j]
    requires |ps| > 0 ==> |ps| <= c.ap
    ensures var r := MoveOrders(ps);
      && WalkFrom(c.start, r, md)
      && (forall i | 0 <= i < |r| :: OrderPos(r[i]) != c.start)
      && (|r| > 0 ==> |r| <= c.ap)
  {
  }

  /** The path's end is where the search's path ends. */
  lemma MakePathEnd(o: Object, goal: Pos, md: MapState)
    ensures PathEnd(Tile(o), MakePath(o, goal, md)) == PathSearch.EndOf(PathCtx(o, goal, md))
  {
  }

  /** Whenever the goal can be reached within the unit's action points, the path ends on it. */
  lemma MakePathReachesGoal(o: Object, goal: Pos, md: MapState, w: seq<Pos>)
    requires PathSearch.Route(PathCtx(o, goal, md), w)
    ensures PathEnd(Tile(o), MakePath(o, goal, md)) == goal
  {
    var c := PathCtx(o, goal, md);
    PathSearch.SearchComplete(c, w);
    PathSearch.PathReachesFoundGoal(c);
  }

  /** The path ends no farther from the goal than any tile the unit could reach with its action points. */
  lemma MakePathNearest(o: Object, goal: Pos, md: MapState, w: seq<Pos>)
    requires PathSearch.Reach(PathCtx(o, goal, md), w)
    ensures L1Dist(goal.0, goal.1, PathEnd(Tile(o), MakePath(o, goal, md)).0, PathEnd(Tile(o), MakePath(o, goal, md)).1)
         <= L1Dist(goal.0, goal.1, w[|w| - 1].0, w[|w| - 1].1)
  {
    var c := PathCtx(o, goal, md);
    if PathSearch.Outcome(c).0 {
      PathSearch.PathReachesFoundGoal(c);
    } else {
      PathSearch.FallbackNearestReachable(c, w);
    }
  }

  /** Conversely, the path is itself a walk the unit can afford, so a path ending on the goal is a route to it. */
  lemma MakePathIsReach(o: Object, goal: Pos, md: MapState)
    requires o.actionPoints >= 0
    ensures var c := PathCtx(o, goal, md);
      PathSearch.Reach(c, [Tile(o)] + PathSearch.PathOf(c))
  {
    PathSearch.PathIsReach(PathCtx(o, goal, md));
  }

  /** The path is a shortest route: no route to the goal within the unit's action points has fewer moves. */
  lemma MakePathShortest(o: Object, goal: Pos, md: MapState, w: seq<Pos>)
    requires PathSearch.Route(PathCtx(o, goal, md), w)
    ensures |MakePath(o, goal, md)| <= |w| - 1
  {
    PathSearch.PathIsShortest(PathCtx(o, goal, md), w);
  }

  /** Tiles of the rectangle with corners `a` and `b`. */
  predicate InBox(q: Pos, a: Pos, b: Pos) {
    Min(a.0, b.0) <= q.0 <= Max(a.0, b.0) && Min(a.1, b.1) <= q.1 <= Max(a.1, b.1)
  }

  /** One step from `p` toward `g`, along the row first. */
  function StepToward(p: Pos, g: Pos): (q: Pos)
    requires p != g
    ensures Adjacent(p, q) && L1Dist(q.0, q.1, g.0, g.1) == L1Dist(p.0, p.1, g.0, g.1) - 1
    ensures forall t | InBox(t, q, g) :: InBox(t, p, g)
  {
    if p.0 < g.0 then (p.0 + 1, p.1)
    else if p.0 > g.0 then (p.0 - 1, p.1)
    else if p.1 < g.1 then (p.0, p.1 + 1)
    else (p.0, p.1 - 1)
  }

  /** A walk from `p` to `g` in `L1Dist` steps, each one closer, inside their rectangle. */
  function Staircase(p: Pos, g: Pos): (w: seq<Pos>)
    ensures |w| == L1Dist(p.0, p.1, g.0, g.1) + 1 && w[0] == p && w[|w| - 1] == g
    ensures forall i | 0 <= i < |w| - 1 :: Adjacent(w[i], w[i + 1])
    ensures forall i | 0 <= i < |w| :: InBox(w[i], p, g) && L1Dist(w[i].0, w[i].1, g.0, g.1) == |w| - 1 - i
    decreases L1Dist(p.0, p.1, g.0, g.1)
  {
    if p == g then [p]
    else
      var q := StepToward(p, g);
      var rest := Staircase(q, g);
      var w := [p] + rest;
      assert forall i | 1 <= i < |w| :: w[i] == rest[i - 1];
      w
  }

  /**
    On open ground (every tile of the rectangle between the unit and the
    goal open, the unit's own aside) with action points for the Manhattan
    distance, the path is exactly as many moves as that distance.
  */
  lemma MakePathOpenGround(o: Object, goal: Pos, md: MapState)
    requires forall x: int, y: int | InBox((x, y), Tile(o), goal) && (x, y) != Tile(o) :: !MapTileSolid(x, y, md)
    requires L1Dist(o.tileX, o.tileY, goal.0, goal.1) <= o.actionPoints
    ensures |MakePath(o, goal, md)| == L1Dist(o.tileX, o.tileY, goal.0, goal.1)
  {
    var c := PathCtx(o, goal, md);
    var w := Staircase(Tile(o), goal);
    forall i | 1 <= i < |w| ensures PathSearch.Walkable(c, w[i]) {
      assert (w[i].0, w[i].1) == w[i];
      assert InBox((w[i].0, w[i].1), Tile(o), goal);
    }
    assert PathSearch.Route(c, w);
    PathSearch.PathIsShortest(c, w);
    PathSearch.SearchComplete(c, w);
    PathSearch.PathReachesFoundGoal(c);
    PathSearch.PathCoversDist(c);
    L1DistZeroIff(o.tileX, o.tileY, goal.0, goal.1);
  }

  /**
    When the goal stands on a blocked tile right next to the unit, the search
    cannot enter it and the fallback keeps the unit where it is: the path is
    empty.
  */
  lemma MakePathNextToBlocked(o: Object, goal: Pos, md: MapState)
    requires Adjacent(Tile(o), goal) && MapTileSolid(goal.0, goal.1, md)
    ensures MakePath(o, goal, md) == []
  {
    var c := PathCtx(o, goal, md);
    assert !PathSearch.Walkable(c, goal);
    PathSearch.BlockedAdjacentGoal(c);
  }

  // ---------------------------------------------------------------------------
  // order_unit
  // ---------------------------------------------------------------------------

  /** `order_unit`'s scan: something with health on the other side stands on the goal. */
  predicate EnemyAt(objs: seq<Object>, ours: bool, goal: Pos) {
    exists j | 0 <= j < |objs| :: objs[j].hasHealth && objs[j].isOurs != ours && objs[j].hasPos && Tile(objs[j]) == goal
  }

  /**
    `orders.len() < action_points as usize`.  A negative count casts to an
    unsigned value beyond any length, so it never refuses.
  */
  predicate UnderBudget(n: nat, ap: int) {
    ap < 0 || n < ap
  }

  /** The orders `order_unit` gives `o`: its path, then an attack on the goal when there is a foe there in reach. */
  function Plan(objs: seq<Object>, o: Object, goal: Pos, md: MapState): (r: seq<Order>)
  {
    var path := MakePath(o, goal, md);
    var last := PathEnd(Tile(o), path);
    if UnderBudget(|path|, o.actionPoints) && EnemyAt(objs, o.isOurs, goal) && L1Dist(goal.0, goal.1, last.0, last.1) == 1 then
      path + [Order(goal.0, goal.1, Attack)]
    else path
  }

  /**
    A plan worth executing: a walk of moves through open tiles, then at most
    one attack, on a foe standing on the goal next to where the walk ends;
    all of it within the unit's action points.
  */
  predicate ValidPlan(objs: seq<Object>, o: Object, goal: Pos, md: MapState, orders: seq<Order>) {
    var n := |orders|;
    && (n > 0 && orders[n - 1].orderType == Attack ==>
          && WalkFrom(Tile(o), orders[..n - 1], md)
          && orders[n - 1] == Order(goal.0, goal.1, Attack)
          && EnemyAt(objs, o.isOurs, goal)
          && Adjacent(PathEnd(Tile(o), orders[..n - 1]), goal))
    && (n == 0 || orders[n - 1].orderType == MoveTo ==> WalkFrom(Tile(o), orders, md))
    && (o.actionPoints >= 0 ==> n <= o.actionPoints)
  }

  /** A walk alone is a valid plan. */
  lemma MovesAreValid(objs: seq<Object>, o: Object, goal: Pos, md: MapState, path: seq<Order>)
    requires WalkFrom(Tile(o), path, md) && (|path| > 0 ==> |path| <= o.actionPoints)
    ensures ValidPlan(objs, o, goal, md, path)
  {
  }

  /** A walk within budget that ends next to a foe on the goal, then the attack, is a valid plan. */
  lemma AttackIsValid(objs: seq<Object>, o: Object, goal: Pos, md: MapState, path: seq<Order>)
    requires WalkFrom(Tile(o), path, md) && UnderBudget(|path|, o.actionPoints) && EnemyAt(objs, o.isOurs, goal)
    requires var last := PathEnd(Tile(o), path); L1Dist(goal.0, goal.1, last.0, last.1) == 1
    ensures ValidPlan(objs, o, goal, md, path + [Order(goal.0, goal.1, Attack)])
  {
    var r := path + [Order(goal.0, goal.1, Attack)];
    assert r[..|r| - 1] == path;
    var last := PathEnd(Tile(o), path);
    L1DistSymmetric(goal.0, goal.1, last.0, last.1);
  }

  lemma PlanIsValid(objs: seq<Object>, o: Object, goal: Pos, md: MapState)
    ensures ValidPlan(objs, o, goal, md, Plan(objs, o, goal, md))
  {
    var path := MakePath(o, goal, md);
    var last := PathEnd(Tile(o), path);
    if UnderBudget(|path|, o.actionPoints) && EnemyAt(objs, o.isOurs, goal) && L1Dist(goal.0, goal.1, last.0, last.1) == 1 {
      AttackIsValid(objs, o, goal, md, path);
    } else {
      MovesAreValid(objs, o, goal, md, path);
    }
  }

  /**
    A unit right next to a foe that blocks its tile, with an action point to
    spend, is ordered to attack it at once, without moving.
  */
  lemma PlanAttacksAdjacentFoe(objs: seq<Object>, o: Object, goal: Pos, md: MapState)
    requires Adjacent(Tile(o), goal) && MapTileSolid(goal.0, goal.1, md)
    requires EnemyAt(objs, o.isOurs, goal) && o.actionPoints >= 1
    ensures Plan(objs, o, goal, md) == [Order(goal.0, goal.1, Attack)]
  {
    MakePathNextToBlocked(o, goal, md);
    L1DistSymmetric(goal.0, goal.1, Tile(o).0, Tile(o).1);
  }

  /** `order_unit`: only the ordered unit changes, and only its orders, which become its plan. */
  function OrderUnit(objs: seq<Object>, id: nat, goal: Pos, md: MapState): (r: seq<Object>)
    requires IsLive(objs, id)
    ensures SameIds(objs, r)
    ensures var k := FindById(objs, id).value;
      && r[k] == objs[k].(orders := r[k].orders)
      && ValidPlan(objs, objs[k], goal, md, r[k].orders)
      && forall j | 0 <= j < |objs| && j != k :: r[j] == objs[j]
  {
    var k := FindById(objs, id).value;
    var p := Plan(objs, objs[k], goal, md);
    PlanIsValid(objs, objs[k], goal, md);
    SetOrders(objs, k, p);
    objs[k := objs[k].(orders := p)]
  }

  /** Giving one slot new orders changes nothing else. */
  lemma SetOrders(objs: seq<Object>, k: nat, p: seq<Order>)
    requires k < |objs|
    ensures var r := objs[k := objs[k].(orders := p)];
      && SameIds(objs, r) && r[k] == objs[k].(orders := r[k].orders) && r[k].orders == p
      && forall j | 0 <= j < |objs| && j != k :: r[j] == objs[j]
  {
  }

  // ---------------------------------------------------------------------------
  // PathableInput
  // ---------------------------------------------------------------------------

  /** `PathableInput`'s filter: a selected unit of ours that can act. */
  predicate Pathable(o: Object) {
    o.isSelectable && o.hasPos && o.selected && o.canAct && o.isOurs
  }

  predicate Mover(o: Object) {
    Pathable(o) && o.actionPoints != 0
  }

  /** The first unit the click may order. */
  function FirstMover(objs: seq<Object>): (r: Option<nat>)
    ensures r.Some? ==> r.value < |objs| && Mover(objs[r.value])
    ensures r.Some? ==> forall j | 0 <= j < r.value :: !Mover(objs[j])
    ensures r.None? <==> forall j | 0 <= j < |objs| :: !Mover(objs[j])
  {
    if |objs| == 0 then None
    else if Mover(objs[0]) then Some(0)
    else match FirstMover(objs[1..])
      case Some(j) => Some(j + 1)
      case None => None
  }

  /** Start the chosen unit on its orders and drop every other object's. */
  function Confirm(objs: seq<Object>, j: nat): (r: seq<Object>)
    requires j < |objs|
    ensures SameIds(objs, r)
    ensures r[j] == objs[j].(executingOrders := true)
    ensures forall i | 0 <= i < |objs| && objs[i].id != objs[j].id :: r[i] == objs[i].(orders := [])
    ensures forall i | 0 <= i < |objs| && i != j && objs[i].id == objs[j].id :: r[i] == objs[i]
  {
    seq(|objs|, i requires 0 <= i < |objs| =>
      if i == j then objs[i].(executingOrders := true)
      else if objs[i].id != objs[j].id then objs[i].(orders := [])
      else objs[i])
  }

  /** The click's tile and whether the click is a right click. */
  function Cursor(st: GameState): Pos {
    (st.cursorX, st.cursorY)
  }

  predicate RightClick(st: GameState) {
    st.mouseButtonDown.UnwrapOr(0) == 2
  }

  /** A right click on our turn, with nothing walking, on a map that is live. */
  predicate ClickApplies(objs: seq<Object>, st: GameState) {
    && RightClick(st)
    && CurrentMap(objs, st).Some?
    && !objs[CurrentMap(objs, st).value].mapData.executingOrders
    && objs[CurrentMap(objs, st).value].mapData.ourTurn
  }

  /** Slot by slot, writing the map's data leaves motion, health and ids alone. */
  lemma WithMapDataSlots(objs: seq<Object>, k: nat, md: MapState)
    requires k < |objs|
    ensures var r := WithMapData(objs, k, md);
      forall i | 0 <= i < |objs| :: MotionOf(r[i]) == MotionOf(objs[i])
  {
    var r := WithMapData(objs, k, md);
    forall i | 0 <= i < |objs| ensures MotionOf(r[i]) == MotionOf(objs[i]) {
      SlotOfWithMapData(objs, k, md, i);
    }
  }

  /**
    Confirming slot `j`'s plan: the map records that orders are executing,
    the unit keeps its plan and starts on it, and every object with another
    id loses its orders.
  */
  function ConfirmPlan(objs: seq<Object>, k: nat, j: nat): (r: seq<Object>)
    requires k < |objs| && j < |objs|
    ensures SameIds(objs, r)
    ensures r[k].mapData == objs[k].mapData.(executingOrders := true)
    ensures r[j].executingOrders && r[j].orders == objs[j].orders
    ensures forall i | 0 <= i < |objs| && objs[i].id != objs[j].id :: r[i].orders == []
  {
    var conf := Confirm(objs, j);
    WithMapDataSlots(conf, k, objs[k].mapData.(executingOrders := true));
    WithMapData(conf, k, objs[k].mapData.(executingOrders := true))
  }

  /** Planning a new path for slot `j`'s unit (found again by its id) toward the clicked tile. */
  function Replan(objs: seq<Object>, st: GameState, k: nat, j: nat): (r: seq<Object>)
    requires k < |objs| && j < |objs|
    ensures SameIds(objs, r)
  {
    assert FindById(objs, objs[j].id).Some?;
    OrderUnit(objs, objs[j].id, Cursor(st), objs[k].mapData)
  }

  /** What the click does once slot `j` is the unit it concerns. */
  function Respond(objs: seq<Object>, st: GameState, k: nat, j: nat): (r: seq<Object>)
    requires k < |objs| && j < |objs|
    ensures SameIds(objs, r)
  {
    var o := objs[j];
    if |o.orders| > 0 && OrderPos(o.orders[|o.orders| - 1]) == Cursor(st) then
      ConfirmPlan(objs, k, j)
    else if Tile(o) != Cursor(st) then Replan(objs, st, k, j)
    else objs
  }

  /**
    `PathableInput`: a right click on the tile the first movable unit's plan
    ends on confirms the plan; a right click elsewhere plans a new path there.
  */
  function PathableInput(objs: seq<Object>, st: GameState): (r: (seq<Object>, GameState))
    ensures r.1 == st && SameIds(objs, r.0)
    ensures !ClickApplies(objs, st) || FirstMover(objs).None? ==> r.0 == objs
    ensures ClickApplies(objs, st) && FirstMover(objs).Some? ==>
      r.0 == Respond(objs, st, CurrentMap(objs, st).value, FirstMover(objs).value)
  {
    if !RightClick(st) then (objs, st)
    else match CurrentMap(objs, st)
      case None => (objs, st)
      case Some(k) =>
        var md := objs[k].mapData;
        if md.executingOrders || !md.ourTurn then (objs, st)
        else match FirstMover(objs)
          case None => (objs, st)
          case Some(j) => (Respond(objs, st, k, j), st)
  }

  /**
    Clicking where the chosen unit's plan ends starts it walking: the map
    records that orders are executing, the unit keeps its plan, and every
    other object's orders are dropped.
  */
  lemma PathableInputConfirms(objs: seq<Object>, st: GameState, k: nat, j: nat)
    requires ClickApplies(objs, st) && CurrentMap(objs, st) == Some(k) && FirstMover(objs) == Some(j)
    requires |objs[j].orders| > 0 && OrderPos(objs[j].orders[|objs[j].orders| - 1]) == Cursor(st)
    ensures var r := PathableInput(objs, st).0;
      && r[k].mapData.executingOrders
      && r[j].executingOrders && r[j].orders == objs[j].orders
      && forall i | 0 <= i < |objs| && objs[i].id != objs[j].id :: r[i].orders == []
  {
    RespondConfirms(objs, st, k, j);
    Confirmed(objs, PathableInput(objs, st).0, k, j);
  }

  lemma Confirmed(objs: seq<Object>, r: seq<Object>, k: nat, j: nat)
    requires k < |objs| && j < |objs| && r == ConfirmPlan(objs, k, j)
    ensures && r[k].mapData.executingOrders
      && r[j].executingOrders && r[j].orders == objs[j].orders
      && forall i | 0 <= i < |objs| && objs[i].id != objs[j].id :: r[i].orders == []
  {
  }

  lemma RespondConfirms(objs: seq<Object>, st: GameState, k: nat, j: nat)
    requires k < |objs| && j < |objs|
    requires |objs[j].orders| > 0 && OrderPos(objs[j].orders[|objs[j].orders| - 1]) == Cursor(st)
    ensures Respond(objs, st, k, j) == ConfirmPlan(objs, k, j)
  {
  }

  /**
    Clicking anywhere else than the chosen unit's own tile plans a path
    there: the unit (found by its id) gets a valid plan toward the click, and
    nothing else changes.
  */
  lemma PathableInputPlans(objs: seq<Object>, st: GameState, k: nat, j: nat)
    requires ClickApplies(objs, st) && CurrentMap(objs, st) == Some(k) && FirstMover(objs) == Some(j)
    requires !(|objs[j].orders| > 0 && OrderPos(objs[j].orders[|objs[j].orders| - 1]) == Cursor(st))
    requires Tile(objs[j]) != Cursor(st)
    ensures var u := FindById(objs, objs[j].id).value;
      var r := PathableInput(objs, st).0;
      && r[u] == objs[u].(orders := r[u].orders)
      && ValidPlan(objs, objs[u], Cursor(st), objs[k].mapData, r[u].orders)
      && forall i | 0 <= i < |objs| && i != u :: r[i] == objs[i]
  {
    RespondReplans(objs, st, k, j);
  }

  lemma RespondReplans(objs: seq<Object>, st: GameState, k: nat, j: nat)
    requires k < |objs| && j < |objs|
    requires !(|objs[j].orders| > 0 && OrderPos(objs[j].orders[|objs[j].orders| - 1]) == Cursor(st))
    requires Tile(objs[j]) != Cursor(st)
    ensures Respond(objs, st, k, j) == Replan(objs, st, k, j)
  {
  }

  /** With distinct ids, planning changes only the chosen unit's orders. */
  lemma ReplanSlots(objs: seq<Object>, st: GameState, k: nat, j: nat)
    requires k < |objs| && j < |objs| && DistinctIds(objs)
    ensures var r := Replan(objs, st, k, j);
      && r[j] == objs[j].(orders := r[j].orders)
      && forall i | 0 <= i < |objs| && i != j :: r[i] == objs[i]
  {
    FindOwnId(objs, j);
  }

  /** Changing one slot's orders keeps the click applicable. */
  lemma OrdersOnlyKeepClick(objs: seq<Object>, r: seq<Object>, st: GameState, j: nat)
    requires ClickApplies(objs, st) && SameIds(objs, r) && j < |objs|
    requires r[j] == objs[j].(orders := r[j].orders)
    requires forall i | 0 <= i < |objs| && i != j :: r[i] == objs[i]
    ensures CurrentMap(r, st) == CurrentMap(objs, st) && ClickApplies(r, st)
  {
    SameIdsFind(objs, r, st.currentMapId);
    var k := CurrentMap(objs, st).value;
    if k == j {
      assert r[k].mapData == objs[k].mapData;
    }
  }

  /** Changing the first mover's orders leaves it the first mover. */
  lemma OrdersOnlyKeepMover(objs: seq<Object>, r: seq<Object>, j: nat)
    requires FirstMover(objs) == Some(j) && |r| == |objs|
    requires r[j] == objs[j].(orders := r[j].orders)
    requires forall i | 0 <= i < |objs| && i != j :: r[i] == objs[i]
    ensures FirstMover(r) == Some(j)
  {
    assert Mover(r[j]);
    forall i | 0 <= i < j ensures !Mover(r[i]) {
      assert r[i] == objs[i];
    }
  }

  /**
    The two clicks work together: after a click that plans a path, the click
    still applies and concerns the same unit, so when the plan ends on the
    clicked tile a second click there confirms it (`PathableInputConfirms`).
  */
  lemma PlanKeepsUnitChosen(objs: seq<Object>, st: GameState, r: seq<Object>)
    requires DistinctIds(objs) && ClickApplies(objs, st) && FirstMover(objs).Some?
    requires var o := objs[FirstMover(objs).value];
      !(|o.orders| > 0 && OrderPos(o.orders[|o.orders| - 1]) == Cursor(st)) && Tile(o) != Cursor(st)
    requires r == PathableInput(objs, st).0
    ensures ClickApplies(r, st) && CurrentMap(r, st) == CurrentMap(objs, st)
    ensures FirstMover(r) == FirstMover(objs)
  {
    var j := FirstMover(objs).value;
    PlanChangesOnlyOrders(objs, st, r);
    OrdersOnlyKeepClick(objs, r, st, j);
    OrdersOnlyKeepMover(objs, r, j);
  }

  /** With distinct ids, the planning click changes only the first mover's orders. */
  lemma PlanChangesOnlyOrders(objs: seq<Object>, st: GameState, r: seq<Object>)
    requires DistinctIds(objs) && ClickApplies(objs, st) && FirstMover(objs).Some?
    requires var o := objs[FirstMover(objs).value];
      !(|o.orders| > 0 && OrderPos(o.orders[|o.orders| - 1]) == Cursor(st)) && Tile(o) != Cursor(st)
    requires r == PathableInput(objs, st).0
    ensures var j := FirstMover(objs).value;
      && SameIds(objs, r)
      && r[j] == objs[j].(orders := r[j].orders)
      && forall i | 0 <= i < |objs| && i != j :: r[i] == objs[i]
  {
    var k := CurrentMap(objs, st).value;
    var j := FirstMover(objs).value;
    RespondReplans(objs, st, k, j);
    ReplanSlots(objs, st, k, j);
  }

  // ---------------------------------------------------------------------------
  // OrdersLogic
  // ---------------------------------------------------------------------------

  /** Units walk at 256 pixels per second, one step per tick of 1/120 s. */
  const STEP: real := 256.0 / 120.0

  /** A unit within 1.1 steps of its destination on both axes has arrived. */
  const NEAR: real := STEP * 1.1

  function RAbs(v: real): real {
    if v < 0.0 then -v else v
  }

  /** One axis of the walk: step toward the destination, then step back if that overshot it. */
  function Advance(v: real, d: real): (r: real)
  {
    var v1 := if v < d then v + STEP else v;
    if v1 > d then v1 - STEP else v1
  }

  /**
    Walking closes in: an axis at least a step away comes one step nearer,
    and one within a step stays within a step.
  */
  lemma AdvanceApproaches(v: real, d: real)
    ensures RAbs(v - d) >= STEP ==> RAbs(Advance(v, d) - d) == RAbs(v - d) - STEP
    ensures RAbs(v - d) < STEP ==> RAbs(Advance(v, d) - d) < STEP
    ensures v == d ==> Advance(v, d) == d
  {
  }

  /** The pixel position of an order's tile. */
  function Dest(ord: Order): (real, real) {
    (ord.x as real * 32.0, ord.y as real * 32.0)
  }

  /** The parts of a unit a tick of its orders may change. */
  datatype Motion = Motion(x: real, y: real, orders: seq<Order>, actionPoints: int, executing: bool)

  function MotionOf(o: Object): Motion {
    Motion(o.x, o.y, o.orders, o.actionPoints, o.executingOrders)
  }

  /** A tick of a move order: snap and pop on arrival (spending an action point), then step each axis. */
  function MoveStep(m: Motion): (r: Motion)
    requires |m.orders| > 0
  {
    var (dx, dy) := Dest(m.orders[0]);
    var m1 := if Arrived(m) then
      m.(x := dx, y := dy, orders := m.orders[1..], actionPoints := m.actionPoints - 1)
    else m;
    m1.(x := Advance(m1.x, dx), y := Advance(m1.y, dy))
  }

  /** Whether a unit is within arrival distance of its first order's tile on both axes. */
  predicate Arrived(m: Motion)
    requires |m.orders| > 0
  {
    var (dx, dy) := Dest(m.orders[0]);
    RAbs(m.x - dx) < NEAR && RAbs(m.y - dy) < NEAR
  }

  /** An arriving unit lands exactly on the tile, drops the order and spends one action point. */
  lemma MoveStepArrives(m: Motion)
    requires |m.orders| > 0 && Arrived(m)
    ensures var r := MoveStep(m);
      (r.x, r.y) == Dest(m.orders[0]) && r.orders == m.orders[1..] && r.actionPoints == m.actionPoints - 1
  {
    var (dx, dy) := Dest(m.orders[0]);
    AdvanceApproaches(dx, dx);
    AdvanceApproaches(dy, dy);
  }

  /** A unit not yet there keeps its orders and points and comes a step nearer on every axis a step or more away. */
  lemma MoveStepApproaches(m: Motion)
    requires |m.orders| > 0 && !Arrived(m)
    ensures var r := MoveStep(m);
      var (dx, dy) := Dest(m.orders[0]);
      && r.orders == m.orders && r.actionPoints == m.actionPoints
      && (RAbs(m.x - dx) >= STEP ==> RAbs(r.x - dx) == RAbs(m.x - dx) - STEP)
      && (RAbs(m.y - dy) >= STEP ==> RAbs(r.y - dy) == RAbs(m.y - dy) - STEP)
      && (RAbs(m.x - dx) < STEP ==> RAbs(r.x - dx) < STEP)
      && (RAbs(m.y - dy) < STEP ==> RAbs(r.y - dy) < STEP)
  {
    var (dx, dy) := Dest(m.orders[0]);
    AdvanceApproaches(m.x, dx);
    AdvanceApproaches(m.y, dy);
  }

  /** `OrdersLogic`'s filter and the flag that says the unit is carrying out its orders. */
  predicate Actor(o: Object) {
    o.hasPos && o.canAct && o.executingOrders
  }

  predicate Idle(o: Object) {
    Actor(o) && |o.orders| == 0
  }

  predicate Attacking(o: Object) {
    Actor(o) && |o.orders| > 0 && o.orders[0].orderType == Attack
  }

  /** What one object's tick does to its own motion. */
  function Tick(o: Object): (r: Motion)
    ensures r.orders == o.orders || (|o.orders| > 0 && r.orders == o.orders[1..])
    ensures !Actor(o) ==> r == MotionOf(o)
    ensures Idle(o) ==> !r.executing && r.actionPoints == (if o.isOurs then o.actionPoints else 0)
    ensures Attacking(o) ==> r.orders == o.orders[1..] && r.actionPoints == 0 && (r.x, r.y) == (o.x, o.y)
  {
    var m := MotionOf(o);
    if !Actor(o) then m
    else if |o.orders| == 0 then
      m.(executing := false, actionPoints := if o.isOurs then o.actionPoints else 0)
    else match o.orders[0].orderType
      case MoveTo => MoveStep(m)
      case Attack => m.(orders := o.orders[1..], actionPoints := 0)
  }

  /** The object with its motion replaced; nothing else about it changes. */
  function Apply(o: Object, m: Motion): (r: Object)
    ensures r.id == o.id && r.mapData == o.mapData && r.health == o.health && r.hasHealth == o.hasHealth
    ensures r.tileX == o.tileX && r.tileY == o.tileY
    ensures MotionOf(r) == m
  {
    o.(x := m.x, y := m.y, orders := m.orders, actionPoints := m.actionPoints, executingOrders := m.executing)
  }

  /** Motion that is not changed leaves the object as it was. */
  lemma ApplySame(o: Object)
    ensures Apply(o, MotionOf(o)) == o
  {
  }

  /** What one object's tick does to the object itself. */
  function Acted(o: Object): (r: Object)
    ensures r.id == o.id && r.mapData == o.mapData && r.health == o.health && r.hasHealth == o.hasHealth
    ensures Tile(r) == Tile(o) && MotionOf(r) == Tick(o)
  {
    Apply(o, Tick(o))
  }

  /** An attack's blow: the target tile and the change to health there. */
  datatype Hit = Hit(x: int, y: int, change: int)

  function HitOf(o: Object): Hit
    requires |o.orders| > 0
  {
    Hit(o.orders[0].x, o.orders[0].y, -o.damage)
  }

  /** `damage_this`: each attack overwrites it, so the last attacker's blow is the one dealt. */
  function LastHit(objs: seq<Object>): (r: Option<Hit>)
  {
    if |objs| == 0 then None
    else if Attacking(objs[|objs| - 1]) then Some(HitOf(objs[|objs| - 1]))
    else LastHit(objs[..|objs| - 1])
  }

  /** Slot `a` attacks and no later slot does. */
  predicate LastAttacker(objs: seq<Object>, a: nat) {
    a < |objs| && Attacking(objs[a]) && forall b | a < b < |objs| :: !Attacking(objs[b])
  }

  lemma LastAttackerUnique(objs: seq<Object>, a: nat, c: nat)
    requires LastAttacker(objs, a) && LastAttacker(objs, c)
    ensures a == c
  {
  }

  /** The blow dealt is the last attacker's, and there is one exactly when someone attacks. */
  lemma {:induction false} LastHitSpec(objs: seq<Object>)
    ensures LastHit(objs).None? <==> forall i | 0 <= i < |objs| :: !Attacking(objs[i])
    ensures LastHit(objs).Some? ==> exists i: nat :: LastAttacker(objs, i) && LastHit(objs).value == HitOf(objs[i])
  {
    if |objs| > 0 {
      var n := |objs| - 1;
      var pre := objs[..n];
      LastHitSpec(pre);
      if Attacking(objs[n]) {
        assert LastAttacker(objs, n) && LastHit(objs).value == HitOf(objs[n]);
      } else {
        assert LastHit(objs) == LastHit(pre);
        QuietLastSlot(objs, pre);
        if LastHit(pre).Some? {
          var i: nat :| LastAttacker(pre, i) && LastHit(pre).value == HitOf(pre[i]);
          assert pre[i] == objs[i];
          assert LastAttacker(objs, i);
        }
      }
    }
  }

  /** A last slot that does not attack changes neither who attacks nor who attacks last. */
  lemma QuietLastSlot(objs: seq<Object>, pre: seq<Object>)
    requires |objs| > 0 && pre == objs[..|objs| - 1] && !Attacking(objs[|objs| - 1])
    ensures (forall i | 0 <= i < |objs| :: !Attacking(objs[i])) <==> (forall i | 0 <= i < |pre| :: !Attacking(pre[i]))
    ensures forall i: nat | LastAttacker(pre, i) :: LastAttacker(objs, i)
  {
    assert forall i | 0 <= i < |pre| :: objs[i] == pre[i];
  }

  /** The blow lands on everything with health standing on the target tile. */
  function Damage(objs: seq<Object>, h: Hit): (r: seq<Object>)
    ensures SameIds(objs, r)
    ensures forall i | 0 <= i < |objs| :: r[i] == DamageOne(objs[i], h)
  {
    seq(|objs|, i requires 0 <= i < |objs| => DamageOne(objs[i], h))
  }

  /** One object's share of the blow: its health changes when it has health and stands on the target tile. */
  function DamageOne(o: Object, h: Hit): (r: Object)
    ensures r.id == o.id && r.mapData == o.mapData && MotionOf(r) == MotionOf(o)
    ensures r.health == o.health + (if o.hasHealth && Tile(o) == (h.x, h.y) then h.change else 0)
  {
    if o.hasHealth && Tile(o) == (h.x, h.y) then o.(health := o.health + h.change) else o
  }

  /** An object's health after the blow `h`, if there is one. */
  function HealthAfter(o: Object, h: Option<Hit>): int {
    if h.Some? && o.hasHealth && Tile(o) == (h.value.x, h.value.y) then o.health + h.value.change else o.health
  }

  function NumAttacking(objs: seq<Object>): (n: nat)
    ensures n <= |objs|
  {
    if |objs| == 0 then 0 else (if Attacking(objs[0]) then 1 else 0) + NumAttacking(objs[1..])
  }

  /** A slash (or fire) effect on the attacked tile, owned by the map. */
  function AttackEffect(o: Object, mapId: nat, st: GameState): (r: GameState)
    requires |o.orders| > 0
  {
    var (dx, dy) := Dest(o.orders[0]);
    var (e, st1) := Effect.CreateEffect(mapId, dx, dy, st);
    AddObject(st1, e)
  }

  /** The effects the attackers spawn, in object order. */
  function Effects(objs: seq<Object>, mapId: nat, st: GameState): (r: GameState)
  {
    if |objs| == 0 then st
    else Effects(objs[1..], mapId, if Attacking(objs[0]) then AttackEffect(objs[0], mapId, st) else st)
  }

  /**
    Each attacker spawns exactly one effect on its target tile: the pending
    list grows by one entry per attacker, each on a fresh id, and nothing
    else in the state changes.
  */
  lemma {:induction false} EffectsSpec(objs: seq<Object>, mapId: nat, st: GameState)
    ensures var r := Effects(objs, mapId, st);
      && r == st.(idMint := r.idMint, newObjects := r.newObjects)
      && |r.newObjects| == |st.newObjects| + NumAttacking(objs)
      && r.newObjects[..|st.newObjects|] == st.newObjects
      && r.idMint.nextId == st.idMint.nextId + NumAttacking(objs)
      && forall i | |st.newObjects| <= i < |r.newObjects| ::
           r.newObjects[i].isEffect && r.newObjects[i].parent == mapId && r.newObjects[i].id >= st.idMint.nextId
  {
    if |objs| > 0 {
      var st1 := if Attacking(objs[0]) then AttackEffect(objs[0], mapId, st) else st;
      EffectsSpec(objs[1..], mapId, st1);
      var r := Effects(objs, mapId, st);
      assert r == Effects(objs[1..], mapId, st1);
      assert r.newObjects[..|st1.newObjects|] == st1.newObjects;
      assert r.newObjects[..|st.newObjects|] == st1.newObjects[..|st.newObjects|];
    }
  }

  predicate AnyIdle(objs: seq<Object>) {
    exists i | 0 <= i < |objs| :: Idle(objs[i])
  }

  function ActAll(objs: seq<Object>): (r: seq<Object>)
    ensures |r| == |objs| && forall i | 0 <= i < |objs| :: r[i] == Acted(objs[i])
  {
    seq(|objs|, i requires 0 <= i < |objs| => Acted(objs[i]))
  }

  /** The blow, if any, dealt to the acted objects. */
  function Struck(acted: seq<Object>, hit: Option<Hit>): (r: seq<Object>)
    ensures |r| == |acted|
    ensures forall i | 0 <= i < |acted| :: r[i] == (if hit.Some? then DamageOne(acted[i], hit.value) else acted[i])
  {
    if hit.Some? then Damage(acted, hit.value) else acted
  }

  /**
    `OrdersLogic`: every unit carrying out orders advances its first order;
    the last attack's blow lands; the map stops executing when some unit ran
    out of orders.
  */
  function OrdersLogic(objs: seq<Object>, st: GameState): (r: (seq<Object>, GameState))
    ensures |r.0| == |objs|
    ensures CurrentMap(objs, st).None? ==> r == (objs, st)
  {
    match CurrentMap(objs, st)
    case None => (objs, st)
    case Some(k) => (Stepped(objs, k), Effects(objs, st.currentMapId, st))
  }

  /** The objects after one tick on the map in slot `k`: all act, the last blow lands, the map's flag is updated. */
  function Stepped(objs: seq<Object>, k: nat): (r: seq<Object>)
    requires k < |objs|
    ensures |r| == |objs|
    ensures forall i | 0 <= i < |objs| ::
      r[i].id == objs[i].id && MotionOf(r[i]) == Tick(objs[i]) && r[i].health == HealthAfter(objs[i], LastHit(objs))
  {
    var md := objs[k].mapData;
    var md2 := if AnyIdle(objs) then md.(executingOrders := false) else md;
    SteppedSlots(objs, k, md2);
    WithMapData(Struck(ActAll(objs), LastHit(objs)), k, md2)
  }

  lemma SteppedSlots(objs: seq<Object>, k: nat, md2: MapState)
    requires k < |objs|
    ensures var r := WithMapData(Struck(ActAll(objs), LastHit(objs)), k, md2);
      forall i | 0 <= i < |objs| ::
        r[i].id == objs[i].id && MotionOf(r[i]) == Tick(objs[i]) && r[i].health == HealthAfter(objs[i], LastHit(objs))
  {
    var o2 := Struck(ActAll(objs), LastHit(objs));
    forall i | 0 <= i < |objs|
      ensures var r := WithMapData(o2, k, md2);
        r[i].id == objs[i].id && MotionOf(r[i]) == Tick(objs[i]) && r[i].health == HealthAfter(objs[i], LastHit(objs))
    {
      StruckSlot(objs, i);
      SlotOfWithMapData(o2, k, md2, i);
    }
  }

  /** What the tick does to one slot: its motion advances, its health takes the blow if it stands under it, its id stays. */
  lemma OrdersLogicSlot(objs: seq<Object>, st: GameState, i: nat)
    requires CurrentMap(objs, st).Some? && i < |objs|
    ensures var r := OrdersLogic(objs, st).0[i];
      var h := LastHit(objs);
      && r.id == objs[i].id
      && MotionOf(r) == Tick(objs[i])
      && r.health == HealthAfter(objs[i], h)
  {
    var k := CurrentMap(objs, st).value;
    assert OrdersLogic(objs, st).0 == Stepped(objs, k);
  }

  /** Before the map's data is written back: slot `i` has moved and taken the blow if it stands under it. */
  lemma StruckSlot(objs: seq<Object>, i: nat)
    requires i < |objs|
    ensures var d := Struck(ActAll(objs), LastHit(objs))[i];
      var h := LastHit(objs);
      && d.id == objs[i].id
      && MotionOf(d) == Tick(objs[i])
      && d.health == HealthAfter(objs[i], h)
  {
    var h := LastHit(objs);
    DamageSlot(objs[i], Acted(objs[i]), h, Struck(ActAll(objs), h)[i]);
  }

  /** The blow on an object that has moved but kept its id, health and tile. */
  lemma DamageSlot(o: Object, a: Object, h: Option<Hit>, d: Object)
    requires a.id == o.id && a.health == o.health && a.hasHealth == o.hasHealth && Tile(a) == Tile(o)
    requires d == (if h.Some? then DamageOne(a, h.value) else a)
    ensures d.id == o.id && MotionOf(d) == MotionOf(a) && d.health == HealthAfter(o, h)
  {
  }

  /** Writing the map's data touches no slot's id, motion or health. */
  lemma SlotOfWithMapData(objs: seq<Object>, k: nat, md: MapState, i: nat)
    requires k < |objs| && i < |objs|
    ensures var r := WithMapData(objs, k, md)[i];
      r.id == objs[i].id && MotionOf(r) == MotionOf(objs[i]) && r.health == objs[i].health
  {
  }

  /** The tick changes no object's id. */
  lemma OrdersLogicIds(objs: seq<Object>, st: GameState)
    ensures SameIds(objs, OrdersLogic(objs, st).0)
  {
    if CurrentMap(objs, st).Some? {
      forall i | 0 <= i < |objs| ensures OrdersLogic(objs, st).0[i].id == objs[i].id {
        OrdersLogicSlot(objs, st, i);
      }
    }
  }

  /**
    Orders are consumed from the front, at most one per tick; objects not
    carrying out orders keep their orders, position and action points.
  */
  lemma OrdersLogicQueue(objs: seq<Object>, st: GameState, i: nat)
    requires CurrentMap(objs, st).Some? && i < |objs|
    ensures var o := objs[i];
      var r := OrdersLogic(objs, st).0[i];
      && (r.orders == o.orders || (|o.orders| > 0 && r.orders == o.orders[1..]))
      && (!Actor(o) ==> r.orders == o.orders && (r.x, r.y) == (o.x, o.y) && r.actionPoints == o.actionPoints)
  {
    OrdersLogicSlot(objs, st, i);
  }

  /** With no attacker, no health changes. */
  lemma OrdersLogicNoBlow(objs: seq<Object>, st: GameState, i: nat)
    requires CurrentMap(objs, st).Some? && i < |objs|
    requires forall a | 0 <= a < |objs| :: !Attacking(objs[a])
    ensures OrdersLogic(objs, st).0[i].health == objs[i].health
  {
    OrdersLogicSlot(objs, st, i);
    LastHitSpec(objs);
  }

  /**
    Health changes only by the last attacker's blow: by minus its damage on
    the objects with health standing on its target tile, and not at all
    elsewhere.
  */
  lemma OrdersLogicBlow(objs: seq<Object>, st: GameState, i: nat, a: nat)
    requires CurrentMap(objs, st).Some? && i < |objs| && LastAttacker(objs, a)
    ensures OrdersLogic(objs, st).0[i].health ==
      objs[i].health + (if objs[i].hasHealth && Tile(objs[i]) == OrderPos(objs[a].orders[0]) then -objs[a].damage else 0)
  {
    OrdersLogicSlot(objs, st, i);
    LastHitSpec(objs);
    var c: nat :| LastAttacker(objs, c) && LastHit(objs).value == HitOf(objs[c]);
    LastAttackerUnique(objs, a, c);
  }

  /** The map keeps executing orders exactly when it was and no unit ran out of orders; nothing else of the map changes. */
  lemma OrdersLogicFlag(objs: seq<Object>, st: GameState)
    requires CurrentMap(objs, st).Some?
    ensures var k := CurrentMap(objs, st).value;
      var md := objs[k].mapData;
      var md' := OrdersLogic(objs, st).0[k].mapData;
      && md'.executingOrders == (md.executingOrders && !AnyIdle(objs))
      && md' == md.(executingOrders := md'.executingOrders)
  {
    var k := CurrentMap(objs, st).value;
    var md := objs[k].mapData;
    var md2 := if AnyIdle(objs) then md.(executingOrders := false) else md;
    assert OrdersLogic(objs, st).0 == Stepped(objs, k) == WithMapData(Struck(ActAll(objs), LastHit(objs)), k, md2);
  }

  /** Each attacker spawns one effect owned by the map, and the state otherwise changes only by the ids they take. */
  lemma OrdersLogicEffects(objs: seq<Object>, st: GameState)
    requires CurrentMap(objs, st).Some?
    ensures var r := OrdersLogic(objs, st).1;
      && r == st.(idMint := r.idMint, newObjects := r.newObjects)
      && |r.newObjects| == |st.newObjects| + NumAttacking(objs)
      && r.newObjects[..|st.newObjects|] == st.newObjects
      && forall i | |st.newObjects| <= i < |r.newObjects| :: r.newObjects[i].isEffect && r.newObjects[i].parent == st.currentMapId
  {
    EffectsSpec(objs, st.currentMapId, st);
  }
}

=== FILE: parent.dfy ===
/**
  The removal cascade of src/parent.rs: when an object is queued for removal,
  every object whose `parent` is that object is queued as well, and so on down
  the parent links, round after round until a round finds no new children.

  The source loops for as long as a round finds children, so a cycle of parent
  links would never halt.  The model runs at most `|objs| + 1` rounds, and
  `CascadeHalts` shows that when the parent links are acyclic (a ranking that
  strictly decreases from parent to child exists) the source's loop has
  stopped by then, so the bound never cuts a run short.
*/
module Parent {
  import opened Game

  /** `ParentLogic::check_object`: true for objects that have a parent.  Nothing consults it: the cascade scans every object. */
  function CheckObject(o: Object): (r: bool)
    ensures r <==> o.parent != 0
  {
    o.parent > 0
  }

  /** One round: the ids of the objects whose parent is among the dead ids. */
  function ChildIds(objs: seq<Object>, dead: set<nat>): set<nat> {
    set i | 0 <= i < |objs| && objs[i].parent in dead :: objs[i].id
  }

  /** The frontier after `k` rounds started from `dead`. */
  function Frontier(objs: seq<Object>, dead: set<nat>, k: nat): set<nat>
    decreases k
  {
    if k == 0 then dead else ChildIds(objs, Frontier(objs, dead, k - 1))
  }

  /**
    The ids the `while` loop queues: each round queues the children of the
    previous round's ids and hands them on as the next round's ids; the loop
    stops when a round is empty (or the round bound `fuel` is spent).
  */
  function Cascade(objs: seq<Object>, dead: set<nat>, fuel: nat): set<nat>
    decreases fuel
  {
    if fuel == 0 || dead == {} then {}
    else
      var next := ChildIds(objs, dead);
      next + Cascade(objs, next, fuel - 1)
  }

  /** A removal set is closed when it holds every child of every id it holds. */
  ghost predicate Closed(objs: seq<Object>, s: set<nat>) {
    forall i | 0 <= i < |objs| && objs[i].parent in s :: objs[i].id in s
  }

  /** The parent links are acyclic: some ranking below `|objs|` drops strictly from parent to child. */
  ghost predicate Topological(objs: seq<Object>, rank: seq<nat>) {
    && |rank| == |objs|
    && (forall i | 0 <= i < |objs| :: rank[i] < |objs|)
    && (forall i, j | 0 <= i < |objs| && 0 <= j < |objs| && objs[i].parent == objs[j].id :: rank[i] < rank[j])
  }

  /**
    `ParentLogic::handle_objects`: the objects are left alone and the whole
    cascade below the queued ids joins the removal queue; nothing else in the
    state changes.
  */
  function ParentLogic(objs: seq<Object>, st: GameState): (r: (seq<Object>, GameState))
    ensures r.0 == objs
    ensures r.1 == st.(idsToRemove := r.1.idsToRemove)
    ensures st.idsToRemove <= r.1.idsToRemove
    ensures forall x | x in r.1.idsToRemove - st.idsToRemove :: exists i | 0 <= i < |objs| :: objs[i].id == x
  {
    CascadeIds(objs, st.idsToRemove, |objs| + 1);
    (objs, st.(idsToRemove := st.idsToRemove + Cascade(objs, st.idsToRemove, |objs| + 1)))
  }

  /** Everything the cascade queues is the id of some object. */
  lemma {:induction false} CascadeIds(objs: seq<Object>, dead: set<nat>, fuel: nat)
    ensures forall x | x in Cascade(objs, dead, fuel) :: exists i | 0 <= i < |objs| :: objs[i].id == x
    decreases fuel
  {
    if fuel > 0 && dead != {} {
      CascadeIds(objs, ChildIds(objs, dead), fuel - 1);
    }
  }

  /** Starting one round later is the same as running one more round. */
  lemma {:induction false} FrontierShift(objs: seq<Object>, dead: set<nat>, k: nat)
    ensures Frontier(objs, ChildIds(objs, dead), k) == Frontier(objs, dead, k + 1)
    decreases k
  {
    if k > 0 {
      FrontierShift(objs, dead, k - 1);
    }
  }

  /** Under acyclic links every id in round `d` belongs to an object of rank at most `|objs| - d`. */
  lemma {:induction false} FrontierRank(objs: seq<Object>, rank: seq<nat>, dead: set<nat>, d: nat)
    requires Topological(objs, rank)
    requires d >= 1
    ensures forall x | x in Frontier(objs, dead, d) ::
      exists i | 0 <= i < |objs| :: objs[i].id == x && rank[i] + d <= |objs|
    decreases d
  {
    if d > 1 {
      FrontierRank(objs, rank, dead, d - 1);
      forall x | x in Frontier(objs, dead, d)
        ensures exists i | 0 <= i < |objs| :: objs[i].id == x && rank[i] + d <= |objs|
      {
        var i :| 0 <= i < |objs| && objs[i].id == x && objs[i].parent in Frontier(objs, dead, d - 1);
        var j :| 0 <= j < |objs| && objs[j].id == objs[i].parent && rank[j] + d - 1 <= |objs|;
        assert rank[i] < rank[j];
      }
    }
  }

  /** Under acyclic links round `|objs| + 1` is empty: the source's loop halts within the model's bound. */
  lemma CascadeHalts(objs: seq<Object>, rank: seq<nat>, dead: set<nat>)
    requires Topological(objs, rank)
    ensures Frontier(objs, dead, |objs| + 1) == {}
  {
    FrontierRank(objs, rank, dead, |objs| + 1);
  }

  /** If the round after the last one would be empty, the queued ids with the cascade are closed. */
  lemma {:induction false} CascadeClosedWhenHalted(objs: seq<Object>, dead: set<nat>, fuel: nat)
    requires Frontier(objs, dead, fuel + 1) == {}
    ensures Closed(objs, dead + Cascade(objs, dead, fuel))
    decreases fuel
  {
    if fuel == 0 {
      assert ChildIds(objs, dead) == {};
    } else if dead != {} {
      var next := ChildIds(objs, dead);
      FrontierShift(objs, dead, fuel);
      CascadeClosedWhenHalted(objs, next, fuel - 1);
    }
  }

  lemma ChildIdsWithin(objs: seq<Object>, dead: set<nat>, s: set<nat>)
    requires dead <= s && Closed(objs, s)
    ensures ChildIds(objs, dead) <= s
  {
    forall x | x in ChildIds(objs, dead) ensures x in s {
      var i :| 0 <= i < |objs| && objs[i].id == x && objs[i].parent in dead;
      assert objs[i].parent in s;
    }
  }

  /** The cascade is contained in every closed set that holds the queued ids: it is the least such set. */
  lemma {:induction false} CascadeLeast(objs: seq<Object>, dead: set<nat>, fuel: nat, s: set<nat>)
    requires dead <= s && Closed(objs, s)
    ensures Cascade(objs, dead, fuel) <= s
    decreases fuel
  {
    if fuel > 0 && dead != {} {
      var next := ChildIds(objs, dead);
      ChildIdsWithin(objs, dead, s);
      CascadeLeast(objs, next, fuel - 1, s);
      assert Cascade(objs, dead, fuel) == next + Cascade(objs, next, fuel - 1);
    }
  }

  /** Under acyclic links the removal queue `ParentLogic` leaves is closed under children. */
  lemma ParentLogicClosed(objs: seq<Object>, st: GameState, rank: seq<nat>)
    requires Topological(objs, rank)
    ensures Closed(objs, ParentLogic(objs, st).1.idsToRemove)
  {
    CascadeHalts(objs, rank, st.idsToRemove);
    CascadeClosedWhenHalted(objs, st.idsToRemove, |objs| + 1);
  }

  /** `ParentLogic` queues nothing beyond the least closed set holding the queued ids. */
  lemma ParentLogicLeast(objs: seq<Object>, st: GameState, s: set<nat>)
    requires st.idsToRemove <= s && Closed(objs, s)
    ensures ParentLogic(objs, st).1.idsToRemove <= s
  {
    CascadeLeast(objs, st.idsToRemove, |objs| + 1, s);
  }

  /** A queued child of a queued parent is queued; a three-level chain is removed whole. */
  lemma ChainScenario(st: GameState)
    requires st.idsToRemove == {1}
    ensures var a := NewObject(1);
            var b := NewObject(2).(parent := 1);
            var c := NewObject(3).(parent := 2);
            var d := NewObject(4);
            ParentLogic([d, c, b, a], st).1.idsToRemove == {1, 2, 3}
  {
    var a := NewObject(1);
    var b := NewObject(2).(parent := 1);
    var c := NewObject(3).(parent := 2);
    var d := NewObject(4);
    var objs := [d, c, b, a];
    assert objs[0].parent == 0 && objs[3].parent == 0;
    forall x | x in ChildIds(objs, {1}) ensures x == 2 {
      var i :| 0 <= i < |objs| && objs[i].id == x && objs[i].parent in {1};
    }
    assert objs[2].parent in {1};
    assert ChildIds(objs, {1}) == {2};
    forall x | x in ChildIds(objs, {2}) ensures x == 3 {
      var i :| 0 <= i < |objs| && objs[i].id == x && objs[i].parent in {2};
    }
    assert objs[1].parent in {2};
    assert ChildIds(objs, {2}) == {3};
    assert ChildIds(objs, {3}) == {};
    assert Cascade(objs, {3}, 3) == {};
    assert Cascade(objs, {2}, 4) == {3};
    assert Cascade(objs, {1}, 5) == {2, 3};
  }
}

=== FILE: path.dfy ===
/**
  The path search of src/path.rs (`make_path`): A* over the tile grid from a
  unit's tile toward a goal, limited by the unit's action points, falling back
  to the explored tile closest to the goal.  The binary heaps are sequences
  from which the greatest element (by the derived lexicographic order) is
  taken; the hash maps are maps.
*/
module PathSearch {
  import opened Wrappers
  import opened Util
  import opened Game
  import opened Grid

  type Pos = (int, int)

  /** `Node`: the negated estimate (cost so far plus distance left) and the tile. */
  datatype Node = Node(negCost: int, x: int, y: int)

  /** `ApproxNode`: the negated distance left, the negated cost so far, and the tile. */
  datatype ApproxNode = ApproxNode(negApprox: int, negTrue: int, x: int, y: int)

  function NodePos(n: Node): Pos { (n.x, n.y) }

  function ApproxPos(a: ApproxNode): Pos { (a.x, a.y) }

  /** The derived `Ord` of `Node`: fields compared in declaration order. */
  predicate NodeLe(a: Node, b: Node) {
    a.negCost < b.negCost || (a.negCost == b.negCost && (a.x < b.x || (a.x == b.x && a.y <= b.y)))
  }

  /** The derived `Ord` of `ApproxNode`. */
  predicate ApproxLe(a: ApproxNode, b: ApproxNode) {
    || a.negApprox < b.negApprox
    || (a.negApprox == b.negApprox && a.negTrue < b.negTrue)
    || (a.negApprox == b.negApprox && a.negTrue == b.negTrue && (a.x < b.x || (a.x == b.x && a.y <= b.y)))
  }

  /** Where `BinaryHeap::pop` takes its element from: a greatest node. */
  function MaxNode(open: seq<Node>): (i: nat)
    requires |open| > 0
    ensures i < |open|
    ensures forall j | 0 <= j < |open| :: NodeLe(open[j], open[i])
  {
    if |open| == 1 then 0
    else
      var k := MaxNode(open[..|open| - 1]);
      assert forall j | 0 <= j < |open| - 1 :: open[j] == open[..|open| - 1][j];
      if NodeLe(open[|open| - 1], open[k]) then k else |open| - 1
  }

  function MaxApprox(approx: seq<ApproxNode>): (i: nat)
    requires |approx| > 0
    ensures i < |approx|
    ensures forall j | 0 <= j < |approx| :: ApproxLe(approx[j], approx[i])
  {
    if |approx| == 1 then 0
    else
      var k := MaxApprox(approx[..|approx| - 1]);
      assert forall j | 0 <= j < |approx| - 1 :: approx[j] == approx[..|approx| - 1][j];
      if ApproxLe(approx[|approx| - 1], approx[k]) then k else |approx| - 1
  }

  function RemoveAt(open: seq<Node>, i: nat): (r: seq<Node>)
    requires i < |open|
    ensures |r| == |open| - 1
    ensures forall j | 0 <= j < |open| && j != i :: exists k | 0 <= k < |r| :: r[k] == open[j]
  {
    var r := open[..i] + open[i + 1..];
    assert forall j | 0 <= j < i :: r[j] == open[j];
    assert forall j | i < j < |open| :: r[j - 1] == open[j];
    r
  }

  /**
    What one search is about: the unit's tile, the goal, its action points,
    and which tiles `map_tile_solid` reports solid on the map being searched.
  */
  datatype Ctx = Ctx(start: Pos, goal: Pos, ap: int, solid: Pos -> bool)

  /** The open heap, the best known costs, the fallback heap and the predecessor links. */
  datatype Search = Search(open: seq<Node>, cost: map<Pos, int>, approx: seq<ApproxNode>, cameFrom: map<Pos, Pos>)

  function Dist(a: Pos, b: Pos): int {
    L1Dist(a.0, a.1, b.0, b.1)
  }

  predicate Walkable(c: Ctx, p: Pos) {
    !c.solid(p)
  }

  /** The four moves, in the order the source tries them. */
  function Neighbour(p: Pos, k: nat): (q: Pos)
    requires k < 4
    ensures Adjacent(p, q)
  {
    if k == 0 then (p.0 - 1, p.1)
    else if k == 1 then (p.0 + 1, p.1)
    else if k == 2 then (p.0, p.1 - 1)
    else (p.0, p.1 + 1)
  }

  lemma AdjacentIsNeighbour(p: Pos, q: Pos)
    requires Adjacent(p, q)
    ensures exists k | 0 <= k < 4 :: Neighbour(p, k) == q
  {
    if q == (p.0 - 1, p.1) {
      assert Neighbour(p, 0) == q;
    } else if q == (p.0 + 1, p.1) {
      assert Neighbour(p, 1) == q;
    } else if q == (p.0, p.1 - 1) {
      assert Neighbour(p, 2) == q;
    } else {
      assert Neighbour(p, 3) == q;
    }
  }

  // ---------------------------------------------------------------------------
  // The search invariant, in parts.
  // ---------------------------------------------------------------------------

  /** Costs: the start costs 0; every other known tile is walkable, affordable and no nearer than its distance. */
  predicate CostOk(c: Ctx, cost: map<Pos, int>) {
    && c.start in cost && cost[c.start] == 0
    && forall q | q in cost :: 0 <= cost[q] && Dist(c.start, q) <= cost[q] && (q != c.start ==> cost[q] <= c.ap && Walkable(c, q))
  }

  predicate OpenOk(s: Search) {
    forall i | 0 <= i < |s.open| :: NodePos(s.open[i]) in s.cost
  }

  /** Every predecessor link leads from a known neighbour with a lower cost to a known tile other than the start. */
  predicate ParentsOk(c: Ctx, s: Search) {
    forall q {:trigger s.cameFrom[q]} | q in s.cameFrom ::
      q != c.start && q in s.cost && s.cameFrom[q] in s.cost && Adjacent(s.cameFrom[q], q)
      && s.cost[s.cameFrom[q]] < s.cost[q]
  }

  /** Every known tile but the start has a predecessor. */
  predicate LinkedOk(c: Ctx, s: Search) {
    forall q | q in s.cost && q != c.start :: q in s.cameFrom
  }

  predicate TreeOk(c: Ctx, s: Search) {
    ParentsOk(c, s) && LinkedOk(c, s)
  }

  /** Fallback entries name known tiles with their distance to the goal; each known tile has an entry at its current cost. */
  predicate ApproxOk(c: Ctx, s: Search) {
    ApproxFits(c.goal, s.approx, s.cost)
  }

  predicate ApproxFits(goal: Pos, approx: seq<ApproxNode>, cost: map<Pos, int>) {
    && (forall i | 0 <= i < |approx| ::
          && ApproxPos(approx[i]) in cost
          && approx[i].negApprox == -Dist(goal, ApproxPos(approx[i]))
          && cost[ApproxPos(approx[i])] <= -approx[i].negTrue)
    && (forall q | q in cost :: exists i | 0 <= i < |approx| :: ApproxPos(approx[i]) == q && -approx[i].negTrue == cost[q])
  }

  predicate HasOpen(s: Search, q: Pos) {
    exists i | 0 <= i < |s.open| :: NodePos(s.open[i]) == q
  }

  /**
    The estimate a tile is pushed with at cost `v`: the cost plus the distance
    left to the goal.  The start alone is pushed with 0.
  */
  function Estimate(c: Ctx, q: Pos, v: int): int {
    if q == c.start then 0 else v + Dist(c.goal, q)
  }

  /** No open node promises less than the best known cost of its tile allows: costs only fall after a push. */
  predicate EstimatesOk(c: Ctx, s: Search) {
    forall i | 0 <= i < |s.open| ::
      NodePos(s.open[i]) in s.cost && Estimate(c, NodePos(s.open[i]), s.cost[NodePos(s.open[i])]) <= -s.open[i].negCost
  }

  /** `q` waits in the open heap with the estimate of its best known cost. */
  predicate Waiting(c: Ctx, s: Search, q: Pos)
    requires q in s.cost
  {
    exists i | 0 <= i < |s.open| :: NodePos(s.open[i]) == q && -s.open[i].negCost == Estimate(c, q, s.cost[q])
  }

  /** A known goal is still waiting in the open heap. */
  predicate GoalOk(c: Ctx, s: Search) {
    c.goal in s.cost ==> HasOpen(s, c.goal)
  }

  /** The move from `q` to `n` cannot improve `n`: it is blocked, unaffordable, or `n` is already as cheap. */
  predicate RelaxedTo(c: Ctx, cost: map<Pos, int>, q: Pos, n: Pos)
    requires q in cost
  {
    !Walkable(c, n) || cost[q] + 1 > c.ap || (n in cost && cost[n] <= cost[q] + 1)
  }

  predicate Relaxed(c: Ctx, cost: map<Pos, int>, q: Pos)
    requires q in cost
  {
    forall k | 0 <= k < 4 :: RelaxedTo(c, cost, q, Neighbour(q, k))
  }

  /** Each known tile other than `except` is either waiting, at its best known cost, to be expanded or fully relaxed. */
  predicate ClosedExcept(c: Ctx, s: Search, except: Option<Pos>) {
    forall q | q in s.cost && Some(q) != except :: Waiting(c, s, q) || Relaxed(c, s.cost, q)
  }

  predicate Inv(c: Ctx, s: Search) {
    CostOk(c, s.cost) && OpenOk(s) && EstimatesOk(c, s) && TreeOk(c, s) && ApproxOk(c, s) && GoalOk(c, s) && ClosedExcept(c, s, None)
  }

  /**
    The cost improvements still possible: a tile within `ap` steps of the
    start and a cost in 1..ap below its known cost.  Every accepted move
    removes at least one, so the search terminates.
  */
  function Improvable(c: Ctx, cost: map<Pos, int>): set<(int, int, int)> {
    set x: int, y: int, v: int |
      && c.start.0 - c.ap <= x <= c.start.0 + c.ap
      && c.start.1 - c.ap <= y <= c.start.1 + c.ap
      && 1 <= v <= c.ap
      && ((x, y) !in cost || v < cost[(x, y)])
      :: (x, y, v)
  }

  /** The second map is the first with some costs lowered and some tiles added. */
  predicate Lowered(a: map<Pos, int>, b: map<Pos, int>) {
    forall q | q in a :: q in b && b[q] <= a[q]
  }

  lemma LoweredImprovable(c: Ctx, a: map<Pos, int>, b: map<Pos, int>)
    requires Lowered(a, b)
    ensures Improvable(c, b) <= Improvable(c, a)
  {
  }

  // ---------------------------------------------------------------------------
  // One move.
  // ---------------------------------------------------------------------------

  /** Whether the move from a tile of cost `fromCost` onto `cand` is taken. */
  predicate Accepts(c: Ctx, s: Search, fromCost: int, cand: Pos) {
    (cand !in s.cost || fromCost + 1 < s.cost[cand]) && Walkable(c, cand) && fromCost + 1 <= c.ap
  }

  /** One iteration of the move loop: an accepted move pushes both heaps and records the cost and predecessor. */
  function Relax(c: Ctx, s: Search, from: Pos, fromCost: int, cand: Pos): (r: Search)
    ensures !Accepts(c, s, fromCost, cand) ==> r == s
    ensures Accepts(c, s, fromCost, cand) ==> r.cost == s.cost[cand := fromCost + 1] && r.cameFrom == s.cameFrom[cand := from]
  {
    if Accepts(c, s, fromCost, cand) then
      var cc := fromCost + 1;
      var a := Dist(c.goal, cand);
      Search(s.open + [Node(-(cc + a), cand.0, cand.1)], s.cost[cand := cc],
             s.approx + [ApproxNode(-a, -cc, cand.0, cand.1)], s.cameFrom[cand := from])
    else s
  }

  /** What backtracking and the fallback need: costs, predecessor links and fallback entries. */
  predicate Known(c: Ctx, s: Search) {
    CostOk(c, s.cost) && TreeOk(c, s) && ApproxOk(c, s)
  }

  /** The invariant minus closure, which `Relax` keeps on its own. */
  predicate Sound(c: Ctx, s: Search) {
    CostOk(c, s.cost) && OpenOk(s) && EstimatesOk(c, s) && TreeOk(c, s) && ApproxOk(c, s) && GoalOk(c, s)
  }

  lemma RelaxSound(c: Ctx, s: Search, from: Pos, cand: Pos)
    requires Sound(c, s) && from in s.cost && Adjacent(from, cand)
    ensures Sound(c, Relax(c, s, from, s.cost[from], cand))
  {
    if Accepts(c, s, s.cost[from], cand) {
      RelaxCostOk(c, s, from, cand);
      RelaxOpenOk(c, s, from, cand);
      RelaxEstimatesOk(c, s, from, cand);
      RelaxTreeOk(c, s, from, cand);
      RelaxApproxOk(c, s, from, cand);
      RelaxGoalOk(c, s, from, cand);
    }
  }

  lemma RelaxCostOk(c: Ctx, s: Search, from: Pos, cand: Pos)
    requires CostOk(c, s.cost) && from in s.cost && Adjacent(from, cand) && Accepts(c, s, s.cost[from], cand)
    ensures CostOk(c, Relax(c, s, from, s.cost[from], cand).cost)
  {
    L1DistTriangle(c.start.0, c.start.1, from.0, from.1, cand.0, cand.1);
  }

  lemma RelaxOpenOk(c: Ctx, s: Search, from: Pos, cand: Pos)
    requires OpenOk(s) && from in s.cost && Adjacent(from, cand) && Accepts(c, s, s.cost[from], cand)
    ensures OpenOk(Relax(c, s, from, s.cost[from], cand))
  {
    var r := Relax(c, s, from, s.cost[from], cand);
    forall i | 0 <= i < |r.open| ensures NodePos(r.open[i]) in r.cost {
      if i < |s.open| {
        assert r.open[i] == s.open[i];
      }
    }
  }

  /** The pushed node carries exactly its estimate, and older nodes only see their tiles' costs fall. */
  lemma RelaxEstimatesOk(c: Ctx, s: Search, from: Pos, cand: Pos)
    requires CostOk(c, s.cost) && EstimatesOk(c, s) && from in s.cost && Accepts(c, s, s.cost[from], cand)
    ensures EstimatesOk(c, Relax(c, s, from, s.cost[from], cand))
  {
    var r := Relax(c, s, from, s.cost[from], cand);
    assert cand != c.start;
    forall i | 0 <= i < |r.open|
      ensures NodePos(r.open[i]) in r.cost && Estimate(c, NodePos(r.open[i]), r.cost[NodePos(r.open[i])]) <= -r.open[i].negCost
    {
      if i < |s.open| {
        assert r.open[i] == s.open[i];
      }
    }
  }

  lemma RelaxTreeOk(c: Ctx, s: Search, from: Pos, cand: Pos)
    requires CostOk(c, s.cost) && TreeOk(c, s) && from in s.cost && Adjacent(from, cand) && Accepts(c, s, s.cost[from], cand)
    ensures TreeOk(c, Relax(c, s, from, s.cost[from], cand))
  {
    assert cand != c.start;
    RelaxParentsOk(c, s, from, cand);
    RelaxLinkedOk(c, s, from, cand);
  }

  lemma RelaxParentsOk(c: Ctx, s: Search, from: Pos, cand: Pos)
    requires ParentsOk(c, s) && cand != c.start && from in s.cost && Adjacent(from, cand) && Accepts(c, s, s.cost[from], cand)
    ensures ParentsOk(c, Relax(c, s, from, s.cost[from], cand))
  {
    var fc := s.cost[from];
    var r := Relax(c, s, from, fc, cand);
    assert cand != from by {
      L1DistZeroIff(from.0, from.1, cand.0, cand.1);
    }
    assert r.cost == s.cost[cand := fc + 1];
    assert r.cameFrom == s.cameFrom[cand := from];
    forall q | q in r.cameFrom
      ensures q != c.start && q in r.cost && r.cameFrom[q] in r.cost && Adjacent(r.cameFrom[q], q)
      ensures r.cost[r.cameFrom[q]] < r.cost[q]
    {
      if q != cand {
        assert r.cameFrom[q] == s.cameFrom[q];
      }
    }
  }

  lemma RelaxLinkedOk(c: Ctx, s: Search, from: Pos, cand: Pos)
    requires LinkedOk(c, s) && from in s.cost && Accepts(c, s, s.cost[from], cand)
    ensures LinkedOk(c, Relax(c, s, from, s.cost[from], cand))
  {
  }

  lemma RelaxApproxOk(c: Ctx, s: Search, from: Pos, cand: Pos)
    requires ApproxOk(c, s) && from in s.cost && Accepts(c, s, s.cost[from], cand)
    ensures ApproxOk(c, Relax(c, s, from, s.cost[from], cand))
  {
    var fc := s.cost[from];
    var r := Relax(c, s, from, fc, cand);
    assert r.approx == s.approx + [ApproxNode(-Dist(c.goal, cand), -(fc + 1), cand.0, cand.1)];
    ApproxPush(c.goal, s.approx, s.cost, cand, fc + 1);
  }

  /** Recording a cheaper cost for a tile, with a fallback entry for it, keeps the fallback entries in step. */
  lemma ApproxPush(goal: Pos, approx: seq<ApproxNode>, cost: map<Pos, int>, cand: Pos, v: int)
    requires ApproxFits(goal, approx, cost) && (cand !in cost || v < cost[cand])
    ensures ApproxFits(goal, approx + [ApproxNode(-Dist(goal, cand), -v, cand.0, cand.1)], cost[cand := v])
  {
    var a := ApproxNode(-Dist(goal, cand), -v, cand.0, cand.1);
    var ra, rc := approx + [a], cost[cand := v];
    forall i | 0 <= i < |ra|
      ensures ApproxPos(ra[i]) in rc
      ensures ra[i].negApprox == -Dist(goal, ApproxPos(ra[i]))
      ensures rc[ApproxPos(ra[i])] <= -ra[i].negTrue
    {
      if i < |approx| {
        assert ra[i] == approx[i];
      }
    }
    forall q | q in rc
      ensures exists i | 0 <= i < |ra| :: ApproxPos(ra[i]) == q && -ra[i].negTrue == rc[q]
    {
      if q == cand {
        assert ApproxPos(ra[|approx|]) == q;
      } else {
        var i :| 0 <= i < |approx| && ApproxPos(approx[i]) == q && -approx[i].negTrue == cost[q];
        assert ra[i] == approx[i];
      }
    }
  }

  lemma RelaxKeepsOpen(c: Ctx, s: Search, from: Pos, cand: Pos)
    requires from in s.cost
    ensures var r := Relax(c, s, from, s.cost[from], cand);
      (forall q | HasOpen(s, q) :: HasOpen(r, q)) && (r != s ==> HasOpen(r, cand))
  {
    var r := Relax(c, s, from, s.cost[from], cand);
    if r != s {
      forall q | HasOpen(s, q) ensures HasOpen(r, q) {
        var i :| 0 <= i < |s.open| && NodePos(s.open[i]) == q;
        assert r.open[i] == s.open[i];
      }
      assert NodePos(r.open[|s.open|]) == cand;
    }
  }

  lemma RelaxGoalOk(c: Ctx, s: Search, from: Pos, cand: Pos)
    requires GoalOk(c, s) && from in s.cost && Adjacent(from, cand) && Accepts(c, s, s.cost[from], cand)
    ensures GoalOk(c, Relax(c, s, from, s.cost[from], cand))
  {
    RelaxKeepsOpen(c, s, from, cand);
  }

  /** A move lowers costs only, leaves its own source's cost, and relaxes itself. */
  lemma RelaxLowers(c: Ctx, s: Search, from: Pos, cand: Pos)
    requires from in s.cost && Adjacent(from, cand)
    ensures var r := Relax(c, s, from, s.cost[from], cand);
      && Lowered(s.cost, r.cost)
      && from in r.cost && r.cost[from] == s.cost[from]
      && RelaxedTo(c, r.cost, from, cand)
      && (r == s || r.cost.Keys == s.cost.Keys + {cand})
  {
    assert cand != from by {
      L1DistZeroIff(from.0, from.1, cand.0, cand.1);
    }
    var fc := s.cost[from];
    var r := Relax(c, s, from, fc, cand);
    if Accepts(c, s, fc, cand) {
      assert r.cost == s.cost[cand := fc + 1];
    } else {
      assert r == s;
    }
  }

  /** A taken move removes an improvement: the move itself. */
  lemma RelaxShrinks(c: Ctx, s: Search, from: Pos, cand: Pos)
    requires Sound(c, s) && from in s.cost && Adjacent(from, cand)
    ensures var r := Relax(c, s, from, s.cost[from], cand);
      r != s ==> Improvable(c, r.cost) < Improvable(c, s.cost)
  {
    var fc := s.cost[from];
    var r := Relax(c, s, from, fc, cand);
    if r != s {
      RelaxLowers(c, s, from, cand);
      L1DistTriangle(c.start.0, c.start.1, from.0, from.1, cand.0, cand.1);
      ImprovableShrinks(c, s.cost, r.cost, cand, fc + 1);
    }
  }

  /** Lowering costs and giving `cand` a cost it could not have before removes an improvement. */
  lemma ImprovableShrinks(c: Ctx, a: map<Pos, int>, b: map<Pos, int>, cand: Pos, v: int)
    requires Lowered(a, b) && cand in b && b[cand] == v && 1 <= v <= c.ap
    requires cand !in a || v < a[cand]
    requires L1Dist(c.start.0, c.start.1, cand.0, cand.1) <= v
    ensures Improvable(c, b) < Improvable(c, a)
  {
    LoweredImprovable(c, a, b);
    assert (cand.0, cand.1, v) in Improvable(c, a);
    assert (cand.0, cand.1, v) !in Improvable(c, b);
  }

  /** Relaxed moves stay relaxed, except out of the tile whose cost just dropped. */
  lemma RelaxKeepsRelaxed(c: Ctx, s: Search, from: Pos, cand: Pos, q: Pos, n: Pos)
    requires Sound(c, s) && from in s.cost && Adjacent(from, cand)
    requires q in s.cost && RelaxedTo(c, s.cost, q, n) && q != cand
    ensures var r := Relax(c, s, from, s.cost[from], cand);
      q in r.cost && RelaxedTo(c, r.cost, q, n)
  {
    RelaxLowers(c, s, from, cand);
  }

  /** The move loop over the neighbours `k..3` of `best`, whose cost was `fc` when it was popped. */
  function Moves(c: Ctx, s: Search, best: Pos, fc: int, k: nat): (r: Search)
    requires k <= 4
    decreases 4 - k
  {
    if k == 4 then s
    else Moves(c, Relax(c, s, best, fc, Neighbour(best, k)), best, fc, k + 1)
  }

  /** Expanding a popped tile: try the move onto each of its four neighbours. */
  function Expand(c: Ctx, s: Search, best: Pos): (r: Search)
    requires best in s.cost
  {
    Moves(c, s, best, s.cost[best], 0)
  }


  /** A move keeps closure: the moved-onto tile waits in the open heap, everything else keeps its reason. */
  lemma RelaxClosed(c: Ctx, s: Search, from: Pos, cand: Pos, e: Option<Pos>)
    requires Sound(c, s) && from in s.cost && Adjacent(from, cand) && ClosedExcept(c, s, e)
    ensures ClosedExcept(c, Relax(c, s, from, s.cost[from], cand), e)
  {
    var r := Relax(c, s, from, s.cost[from], cand);
    RelaxLowers(c, s, from, cand);
    forall q | q in r.cost && Some(q) != e ensures Waiting(c, r, q) || Relaxed(c, r.cost, q) {
      if r != s && q == cand {
        assert cand != c.start;
        assert NodePos(r.open[|s.open|]) == cand;
      } else if r != s {
        assert q in s.cost && r.cost[q] == s.cost[q];
        if Waiting(c, s, q) {
          var j :| 0 <= j < |s.open| && NodePos(s.open[j]) == q && -s.open[j].negCost == Estimate(c, q, s.cost[q]);
          assert r.open[j] == s.open[j];
        } else {
          forall k | 0 <= k < 4 ensures RelaxedTo(c, r.cost, q, Neighbour(q, k)) {
            RelaxKeepsRelaxed(c, s, from, cand, q, Neighbour(q, k));
          }
        }
      }
    }
  }

  /** What one move keeps: soundness and the expanded tile's cost. */
  lemma RelaxStepSound(c: Ctx, s: Search, from: Pos, cand: Pos)
    requires Sound(c, s) && from in s.cost && Adjacent(from, cand)
    ensures var r := Relax(c, s, from, s.cost[from], cand);
      Sound(c, r) && from in r.cost && r.cost[from] == s.cost[from]
  {
    RelaxSound(c, s, from, cand);
    RelaxLowers(c, s, from, cand);
  }

  /** After a move from `from` onto `cand`, that move and every move from `from` already relaxed are relaxed. */
  lemma RelaxStepRelaxed(c: Ctx, s: Search, from: Pos, cand: Pos)
    requires Sound(c, s) && from in s.cost && Adjacent(from, cand)
    ensures var r := Relax(c, s, from, s.cost[from], cand);
      && from in r.cost
      && RelaxedTo(c, r.cost, from, cand)
      && (forall k | 0 <= k < 4 && RelaxedTo(c, s.cost, from, Neighbour(from, k)) :: RelaxedTo(c, r.cost, from, Neighbour(from, k)))
  {
    RelaxLowers(c, s, from, cand);
    assert cand != from by {
      L1DistZeroIff(from.0, from.1, cand.0, cand.1);
    }
    forall k | 0 <= k < 4 && RelaxedTo(c, s.cost, from, Neighbour(from, k))
      ensures RelaxedTo(c, Relax(c, s, from, s.cost[from], cand).cost, from, Neighbour(from, k))
    {
      RelaxKeepsRelaxed(c, s, from, cand, from, Neighbour(from, k));
    }
  }

  /** Trying move `k` out of `best` extends the relaxed moves `0..k-1` to `0..k`. */
  lemma RelaxStepPrefix(c: Ctx, s: Search, best: Pos, k: nat)
    requires Sound(c, s) && best in s.cost && k < 4
    requires forall j | 0 <= j < k :: RelaxedTo(c, s.cost, best, Neighbour(best, j))
    ensures var s1 := Relax(c, s, best, s.cost[best], Neighbour(best, k));
      best in s1.cost && forall j | 0 <= j < k + 1 :: RelaxedTo(c, s1.cost, best, Neighbour(best, j))
  {
    var s1 := Relax(c, s, best, s.cost[best], Neighbour(best, k));
    RelaxStepRelaxed(c, s, best, Neighbour(best, k));
    forall j | 0 <= j < k + 1 ensures RelaxedTo(c, s1.cost, best, Neighbour(best, j)) {
      if j < k {
        assert RelaxedTo(c, s.cost, best, Neighbour(best, j));
      }
    }
  }

  /** A move either changes nothing or removes an improvement, and never adds one. */
  lemma RelaxStepProgress(c: Ctx, s: Search, from: Pos, cand: Pos)
    requires Sound(c, s) && from in s.cost && Adjacent(from, cand)
    ensures var r := Relax(c, s, from, s.cost[from], cand);
      && (r == s || Improvable(c, r.cost) < Improvable(c, s.cost))
      && Improvable(c, r.cost) <= Improvable(c, s.cost)
  {
    RelaxLowers(c, s, from, cand);
    RelaxShrinks(c, s, from, cand);
    LoweredImprovable(c, s.cost, Relax(c, s, from, s.cost[from], cand).cost);
  }

  /** The move loop keeps soundness, the expanded tile's cost, and closure of every tile but the expanded one. */
  lemma {:induction false} MovesSound(c: Ctx, s: Search, best: Pos, k: nat, e: Option<Pos>)
    requires Sound(c, s) && best in s.cost && ClosedExcept(c, s, e) && k <= 4
    ensures var r := Moves(c, s, best, s.cost[best], k);
      Sound(c, r) && ClosedExcept(c, r, e) && best in r.cost && r.cost[best] == s.cost[best]
    decreases 4 - k
  {
    if k < 4 {
      RelaxStepSound(c, s, best, Neighbour(best, k));
      RelaxClosed(c, s, best, Neighbour(best, k), e);
      MovesSound(c, Relax(c, s, best, s.cost[best], Neighbour(best, k)), best, k + 1, e);
    }
  }

  /** Once the loop has tried the moves `k..3`, every move out of `best` is relaxed. */
  lemma {:induction false} MovesRelax(c: Ctx, s: Search, best: Pos, k: nat)
    requires Sound(c, s) && best in s.cost && k <= 4
    requires forall j | 0 <= j < k :: RelaxedTo(c, s.cost, best, Neighbour(best, j))
    ensures var r := Moves(c, s, best, s.cost[best], k); best in r.cost && Relaxed(c, r.cost, best)
    decreases 4 - k
  {
    if k < 4 {
      var s1 := Relax(c, s, best, s.cost[best], Neighbour(best, k));
      RelaxStepSound(c, s, best, Neighbour(best, k));
      RelaxStepPrefix(c, s, best, k);
      MovesRelax(c, s1, best, k + 1);
    }
  }

  /** The move loop either changes nothing or removes an improvement. */
  lemma {:induction false} MovesProgress(c: Ctx, s: Search, best: Pos, k: nat)
    requires Sound(c, s) && best in s.cost && k <= 4
    ensures var r := Moves(c, s, best, s.cost[best], k);
      && (r == s || Improvable(c, r.cost) < Improvable(c, s.cost))
      && Improvable(c, r.cost) <= Improvable(c, s.cost)
    decreases 4 - k
  {
    if k < 4 {
      var s1 := Relax(c, s, best, s.cost[best], Neighbour(best, k));
      RelaxStepSound(c, s, best, Neighbour(best, k));
      RelaxStepProgress(c, s, best, Neighbour(best, k));
      MovesProgress(c, s1, best, k + 1);
    }
  }

  /**
    Expanding the tile just taken from the open heap relaxes all its moves,
    so the invariant holds again; the search either made no move or removed
    an improvement.
  */
  lemma ExpandSpec(c: Ctx, s: Search, best: Pos)
    requires Sound(c, s) && best in s.cost && ClosedExcept(c, s, Some(best))
    ensures var r := Expand(c, s, best);
      && Sound(c, r) && ClosedExcept(c, r, None)
      && (r == s || Improvable(c, r.cost) < Improvable(c, s.cost))
  {
    MovesSound(c, s, best, 0, Some(best));
    MovesRelax(c, s, best, 0);
    MovesProgress(c, s, best, 0);
  }

  /** Taking a node that is not the goal off the open heap leaves its tile as the only one that may lack a reason. */
  lemma PopSpec(c: Ctx, s: Search, i: nat)
    requires Inv(c, s) && i < |s.open| && NodePos(s.open[i]) != c.goal
    ensures var s1 := s.(open := RemoveAt(s.open, i));
      Sound(c, s1) && NodePos(s.open[i]) in s1.cost && ClosedExcept(c, s1, Some(NodePos(s.open[i])))
  {
    var s1 := s.(open := RemoveAt(s.open, i));
    PopOpen(c, s, i);
    assert s1.cost == s.cost && s1.cameFrom == s.cameFrom && s1.approx == s.approx;
  }

  /**
    The open heap without entry `i` still names only known tiles with
    estimates no lower than their costs allow, and every other tile it held,
    waiting ones still waiting.
  */
  lemma PopOpen(c: Ctx, s: Search, i: nat)
    requires OpenOk(s) && EstimatesOk(c, s) && i < |s.open|
    ensures var s1 := s.(open := RemoveAt(s.open, i));
      && OpenOk(s1) && EstimatesOk(c, s1)
      && (forall q | HasOpen(s, q) && q != NodePos(s.open[i]) :: HasOpen(s1, q))
      && (forall q | q in s.cost && Waiting(c, s, q) && q != NodePos(s.open[i]) :: Waiting(c, s1, q))
  {
    var best := NodePos(s.open[i]);
    var s1 := s.(open := RemoveAt(s.open, i));
    forall q | HasOpen(s, q) && q != best ensures HasOpen(s1, q) {
      var j :| 0 <= j < |s.open| && NodePos(s.open[j]) == q;
      var k :| 0 <= k < |s1.open| && s1.open[k] == s.open[j];
    }
    forall q | q in s.cost && Waiting(c, s, q) && q != best ensures Waiting(c, s1, q) {
      var j :| 0 <= j < |s.open| && NodePos(s.open[j]) == q && -s.open[j].negCost == Estimate(c, q, s.cost[q]);
      var k :| 0 <= k < |s1.open| && s1.open[k] == s.open[j];
    }
    assert OpenOk(s1) && EstimatesOk(c, s1) by {
      forall k | 0 <= k < |s1.open|
        ensures NodePos(s1.open[k]) in s1.cost
        ensures Estimate(c, NodePos(s1.open[k]), s1.cost[NodePos(s1.open[k])]) <= -s1.open[k].negCost
      {
        assert s1.open[k] in s.open[..i] + s.open[i + 1..];
      }
    }
  }

  /**
    The main loop: take the best node; stop at the goal; otherwise expand it.
    Ends with the goal found, or with the open heap empty and every known
    tile relaxed.
  */
  function Run(c: Ctx, s: Search): (r: (bool, Search))
    requires Inv(c, s)
    ensures Known(c, r.1)
    ensures r.0 ==> c.goal in r.1.cost
    ensures !r.0 ==> Sound(c, r.1) && |r.1.open| == 0 && ClosedExcept(c, r.1, None)
    decreases Improvable(c, s.cost), |s.open|
  {
    if |s.open| == 0 then (false, s)
    else
      var i := MaxNode(s.open);
      var best := NodePos(s.open[i]);
      var s1 := s.(open := RemoveAt(s.open, i));
      if best == c.goal then (true, s1)
      else
        PopSpec(c, s, i);
        ExpandSpec(c, s1, best);
        Run(c, Expand(c, s1, best))
  }

  /** The heaps and maps after the start tile is pushed. */
  function Initial(c: Ctx): (s: Search)
    ensures Inv(c, s)
  {
    L1DistSymmetric(c.start.0, c.start.1, c.goal.0, c.goal.1);
    var s := Search([Node(0, c.start.0, c.start.1)], map[c.start := 0],
                    [ApproxNode(-Dist(c.start, c.goal), 0, c.start.0, c.start.1)], map[]);
    assert HasOpen(s, c.start) && Waiting(c, s, c.start) by {
      assert NodePos(s.open[0]) == c.start;
    }
    assert ApproxOk(c, s) by {
      assert ApproxPos(s.approx[0]) == c.start;
    }
    s
  }

  /** The search's outcome: whether the goal was reached, and the final heaps and maps. */
  function Outcome(c: Ctx): (r: (bool, Search))
    ensures Known(c, r.1)
  {
    Run(c, Initial(c))
  }

  /** Where the path ends: the goal when found, otherwise the tile the fallback heap yields. */
  function Target(c: Ctx): (t: Pos)
    ensures t in Outcome(c).1.cost
  {
    var (found, s) := Outcome(c);
    if found then c.goal
    else
      assert |s.approx| > 0 by {
        assert c.start in s.cost;
      }
      ApproxPos(s.approx[MaxApprox(s.approx)])
  }

  /** The predecessor walk back to the start, returned start-side first (the source pushes, then reverses). */
  function Backtrack(c: Ctx, s: Search, cur: Pos): (r: seq<Pos>)
    requires Known(c, s) && cur in s.cost
    decreases s.cost[cur]
  {
    if cur == c.start then []
    else
      assert s.cameFrom[cur] in s.cost;
      Backtrack(c, s, s.cameFrom[cur]) + [cur]
  }

  /** A walk from the start: each tile a 4-neighbour of the one before. */
  predicate Chain(start: Pos, ps: seq<Pos>) {
    && (|ps| > 0 ==> Adjacent(start, ps[0]))
    && forall i | 0 <= i < |ps| - 1 :: Adjacent(ps[i], ps[i + 1])
  }

  /**
    A walk from the start through known walkable tiles other than the start,
    with strictly rising costs, ending at `cur`, and no longer than `cur`'s
    cost.
  */
  predicate BackWalk(c: Ctx, cost: map<Pos, int>, r: seq<Pos>, cur: Pos)
    requires cur in cost
  {
    && |r| <= cost[cur]
    && (|r| == 0 <==> cur == c.start)
    && (|r| > 0 ==> r[|r| - 1] == cur)
    && Chain(c.start, r)
    && (forall i | 0 <= i < |r| :: r[i] in cost && r[i] != c.start && Walkable(c, r[i]))
    && (forall i, j | 0 <= i < j < |r| :: cost[r[i]] < cost[r[j]])
  }

  /** The backtracked path is such a walk. */
  lemma {:induction false} BacktrackSpec(c: Ctx, s: Search, cur: Pos)
    requires Known(c, s) && cur in s.cost
    ensures BackWalk(c, s.cost, Backtrack(c, s, cur), cur)
    decreases s.cost[cur]
  {
    if cur != c.start {
      var p := s.cameFrom[cur];
      BacktrackSpec(c, s, p);
      var pre := Backtrack(c, s, p);
      assert pre + [cur] == Backtrack(c, s, cur);
      BackWalkStep(c, s.cost, pre, p, cur);
    }
  }

  /** A walk to `p` extended by a costlier known neighbour of `p` is a walk to it. */
  lemma BackWalkStep(c: Ctx, cost: map<Pos, int>, pre: seq<Pos>, p: Pos, cur: Pos)
    requires p in cost && BackWalk(c, cost, pre, p)
    requires cur in cost && cur != c.start && Walkable(c, cur) && Adjacent(p, cur) && cost[p] < cost[cur]
    ensures BackWalk(c, cost, pre + [cur], cur)
  {
    var r := pre + [cur];
    if |pre| > 0 {
      assert pre[|pre| - 1] == p;
      assert Adjacent(r[|pre| - 1], r[|pre|]);
      forall i | 0 <= i < |pre| ensures cost[pre[i]] < cost[cur] {
        if i < |pre| - 1 {
          assert cost[pre[i]] < cost[pre[|pre| - 1]];
        }
      }
    }
    forall i | 0 <= i < |r| - 1 ensures Adjacent(r[i], r[i + 1]) {
      if i < |pre| - 1 {
        assert r[i] == pre[i] && r[i + 1] == pre[i + 1];
      }
    }
  }

  /** The tiles the path visits. */
  function PathOf(c: Ctx): seq<Pos> {
    Backtrack(c, Outcome(c).1, Target(c))
  }

  /**
    The path is a walk of 4-neighbour steps out of the start through distinct
    walkable tiles, never back onto the start, and no longer than the action
    points allow.
  */
  lemma PathIsWalk(c: Ctx)
    ensures var ps := PathOf(c);
      && Chain(c.start, ps)
      && (forall i | 0 <= i < |ps| :: Walkable(c, ps[i]) && ps[i] != c.start)
      && (forall i, j | 0 <= i < j < |ps| :: ps[i] != ps[j])
      && (|ps| > 0 ==> |ps| <= c.ap)
  {
    var s := Outcome(c).1;
    BacktrackSpec(c, s, Target(c));
  }

  /** When the goal is found the path ends on it (or is empty, when the unit already stands there). */
  lemma PathReachesFoundGoal(c: Ctx)
    requires Outcome(c).0
    ensures var ps := PathOf(c); if c.goal == c.start then ps == [] else |ps| > 0 && ps[|ps| - 1] == c.goal
  {
    BacktrackSpec(c, Outcome(c).1, Target(c));
  }

  /**
    A blocked goal right next to the start is never entered, and no other
    tile is nearer to it than the start, cost included: the search ends
    where it began and the path is empty.
  */
  lemma BlockedAdjacentGoal(c: Ctx)
    requires Adjacent(c.start, c.goal) && !Walkable(c, c.goal)
    ensures Target(c) == c.start && PathOf(c) == []
  {
    var s := Outcome(c).1;
    var t := Target(c);
    if !Outcome(c).0 {
      FallbackIsNearest(c);
      L1DistSymmetric(c.goal.0, c.goal.1, c.start.0, c.start.1);
      L1DistZeroIff(c.goal.0, c.goal.1, t.0, t.1);
      L1DistZeroIff(c.start.0, c.start.1, t.0, t.1);
    }
    BacktrackSpec(c, s, t);
  }

  /** A walk of at most `ap` steps from the start over walkable tiles. */
  predicate Reach(c: Ctx, w: seq<Pos>) {
    && |w| >= 1 && w[0] == c.start && |w| - 1 <= c.ap
    && (forall i | 0 <= i < |w| - 1 :: Adjacent(w[i], w[i + 1]))
    && (forall i | 1 <= i < |w| :: Walkable(c, w[i]))
  }

  /** The backtracked path, after the start, is a walk the unit can afford. */
  lemma PathIsReach(c: Ctx)
    requires c.ap >= 0
    ensures Reach(c, [c.start] + PathOf(c))
  {
    var ps := PathOf(c);
    PathIsWalk(c);
    ChainIsReach(c, ps);
  }

  lemma ChainIsReach(c: Ctx, ps: seq<Pos>)
    requires Chain(c.start, ps) && |ps| <= c.ap
    requires forall i | 0 <= i < |ps| :: Walkable(c, ps[i])
    ensures Reach(c, [c.start] + ps)
  {
    var w := [c.start] + ps;
    ChainSteps(c.start, ps);
    forall i | 1 <= i < |w| ensures Walkable(c, w[i]) {
      assert w[i] == ps[i - 1];
    }
  }

  /** A walk from `start`, with `start` put in front, steps between 4-neighbours throughout. */
  lemma ChainSteps(start: Pos, ps: seq<Pos>)
    requires Chain(start, ps)
    ensures var w := [start] + ps; forall i | 0 <= i < |w| - 1 :: Adjacent(w[i], w[i + 1])
  {
    var w := [start] + ps;
    forall i | 0 <= i < |w| - 1 ensures Adjacent(w[i], w[i + 1]) {
      if i > 0 {
        assert w[i] == ps[i - 1] && w[i + 1] == ps[i];
      }
    }
  }

  /** Such a walk that ends on the goal. */
  predicate Route(c: Ctx, w: seq<Pos>) {
    Reach(c, w) && w[|w| - 1] == c.goal
  }

  /** With the open heap empty and every known tile relaxed, every tile of a route is known no dearer than its step. */
  lemma {:induction false} RouteKnown(c: Ctx, s: Search, w: seq<Pos>, i: nat)
    requires Sound(c, s) && |s.open| == 0 && ClosedExcept(c, s, None)
    requires Reach(c, w) && i < |w|
    ensures w[i] in s.cost && s.cost[w[i]] <= i
  {
    if i > 0 {
      RouteKnown(c, s, w, i - 1);
      AdjacentIsNeighbour(w[i - 1], w[i]);
      var k :| 0 <= k < 4 && Neighbour(w[i - 1], k) == w[i];
      assert !Waiting(c, s, w[i - 1]);
      assert RelaxedTo(c, s.cost, w[i - 1], Neighbour(w[i - 1], k));
    }
  }

  /** `make_path` reaches the goal whenever some route of at most the unit's action points leads there. */
  lemma SearchComplete(c: Ctx, w: seq<Pos>)
    requires Route(c, w)
    ensures Outcome(c).0
  {
    var (found, s) := Outcome(c);
    if !found {
      RouteKnown(c, s, w, |w| - 1);
    }
  }

  /**
    When the goal is not reached the path ends on a known tile nearest the
    goal, the cheapest such by its best recorded cost; in particular it ends
    no farther from the goal than the start is.
  */
  lemma FallbackIsNearest(c: Ctx)
    requires !Outcome(c).0
    ensures var s := Outcome(c).1;
      var t := Target(c);
      && (forall q | q in s.cost :: Dist(c.goal, t) <= Dist(c.goal, q))
      && (forall q | q in s.cost && Dist(c.goal, q) == Dist(c.goal, t) :: s.cost[t] <= s.cost[q])
      && Dist(c.goal, t) <= Dist(c.goal, c.start)
  {
    var s := Outcome(c).1;
    var m := MaxApprox(s.approx);
    var t := Target(c);
    assert t == ApproxPos(s.approx[m]);
    forall q | q in s.cost
      ensures Dist(c.goal, t) <= Dist(c.goal, q)
      ensures Dist(c.goal, q) == Dist(c.goal, t) ==> s.cost[t] <= s.cost[q]
    {
      var i :| 0 <= i < |s.approx| && ApproxPos(s.approx[i]) == q && -s.approx[i].negTrue == s.cost[q];
      assert ApproxLe(s.approx[i], s.approx[m]);
    }
  }

  /** When the goal is not reached, no route within the action points leads to it. */
  lemma NoRouteWhenNotFound(c: Ctx, w: seq<Pos>)
    requires !Outcome(c).0
    ensures !Route(c, w)
  {
    if Route(c, w) {
      SearchComplete(c, w);
    }
  }

  /** The tile the unit ends on: the last tile of the path, or the start when the path is empty. */
  function EndOf(c: Ctx): Pos {
    var ps := PathOf(c);
    if |ps| == 0 then c.start else ps[|ps| - 1]
  }

  /**
    When the goal is not reached the unit still walks as close to the goal as
    it can: no tile reachable within its action points is nearer the goal
    than where the path ends.
  */
  lemma FallbackNearestReachable(c: Ctx, w: seq<Pos>)
    requires !Outcome(c).0 && Reach(c, w)
    ensures Dist(c.goal, EndOf(c)) <= Dist(c.goal, w[|w| - 1])
  {
    var s := Outcome(c).1;
    BacktrackSpec(c, s, Target(c));
    assert EndOf(c) == Target(c);
    RouteKnown(c, s, w, |w| - 1);
    FallbackIsNearest(c);
  }

  // ---------------------------------------------------------------------------
  // Optimality: the distance to the goal never overestimates the steps left,
  // so the goal leaves the open heap only at its shortest cost.
  // ---------------------------------------------------------------------------

  /** Along a walk of 4-neighbour steps, the tile at step `i` is no farther from the last tile than the steps left. */
  lemma {:induction false} WalkDistLeft(w: seq<Pos>, i: nat)
    requires i < |w| && forall j | 0 <= j < |w| - 1 :: Adjacent(w[j], w[j + 1])
    ensures Dist(w[|w| - 1], w[i]) <= |w| - 1 - i
    decreases |w| - i
  {
    var g := w[|w| - 1];
    if i < |w| - 1 {
      WalkDistLeft(w, i + 1);
      L1DistConsistent(w[i].0, w[i].1, w[i + 1].0, w[i + 1].1, g.0, g.1);
      L1DistSymmetric(w[i].0, w[i].1, g.0, g.1);
      L1DistSymmetric(w[i + 1].0, w[i + 1].1, g.0, g.1);
    } else {
      L1DistZeroIff(g.0, g.1, w[i].0, w[i].1);
    }
  }

  /** Route tile `i` is known at a cost no higher than `i`. */
  predicate KnownBy(s: Search, w: seq<Pos>, i: nat)
    requires i < |w|
  {
    w[i] in s.cost && s.cost[w[i]] <= i
  }

  /** Between a route tile known in time and a later one that is not, some tile is known in time and its successor is not. */
  lemma {:induction false} FirstLate(s: Search, w: seq<Pos>, i: nat, n: nat) returns (j: nat)
    requires i < n < |w| && KnownBy(s, w, i) && !KnownBy(s, w, n)
    ensures i <= j < n && KnownBy(s, w, j) && !KnownBy(s, w, j + 1)
    decreases n - i
  {
    if !KnownBy(s, w, i + 1) {
      j := i;
    } else {
      j := FirstLate(s, w, i + 1, n);
    }
  }

  /**
    The A* argument: unless the goal is already known at no more than the
    steps of a route to it, some open node promises no more than those steps.
    The first route tile not known in time follows one that is; that one is
    not relaxed towards it, so it waits in the open heap, and its estimate
    (its cost plus its distance to the goal) is at most the route's length.
  */
  lemma FrontierBound(c: Ctx, s: Search, w: seq<Pos>)
    requires CostOk(c, s.cost) && ClosedExcept(c, s, None) && Route(c, w)
    ensures || (c.goal in s.cost && s.cost[c.goal] <= |w| - 1)
            || exists k | 0 <= k < |s.open| :: -s.open[k].negCost <= |w| - 1
  {
    var n := |w| - 1;
    if !KnownBy(s, w, n) {
      var j := FirstLate(s, w, 0, n);
      LateStepWaits(c, s, w, j);
      WaitingBound(c, s, w, j);
    }
  }

  /** A route tile known in time whose successor is not known in time has not been relaxed, so it waits. */
  lemma LateStepWaits(c: Ctx, s: Search, w: seq<Pos>, j: nat)
    requires CostOk(c, s.cost) && ClosedExcept(c, s, None) && Route(c, w)
    requires j + 1 < |w| && KnownBy(s, w, j) && !KnownBy(s, w, j + 1)
    ensures Waiting(c, s, w[j])
  {
    var p := w[j];
    AdjacentIsNeighbour(p, w[j + 1]);
    var m :| 0 <= m < 4 && Neighbour(p, m) == w[j + 1];
    assert !RelaxedTo(c, s.cost, p, Neighbour(p, m));
  }

  /** A route tile waiting at a cost no higher than its step has an open node promising no more than the route's length. */
  lemma WaitingBound(c: Ctx, s: Search, w: seq<Pos>, j: nat)
    requires Route(c, w) && j < |w| && KnownBy(s, w, j) && Waiting(c, s, w[j])
    ensures exists k | 0 <= k < |s.open| :: -s.open[k].negCost <= |w| - 1
  {
    var p := w[j];
    var k :| 0 <= k < |s.open| && NodePos(s.open[k]) == p && -s.open[k].negCost == Estimate(c, p, s.cost[p]);
    WalkDistLeft(w, j);
    assert -s.open[k].negCost <= |w| - 1;
  }

  /** The main loop stops at the goal only once the goal is known at no more than the steps of any route to it. */
  lemma {:induction false} RunShortest(c: Ctx, s: Search, w: seq<Pos>)
    requires Inv(c, s) && Route(c, w)
    ensures Run(c, s).0 ==> Run(c, s).1.cost[c.goal] <= |w| - 1
    decreases Improvable(c, s.cost), |s.open|
  {
    if |s.open| > 0 {
      var i := MaxNode(s.open);
      var best := NodePos(s.open[i]);
      var s1 := s.(open := RemoveAt(s.open, i));
      if best == c.goal {
        assert Run(c, s) == (true, s1);
        FrontierBound(c, s, w);
        if exists k | 0 <= k < |s.open| :: -s.open[k].negCost <= |w| - 1 {
          var k :| 0 <= k < |s.open| && -s.open[k].negCost <= |w| - 1;
          assert NodeLe(s.open[k], s.open[i]);
          assert Estimate(c, best, s.cost[best]) <= -s.open[i].negCost;
        }
      } else {
        PopSpec(c, s, i);
        ExpandSpec(c, s1, best);
        RunShortest(c, Expand(c, s1, best), w);
      }
    }
  }

  /** The path is a shortest one: no route to the goal within the action points takes fewer steps. */
  lemma PathIsShortest(c: Ctx, w: seq<Pos>)
    requires Route(c, w)
    ensures |PathOf(c)| <= |w| - 1
  {
    SearchComplete(c, w);
    RunShortest(c, Initial(c), w);
    BacktrackSpec(c, Outcome(c).1, Target(c));
  }

  /** No path is shorter than the distance from the start to where it ends. */
  lemma PathCoversDist(c: Ctx)
    ensures Dist(c.start, EndOf(c)) <= |PathOf(c)|
  {
    var ps := PathOf(c);
    PathIsWalk(c);
    ChainSteps(c.start, ps);
    var w := [c.start] + ps;
    WalkDistLeft(w, 0);
    L1DistSymmetric(c.start.0, c.start.1, w[|w| - 1].0, w[|w| - 1].1);
    if |ps| == 0 {
      L1DistZeroIff(c.start.0, c.start.1, c.start.0, c.start.1);
    }
  }
}

=== FILE: pipeline.dfy ===
/**
  The behaviour registration of src/main.rs, restricted to the behaviours
  this model covers: input behaviours, then logic behaviours, each list in
  the order `main` adds them, with the parent cascade added last.
*/
module Pipeline {
  import opened IdMaps
  import opened Game
  import opened Scheduler
  import Unit
  import Orders
  import Turn
  import Map
  import Parent
  import Cursor
  import GameUi

  /** The input behaviours, in registration order; unit files come from `load`. */
  function InputOrder(load: string -> Unit.UnitConfig): seq<Behavior> {
    [(objs, st) => GameUi.CraftInput(load, objs, st), Cursor.CursorInput, Unit.SelectableInput, Orders.PathableInput]
  }

  /** Every logic behaviour except the last, in registration order. */
  function LogicBeforeCascade(): seq<Behavior> {
    [Unit.UnitLogic, Unit.SolidLogic, Orders.OrdersLogic, Unit.HealthDeathLogic,
     Turn.TurnLogic, Map.InventoryLogic, Map.VictoryLogic]
  }

  function LogicOrder(): seq<Behavior> {
    LogicBeforeCascade() + [Parent.ParentLogic]
  }

  /** `main`'s registration: each `add_*_behavior` call in turn, on a world with no objects yet. */
  function Register(st: GameState, load: string -> Unit.UnitConfig): (w: World)
    ensures Valid(w.objects, GetId) && Contents(w.objects) == map[]
    ensures w.state == st && w.drawBehaviors == []
    ensures w.inputBehaviors == InputOrder(load)
    ensures w.logicBehaviors == LogicOrder()
  {
    var w0 := NewWorld(st);
    var w1 := AddInputBehaviors(w0, InputOrder(load));
    var w := AddLogicBehaviors(w1, LogicOrder());
    assert w.inputBehaviors == [] + InputOrder(load) == InputOrder(load);
    assert w.logicBehaviors == [] + LogicOrder() == LogicOrder();
    w
  }

  /** The parent cascade is the last logic behaviour registered. */
  lemma CascadeRegisteredLast()
    ensures |LogicOrder()| == 8 && LogicOrder()[7] == Parent.ParentLogic
  {
  }

  lemma OrdersLogicKeepsIds()
    ensures KeepsIds(Orders.OrdersLogic)
  {
    forall objs: seq<Object>, st: GameState ensures SameIds(objs, Orders.OrdersLogic(objs, st).0) {
      Orders.OrdersLogicIds(objs, st);
    }
  }

  /**
    Every registered behaviour keeps each id in its slot, which is what
    `World::logic` and `World::input` need of them.
  */
  lemma RegisteredKeepIds(load: string -> Unit.UnitConfig)
    ensures forall i | 0 <= i < |LogicOrder()| :: KeepsIds(LogicOrder()[i])
    ensures forall i | 0 <= i < |InputOrder(load)| :: KeepsIds(InputOrder(load)[i])
  {
    OrdersLogicKeepsIds();
    var c: Behavior := (objs, st) => GameUi.CraftInput(load, objs, st);
    assert KeepsIds(c);
  }

  /**
    Because the cascade runs after every other logic behaviour, the removals
    of a tick are closed under parenthood: whatever an earlier behaviour
    queued, every object whose parent is queued is queued too, given acyclic
    parent links.
  */
  lemma CascadeLastClosesRemovals(objs: seq<Object>, st: GameState, rank: seq<nat>)
    requires var (o, _) := RunPipeline(LogicBeforeCascade(), objs, st); Parent.Topological(o, rank)
    ensures var (o, s) := RunPipeline(LogicOrder(), objs, st); Parent.Closed(o, s.idsToRemove)
  {
    var (o, s) := RunPipeline(LogicBeforeCascade(), objs, st);
    PipelineLast(LogicBeforeCascade(), Parent.ParentLogic, objs, st);
    Parent.ParentLogicClosed(o, s, rank);
  }

  /**
    And nothing more: the tick's removals are the least parent-closed set
    holding what the earlier behaviours queued.
  */
  lemma CascadeLastRemovesNoMore(objs: seq<Object>, st: GameState, keep: set<nat>)
    requires var (o, s) := RunPipeline(LogicBeforeCascade(), objs, st); s.idsToRemove <= keep && Parent.Closed(o, keep)
    ensures RunPipeline(LogicOrder(), objs, st).1.idsToRemove <= keep
  {
    var (o, s) := RunPipeline(LogicBeforeCascade(), objs, st);
    PipelineLast(LogicBeforeCascade(), Parent.ParentLogic, objs, st);
    Parent.ParentLogicLeast(o, s, keep);
  }
}

=== FILE: turn.dfy ===
/**
  `TurnLogic` of src/turn.rs: on the monsters' turn, while nothing is
  walking, order the first monster that sees one of our units toward the
  nearest such unit; when no monster can act on anyone, hand the turn back
  to the player, refill every unit's action points and pay out mana.
*/
module Turn {
  import opened Wrappers
  import opened Util
  import opened Game
  import Orders
  import Announce

  type Pos = (int, int)

  /** A monster that may still be ordered this turn. */
  predicate Ready(o: Object) {
    !o.isOurs && o.canAct && o.actionPoints > 0
  }

  /** One of our units that can act, and so can be hunted. */
  predicate Prey(o: Object) {
    o.isOurs && o.canAct
  }

  /** How far unit `u` stands from monster `e`, in steps. */
  function Gap(u: Object, e: Object): int {
    L1Dist(u.tileX, u.tileY, e.tileX, e.tileY)
  }

  predicate InSight(u: Object, e: Object) {
    Prey(u) && Gap(u, e) < e.sightRange
  }

  /** Whether unit `u` replaces the best tile so far: it is in sight and strictly nearer. */
  predicate Beats(u: Object, e: Object, best: Option<Pos>) {
    InSight(u, e) && (best.None? || Gap(u, e) < L1Dist(best.value.0, best.value.1, e.tileX, e.tileY))
  }

  /** The inner scan from slot `i` on, with the best tile so far. */
  function NearestFrom(objs: seq<Object>, e: Object, i: nat, best: Option<Pos>): (r: Option<Pos>)
    requires i <= |objs|
    decreases |objs| - i
  {
    if i == |objs| then best
    else
      NearestFrom(objs, e, i + 1, Scan(objs[i], e, best))
  }

  /** The best tile after looking at unit `u`. */
  function Scan(u: Object, e: Object, best: Option<Pos>): Option<Pos> {
    if Beats(u, e, best) then Some((u.tileX, u.tileY)) else best
  }

  /** The tile the monster heads for: the nearest of our units it sees. */
  function Nearest(objs: seq<Object>, e: Object): Option<Pos> {
    NearestFrom(objs, e, 0, None)
  }

  /** Among the first `n` slots, slot `t` is in sight of `e`, no unit in sight is nearer, and every unit in sight before `t` is farther. */
  predicate NearestAt(objs: seq<Object>, e: Object, t: nat, n: nat) {
    && t < n <= |objs| && InSight(objs[t], e)
    && (forall j | 0 <= j < n && InSight(objs[j], e) :: Gap(objs[t], e) <= Gap(objs[j], e))
    && (forall j | 0 <= j < t && InSight(objs[j], e) :: Gap(objs[t], e) < Gap(objs[j], e))
  }

  /** The running best of the scan is the first nearest unit among the slots scanned so far. */
  predicate BestSoFar(objs: seq<Object>, e: Object, i: nat, best: Option<Pos>)
    requires i <= |objs|
  {
    && (best.None? <==> forall j | 0 <= j < i :: !InSight(objs[j], e))
    && (best.Some? ==> exists t | 0 <= t < i :: NearestAt(objs, e, t, i) && best.value == (objs[t].tileX, objs[t].tileY))
  }

  /** A unit strictly nearer than every earlier one in sight is the first nearest so far. */
  lemma NewNearest(objs: seq<Object>, e: Object, i: nat)
    requires i < |objs| && InSight(objs[i], e)
    requires forall j | 0 <= j < i && InSight(objs[j], e) :: Gap(objs[i], e) < Gap(objs[j], e)
    ensures NearestAt(objs, e, i, i + 1)
  {
  }

  /** The first nearest so far stays so past a unit that is not strictly nearer. */
  lemma KeepNearest(objs: seq<Object>, e: Object, t: nat, i: nat)
    requires i < |objs| && NearestAt(objs, e, t, i)
    requires InSight(objs[i], e) ==> Gap(objs[t], e) <= Gap(objs[i], e)
    ensures NearestAt(objs, e, t, i + 1)
  {
  }

  /** One step of the scan keeps the running best the first nearest unit. */
  lemma ScanStep(objs: seq<Object>, e: Object, i: nat, best: Option<Pos>)
    requires i < |objs| && BestSoFar(objs, e, i, best)
    ensures BestSoFar(objs, e, i + 1, Scan(objs[i], e, best))
  {
    var u := objs[i];
    if best.Some? {
      var t :| 0 <= t < i && NearestAt(objs, e, t, i) && best.value == (objs[t].tileX, objs[t].tileY);
      if Beats(u, e, best) {
        NewNearest(objs, e, i);
      } else {
        KeepNearest(objs, e, t, i);
      }
    } else if Beats(u, e, best) {
      NewNearest(objs, e, i);
    }
  }

  lemma {:induction false} NearestFromSpec(objs: seq<Object>, e: Object, i: nat, best: Option<Pos>)
    requires i <= |objs| && BestSoFar(objs, e, i, best)
    ensures BestSoFar(objs, e, |objs|, NearestFrom(objs, e, i, best))
    decreases |objs| - i
  {
    if i < |objs| {
      ScanStep(objs, e, i, best);
      NearestFromSpec(objs, e, i + 1, Scan(objs[i], e, best));
    }
  }

  /**
    The monster's target is the tile of the nearest unit of ours it sees,
    the first such in object order on ties; there is none exactly when it
    sees none.
  */
  lemma NearestSpec(objs: seq<Object>, e: Object)
    ensures Nearest(objs, e).None? <==> forall j | 0 <= j < |objs| :: !InSight(objs[j], e)
    ensures Nearest(objs, e).Some? ==> exists t | 0 <= t < |objs| ::
      NearestAt(objs, e, t, |objs|) && Nearest(objs, e).value == (objs[t].tileX, objs[t].tileY)
  {
    NearestFromSpec(objs, e, 0, None);
  }

  /** A monster the outer scan stops at: ready, with one of our units in sight. */
  predicate Hunter(objs: seq<Object>, e: Object) {
    Ready(e) && Nearest(objs, e).Some?
  }

  /** The first slot holding a hunter. */
  function FirstHunter(objs: seq<Object>, i: nat): (r: Option<nat>)
    requires i <= |objs|
    ensures r.Some? ==> i <= r.value < |objs| && Hunter(objs, objs[r.value])
    ensures r.Some? ==> forall j | i <= j < r.value :: !Hunter(objs, objs[j])
    ensures r.None? <==> forall j | i <= j < |objs| :: !Hunter(objs, objs[j])
    decreases |objs| - i
  {
    if i == |objs| then None
    else if Hunter(objs, objs[i]) then Some(i)
    else FirstHunter(objs, i + 1)
  }

  /** `order_unit` on the monster, then the monster starts on its orders. */
  function Dispatch(objs: seq<Object>, id: nat, target: Pos, md: MapState): (r: seq<Object>)
    requires IsLive(objs, id)
    ensures |r| == |objs| && SameIds(objs, r)
  {
    var u := FindById(objs, id).value;
    var objs1 := Orders.OrderUnit(objs, id, target, md);
    StartOrders(objs, objs1, u);
    objs1[u := objs1[u].(executingOrders := true)]
  }

  /** The monster gets a valid plan and starts on it; no other slot changes. */
  lemma DispatchSpec(objs: seq<Object>, id: nat, target: Pos, md: MapState)
    requires IsLive(objs, id)
    ensures var r := Dispatch(objs, id, target, md);
      var u := FindById(objs, id).value;
      && r[u] == objs[u].(orders := r[u].orders, executingOrders := true)
      && Orders.ValidPlan(objs, objs[u], target, md, r[u].orders)
      && forall j | 0 <= j < |objs| && j != u :: r[j] == objs[j]
  {
    var objs1 := Orders.OrderUnit(objs, id, target, md);
    var u := FindById(objs, id).value;
    StartOrders(objs, objs1, u);
  }

  /** Setting one slot going, after only its orders changed, changes nothing else. */
  lemma StartOrders(objs: seq<Object>, objs1: seq<Object>, u: nat)
    requires |objs1| == |objs| && u < |objs| && objs1[u] == objs[u].(orders := objs1[u].orders)
    requires forall j | 0 <= j < |objs| && j != u :: objs1[j] == objs[j]
    ensures var r := objs1[u := objs1[u].(executingOrders := true)];
      && SameIds(objs, r)
      && r[u] == objs[u].(orders := r[u].orders, executingOrders := true)
      && r[u].orders == objs1[u].orders
      && forall j | 0 <= j < |objs| && j != u :: r[j] == objs[j]
  {
  }

  /** The monster in slot `e` goes after `target`; the map in slot `k` records that orders execute. */
  function Engage(objs: seq<Object>, k: nat, e: nat, target: Pos): (r: seq<Object>)
    requires k < |objs| && e < |objs|
    ensures SameIds(objs, r)
  {
    assert FindById(objs, objs[e].id).Some?;
    var md := objs[k].mapData;
    var md' := md.(executingOrders := true);
    assert WellFormed(md');
    var d := Dispatch(objs, objs[e].id, target, md);
    WithMapData(d, k, md')
  }

  /** What `Engage` does to each slot. */
  lemma EngageSpec(objs: seq<Object>, k: nat, e: nat, target: Pos)
    requires k < |objs| && e < |objs|
    ensures var r := Engage(objs, k, e, target);
      var u := FindById(objs, objs[e].id).value;
      && r[k].mapData == objs[k].mapData.(executingOrders := true)
      && r[u] == objs[u].(orders := r[u].orders, executingOrders := true, mapData := r[u].mapData)
      && Orders.ValidPlan(objs, objs[u], target, objs[k].mapData, r[u].orders)
      && forall j | 0 <= j < |objs| && j != u && j != k :: r[j] == objs[j]
  {
    assert FindById(objs, objs[e].id).Some?;
    var md := objs[k].mapData;
    var d := Dispatch(objs, objs[e].id, target, md);
    DispatchSpec(objs, objs[e].id, target, md);
    assert d[k].mapData == md;
  }

  /** `max_action_points` back into every unit that can act. */
  function Refill(objs: seq<Object>): (r: seq<Object>)
    ensures SameIds(objs, r)
    ensures forall i | 0 <= i < |objs| :: r[i] == RefillOne(objs[i])
  {
    seq(|objs|, i requires 0 <= i < |objs| => RefillOne(objs[i]))
  }

  function RefillOne(o: Object): (r: Object)
    ensures r.id == o.id && r.mapData == o.mapData && r.canAct == o.canAct
    ensures r.actionPoints == (if o.canAct then o.maxActionPoints else o.actionPoints)
  {
    if o.canAct then o.(actionPoints := o.maxActionPoints) else o
  }

  /** The banner for the start of turn `n`. */
  function TurnText(n: int): string {
    "Turn " + IntToString(n) + " begins!"
  }

  /** The player's turn begins: one more turn, two mana plus one per held circle, and the banner. */
  function HandBack(md: MapState): (r: MapState)
    ensures r == md.(ourTurn := true, turn := r.turn, mana := r.mana)
    ensures r.turn == md.turn + 1 && r.mana - md.mana == 2 + md.numCirclesHeld
  {
    md.(ourTurn := true, turn := md.turn + 1, mana := md.mana + 2 + md.numCirclesHeld)
  }

  /** `TurnLogic`. */
  function TurnLogic(objs: seq<Object>, st: GameState): (r: (seq<Object>, GameState))
    ensures SameIds(objs, r.0)
    ensures Waits(objs, st) ==> r == (objs, st)
  {
    match CurrentMap(objs, st)
    case None => (objs, st)
    case Some(k) =>
      var md := objs[k].mapData;
      if md.ourTurn || md.executingOrders then (objs, st)
      else match FirstHunter(objs, 0)
        case Some(e) => (Engage(objs, k, e, Nearest(objs, objs[e]).value), st)
        case None =>
          var md' := HandBack(md);
          (WithMapData(Refill(objs), k, md'), Announce.Announce(st.currentMapId, TurnText(md'.turn), st))
  }

  /** The monsters do nothing while it is the player's turn, while something walks, or with no map. */
  predicate Waits(objs: seq<Object>, st: GameState) {
    || CurrentMap(objs, st).None?
    || objs[CurrentMap(objs, st).value].mapData.ourTurn
    || objs[CurrentMap(objs, st).value].mapData.executingOrders
  }

  /**
    On the monsters' turn, the first ready monster that sees one of our
    units is ordered toward the nearest one it sees, and starts; the map
    records that orders execute; nothing else changes and nothing is queued.
  */
  lemma TurnLogicOrders(objs: seq<Object>, st: GameState, e: nat)
    requires !Waits(objs, st) && e < |objs| && Ready(objs[e]) && Nearest(objs, objs[e]).Some?
    requires forall j | 0 <= j < e :: !(Ready(objs[j]) && Nearest(objs, objs[j]).Some?)
    ensures var k := CurrentMap(objs, st).value;
      var r := TurnLogic(objs, st);
      var u := FindById(objs, objs[e].id).value;
      && r.1 == st
      && r.0[k].mapData == objs[k].mapData.(executingOrders := true)
      && r.0[u] == objs[u].(orders := r.0[u].orders, executingOrders := true, mapData := r.0[u].mapData)
      && Orders.ValidPlan(objs, objs[u], Nearest(objs, objs[e]).value, objs[k].mapData, r.0[u].orders)
      && forall j | 0 <= j < |objs| && j != u && j != k :: r.0[j] == objs[j]
  {
    var k := CurrentMap(objs, st).value;
    var target := Nearest(objs, objs[e]).value;
    FirstHunterIs(objs, e);
    TurnLogicEngages(objs, st, k, e);
    EngageSpec(objs, k, e, target);
  }

  lemma FirstHunterIs(objs: seq<Object>, e: nat)
    requires e < |objs| && Ready(objs[e]) && Nearest(objs, objs[e]).Some?
    requires forall j | 0 <= j < e :: !(Ready(objs[j]) && Nearest(objs, objs[j]).Some?)
    ensures FirstHunter(objs, 0) == Some(e)
  {
  }

  lemma TurnLogicEngages(objs: seq<Object>, st: GameState, k: nat, e: nat)
    requires CurrentMap(objs, st) == Some(k) && !Waits(objs, st) && FirstHunter(objs, 0) == Some(e)
    ensures TurnLogic(objs, st) == (Engage(objs, k, e, Nearest(objs, objs[e]).value), st)
  {
  }

  /**
    When no ready monster sees any of our units, the turn passes to the
    player: the turn count goes up by one, mana grows by two plus the held
    circles, every unit that can act gets its full action points back, and
    the "Turn n begins!" banner is queued.
  */
  lemma TurnLogicHandsBack(objs: seq<Object>, st: GameState)
    requires !Waits(objs, st)
    requires forall j | 0 <= j < |objs| :: !Ready(objs[j]) || forall t | 0 <= t < |objs| :: !InSight(objs[t], objs[j])
    ensures var k := CurrentMap(objs, st).value;
      var md := objs[k].mapData;
      var r := TurnLogic(objs, st);
      && r.0[k].mapData == md.(ourTurn := true, turn := md.turn + 1, mana := md.mana + 2 + md.numCirclesHeld)
      && (forall i | 0 <= i < |objs| :: r.0[i].actionPoints == (if objs[i].canAct then objs[i].maxActionPoints else objs[i].actionPoints))
      && |r.1.newObjects| == |st.newObjects| + 1
      && r.1.newObjects[|st.newObjects|].announcement == TurnText(md.turn + 1)
  {
    var k := CurrentMap(objs, st).value;
    forall j | 0 <= j < |objs| ensures !Hunter(objs, objs[j]) {
      NearestSpec(objs, objs[j]);
    }
    TurnLogicHandsBackAt(objs, st, k);
    HandBackSlots(objs, k, HandBack(objs[k].mapData));
  }

  lemma TurnLogicHandsBackAt(objs: seq<Object>, st: GameState, k: nat)
    requires CurrentMap(objs, st) == Some(k) && !Waits(objs, st) && FirstHunter(objs, 0).None?
    ensures var md' := HandBack(objs[k].mapData);
      TurnLogic(objs, st) == (WithMapData(Refill(objs), k, md'), Announce.Announce(st.currentMapId, TurnText(md'.turn), st))
  {
  }

  /** The refilled objects with the handed-back map data in slot `k`. */
  lemma HandBackSlots(objs: seq<Object>, k: nat, md: MapState)
    requires k < |objs|
    ensures var r := WithMapData(Refill(objs), k, md);
      && r[k].mapData == md
      && forall i | 0 <= i < |objs| :: r[i].actionPoints == (if objs[i].canAct then objs[i].maxActionPoints else objs[i].actionPoints)
  {
    var ref := Refill(objs);
    var r := WithMapData(ref, k, md);
    forall i | 0 <= i < |objs|
      ensures r[i].actionPoints == (if objs[i].canAct then objs[i].maxActionPoints else objs[i].actionPoints)
    {
      assert r[i].actionPoints == ref[i].actionPoints;
    }
  }

  /** Mana never falls on the monsters' turn: handing back adds to it, ordering leaves it. */
  lemma TurnLogicKeepsMana(objs: seq<Object>, st: GameState)
    requires CurrentMap(objs, st).Some?
    requires objs[CurrentMap(objs, st).value].mapData.numCirclesHeld >= 0
    ensures var k := CurrentMap(objs, st).value;
      TurnLogic(objs, st).0[k].mapData.mana >= objs[k].mapData.mana
  {
    var k := CurrentMap(objs, st).value;
    if !Waits(objs, st) {
      match FirstHunter(objs, 0)
      case Some(e) =>
        TurnLogicEngages(objs, st, k, e);
        EngageSpec(objs, k, e, Nearest(objs, objs[e]).value);
      case None =>
        TurnLogicHandsBackAt(objs, st, k);
        HandBackSlots(objs, k, HandBack(objs[k].mapData));
    }
  }
}

=== FILE: unit.dfy ===
/**
  Units and magic circles (src/unit.rs): their factories, tile snapping, the
  collision-map recompute, death on zero health, and click selection.
*/
module Unit {
  import opened Wrappers
  import opened Util
  import opened Game
  import opened Grid
  import Effect

  /**
    A unit file's settings.  Reading and parsing the file is not modelled: the
    values arrive as inputs, `DefaultUnitConfig` holding those of an empty file.
  */
  datatype UnitConfig = UnitConfig(
    sprite: string,
    actionPoints: int,
    health: int,
    sightRange: int,
    damage: int,
    fire: int,
    name: string)

  function DefaultUnitConfig(): (c: UnitConfig)
    ensures c.actionPoints == 25 && c.health == 4 && c.sightRange == 4
    ensures c.damage == 1 && c.fire == 0 && c.name == "unit"
  {
    UnitConfig("", 25, 4, 4, 1, 0, "unit")
  }

  /** `create_unit`: a selectable, solid, acting unit at full health and full action points. */
  function CreateUnit(parent: nat, cfg: UnitConfig, ours: bool, st: GameState): (r: (Object, GameState))
    ensures Minted(r.0, st, r.1)
    ensures var o := r.0;
      && o.parent == parent && o.isOurs == ours
      && o.hasName && o.name == cfg.name
      && o.hasPos && o.hasVel && o.hasSprite && o.isSelectable && o.isSolid && o.canAct && o.hasHealth
      && o.health == cfg.health && o.maxHealth == cfg.health
      && o.actionPoints == cfg.actionPoints && o.maxActionPoints == cfg.actionPoints
      && (o.fire <==> cfg.fire != 0)
      && o.sightRange == cfg.sightRange && o.damage == cfg.damage
      && !o.isMagicCircle && !o.isMap && !o.isEffect && !o.selected && o.orders == [] && !o.executingOrders
  {
    var (id, st1) := NewId(st);
    (NewObject(id).(hasName := true, name := cfg.name, parent := parent, hasPos := true,
                    hasVel := true, hasSprite := true, isSelectable := true, isSolid := true,
                    canAct := true, hasHealth := true, health := cfg.health,
                    maxHealth := cfg.health, isOurs := ours, fire := cfg.fire != 0,
                    maxActionPoints := cfg.actionPoints, actionPoints := cfg.actionPoints,
                    sightRange := cfg.sightRange, damage := cfg.damage), st1)
  }

  /** `create_magic_circle`: a named, selectable marker carrying a word; it neither acts, blocks nor dies. */
  function CreateMagicCircle(parent: nat, word: string, st: GameState): (r: (Object, GameState))
    ensures Minted(r.0, st, r.1)
    ensures var o := r.0;
      && o.isMagicCircle && o.word == word && o.parent == parent
      && o.hasName && o.name == "Magic crcl"
      && o.hasPos && o.hasSprite && o.isSelectable
      && !o.canAct && !o.hasHealth && !o.isSolid && !o.isOurs
  {
    var (id, st1) := NewId(st);
    (NewObject(id).(hasName := true, name := "Magic crcl", word := word, parent := parent,
                    hasPos := true, hasSprite := true, isSelectable := true,
                    isMagicCircle := true), st1)
  }

  /** The tile of a positioned object: each pixel coordinate cast to `i32` and snapped. */
  function Snap(o: Object): (r: Object)
    ensures r == o.(tileX := r.tileX, tileY := r.tileY)
    ensures Trunc(o.x) >= -16 ==> 32 * r.tileX - 16 <= Trunc(o.x) < 32 * r.tileX + 16
    ensures Trunc(o.y) >= -16 ==> 32 * r.tileY - 16 <= Trunc(o.y) < 32 * r.tileY + 16
  {
    SnapToTileNearest(Trunc(o.x));
    SnapToTileNearest(Trunc(o.y));
    o.(tileX := SnapToTile(Trunc(o.x)), tileY := SnapToTile(Trunc(o.y)))
  }

  /** `UnitLogic`: every positioned object's tile is recomputed from its pixel position; nothing else changes. */
  function UnitLogic(objs: seq<Object>, st: GameState): (r: (seq<Object>, GameState))
    ensures SameIds(objs, r.0) && r.1 == st
    ensures forall i | 0 <= i < |objs| && objs[i].hasPos :: r.0[i] == Snap(objs[i])
    ensures forall i | 0 <= i < |objs| && !objs[i].hasPos :: r.0[i] == objs[i]
  {
    (seq(|objs|, i requires 0 <= i < |objs| => if objs[i].hasPos then Snap(objs[i]) else objs[i]), st)
  }

  /** An object standing exactly on a tile's centre pixel is snapped to that tile. */
  lemma UnitLogicOnTileCentre(objs: seq<Object>, st: GameState, i: nat, kx: nat, ky: nat)
    requires i < |objs| && objs[i].hasPos
    requires objs[i].x == (32 * kx) as real && objs[i].y == (32 * ky) as real
    ensures UnitLogic(objs, st).0[i].tileX == kx && UnitLogic(objs, st).0[i].tileY == ky
  {
    SnapTileCentre(kx);
    SnapTileCentre(ky);
  }

  /** `SolidLogic::check_object`. */
  predicate Blocks(o: Object) {
    o.hasPos && o.isSolid
  }

  /** Some blocking object's clamped tile is cell `j`. */
  predicate Occupied(objs: seq<Object>, w: int, h: int, j: nat) {
    exists i | 0 <= i < |objs| :: Blocks(objs[i]) && XyToIndex(objs[i].tileX, objs[i].tileY, w, h) == j
  }

  /**
    The marking loop of `SolidLogic`, object by object.  On a map without
    cells the source's index would be out of range; the model skips the
    write, so the collision map stays empty.
  */
  function MarkSolids(objs: seq<Object>, md: MapState): (r: MapState)
    ensures r == md.(collisionMap := r.collisionMap)
    ensures |r.collisionMap| == |md.collisionMap|
    ensures forall j | 0 <= j < |md.collisionMap| ::
      r.collisionMap[j] <==> md.collisionMap[j] || Occupied(objs, md.width, md.height, j)
    decreases |objs|
  {
    if |objs| == 0 then md
    else
      var rest := MarkSolids(objs[1..], md);
      var o := objs[0];
      var idx := XyToIndex(o.tileX, o.tileY, md.width, md.height);
      var r := if Blocks(o) && idx < |rest.collisionMap| then rest.(collisionMap := rest.collisionMap[idx := true]) else rest;
      forall j | 0 <= j < |md.collisionMap|
        ensures Occupied(objs, md.width, md.height, j) <==> (Blocks(o) && idx == j) || Occupied(objs[1..], md.width, md.height, j)
      {
        OccupiedFirst(objs, md.width, md.height, j);
      }
      r
  }

  /** A cell is occupied when the first object blocks it or one of the others does. */
  lemma OccupiedFirst(objs: seq<Object>, w: int, h: int, j: nat)
    requires |objs| > 0
    ensures Occupied(objs, w, h, j) <==>
      (Blocks(objs[0]) && XyToIndex(objs[0].tileX, objs[0].tileY, w, h) == j) || Occupied(objs[1..], w, h, j)
  {
    if Occupied(objs, w, h, j) {
      var i :| 0 <= i < |objs| && Blocks(objs[i]) && XyToIndex(objs[i].tileX, objs[i].tileY, w, h) == j;
      if i > 0 {
        assert objs[1..][i - 1] == objs[i];
      }
    }
    if Occupied(objs[1..], w, h, j) {
      var i :| 0 <= i < |objs[1..]| && Blocks(objs[1..][i]) && XyToIndex(objs[1..][i].tileX, objs[1..][i].tileY, w, h) == j;
      assert objs[i + 1] == objs[1..][i];
    }
  }

  /** The collision map cleared and then marked with exactly the occupied cells. */
  function Recompute(objs: seq<Object>, md: MapState): (r: MapState)
    ensures r == md.(collisionMap := r.collisionMap)
    ensures |r.collisionMap| == |md.collisionMap|
    ensures forall j | 0 <= j < |md.collisionMap| :: r.collisionMap[j] <==> Occupied(objs, md.width, md.height, j)
  {
    var cleared: MapState := md.(collisionMap := seq(|md.collisionMap|, _ => false));
    assert forall j | 0 <= j < |md.collisionMap| :: !cleared.collisionMap[j];
    MarkSolids(objs, cleared)
  }

  /**
    `SolidLogic`: on the current map, the collision map is cleared and then
    exactly the clamped tiles of positioned solid objects are marked; its
    length, the rest of the map data and every other object are unchanged.
    Without a live current map nothing happens.
  */
  function SolidLogic(objs: seq<Object>, st: GameState): (r: (seq<Object>, GameState))
    ensures SameIds(objs, r.0) && r.1 == st
    ensures CurrentMap(objs, st).None? ==> r.0 == objs
    ensures CurrentMap(objs, st).Some? ==>
      var k := CurrentMap(objs, st).value;
      var md := objs[k].mapData;
      var md' := r.0[k].mapData;
      && (forall i | 0 <= i < |objs| && i != k :: r.0[i] == objs[i])
      && r.0[k] == objs[k].(mapData := md')
      && md' == md.(collisionMap := md'.collisionMap)
      && |md'.collisionMap| == |md.collisionMap|
      && (forall j | 0 <= j < |md.collisionMap| :: md'.collisionMap[j] <==> Occupied(objs, md.width, md.height, j))
  {
    match CurrentMap(objs, st)
    case None => (objs, st)
    case Some(k) =>
      (WithMapData(objs, k, Recompute(objs, objs[k].mapData)), st)
  }

  /** On a grid of positive size, every blocking object's own tile is marked. */
  lemma SolidLogicMarksEveryBlocker(objs: seq<Object>, st: GameState, i: nat)
    requires CurrentMap(objs, st).Some?
    requires var md := objs[CurrentMap(objs, st).value].mapData; md.width >= 1 && md.height >= 1
    requires i < |objs| && Blocks(objs[i])
    ensures var k := CurrentMap(objs, st).value;
      var md := objs[k].mapData;
      var j := XyToIndex(objs[i].tileX, objs[i].tileY, md.width, md.height);
      j < |md.collisionMap| && SolidLogic(objs, st).0[k].mapData.collisionMap[j]
  {
    var k := CurrentMap(objs, st).value;
    var md := objs[k].mapData;
    var j := XyToIndex(objs[i].tileX, objs[i].tileY, md.width, md.height);
    assert Occupied(objs, md.width, md.height, j);
  }

  /** `HealthDeathLogic::check_object` together with its `health <= 0` test. */
  predicate Dying(o: Object) {
    o.hasHealth && o.health <= 0
  }

  /** The objects that die this tick, in slot order. */
  function DyingOnes(objs: seq<Object>): (r: seq<Object>)
    ensures |r| <= |objs|
    ensures forall o | o in r :: o in objs && Dying(o)
    ensures forall i | 0 <= i < |objs| && Dying(objs[i]) :: objs[i] in r
  {
    if |objs| == 0 then []
    else (if Dying(objs[0]) then [objs[0]] else []) + DyingOnes(objs[1..])
  }

  /** The death effects `HealthDeathLogic` queues for `dead`, on ids minted from `next` on. */
  predicate DeathEffects(effects: seq<Object>, dead: seq<Object>, next: nat, mapId: nat, time: real) {
    && |effects| == |dead|
    && forall k | 0 <= k < |dead| ::
      && effects[k].id == next + k && effects[k].isEffect && effects[k].parent == mapId
      && effects[k].x == dead[k].x && effects[k].y == dead[k].y && effects[k].effectDeathTime == time + 1.0
  }

  /** One dying object: its id is queued for removal and a death effect is created at its position. */
  function DeathStep(o: Object, st: GameState): (r: GameState)
    ensures r == st.(idMint := r.idMint, newObjects := r.newObjects, idsToRemove := r.idsToRemove)
    ensures r.idsToRemove == st.idsToRemove + {o.id}
    ensures r.idMint.nextId == st.idMint.nextId + 1
    ensures |r.newObjects| == |st.newObjects| + 1
    ensures r.newObjects == st.newObjects + [r.newObjects[|st.newObjects|]]
    ensures var e := r.newObjects[|st.newObjects|];
      && e.id == st.idMint.nextId && e.isEffect && e.parent == st.currentMapId
      && e.x == o.x && e.y == o.y && e.effectDeathTime == st.time + 1.0
  {
    var st1 := RemoveObject(st, o.id);
    var (death, st2) := Effect.CreateEffect(st1.currentMapId, o.x, o.y, st1);
    AddObject(st2, death)
  }

  /** `HealthDeathLogic`'s loop from slot `i` on. */
  function HealthDeathFrom(objs: seq<Object>, i: nat, st: GameState): (r: GameState)
    requires i <= |objs|
    ensures r == st.(idMint := r.idMint, newObjects := r.newObjects, idsToRemove := r.idsToRemove)
    decreases |objs| - i
  {
    if i == |objs| then st
    else if Dying(objs[i]) then HealthDeathFrom(objs, i + 1, DeathStep(objs[i], st))
    else HealthDeathFrom(objs, i + 1, st)
  }

  lemma DyingOnesStep(objs: seq<Object>, i: nat)
    requires i < |objs|
    ensures DyingOnes(objs[i..]) == (if Dying(objs[i]) then [objs[i]] else []) + DyingOnes(objs[i + 1..])
  {
    assert objs[i..][1..] == objs[i + 1..];
  }

  /** The loop queues the ids of exactly the dying objects. */
  lemma {:induction false} HealthDeathRemovals(objs: seq<Object>, i: nat, st: GameState)
    requires i <= |objs|
    ensures HealthDeathFrom(objs, i, st).idsToRemove == st.idsToRemove + (set o | o in DyingOnes(objs[i..]) :: o.id)
    decreases |objs| - i
  {
    if i < |objs| {
      DyingOnesStep(objs, i);
      if Dying(objs[i]) {
        HealthDeathRemovals(objs, i + 1, DeathStep(objs[i], st));
      } else {
        HealthDeathRemovals(objs, i + 1, st);
      }
    }
  }

  lemma DeathEffectsCons(death: Object, effects: seq<Object>, o: Object, dead: seq<Object>, next: nat, mapId: nat, time: real)
    requires death.id == next && death.isEffect && death.parent == mapId
    requires death.x == o.x && death.y == o.y && death.effectDeathTime == time + 1.0
    requires DeathEffects(effects, dead, next + 1, mapId, time)
    ensures DeathEffects([death] + effects, [o] + dead, next, mapId, time)
  {
    var e, d := [death] + effects, [o] + dead;
    forall k | 0 <= k < |d|
      ensures e[k].id == next + k && e[k].isEffect && e[k].parent == mapId
      ensures e[k].x == d[k].x && e[k].y == d[k].y && e[k].effectDeathTime == time + 1.0
    {
      if k > 0 {
        assert e[k] == effects[k - 1] && d[k] == dead[k - 1];
      }
    }
  }

  /** Appending to a sequence keeps its prefix and puts `x` at the seam. */
  lemma AppendSplit(pre: seq<Object>, x: Object, r: seq<Object>)
    requires |r| >= |pre| + 1 && r[..|pre| + 1] == pre + [x]
    ensures r[..|pre|] == pre && r[|pre|..] == [x] + r[|pre| + 1..]
  {
    assert r[..|pre|] == r[..|pre| + 1][..|pre|];
    assert r[|pre|] == (pre + [x])[|pre|];
  }

  /** The loop appends one death effect per dying object, in slot order, on consecutive fresh ids. */
  lemma {:induction false} HealthDeathEffects(objs: seq<Object>, i: nat, st: GameState)
    requires i <= |objs|
    ensures var r := HealthDeathFrom(objs, i, st);
      && |r.newObjects| >= |st.newObjects| && r.newObjects[..|st.newObjects|] == st.newObjects
      && r.idMint.nextId == st.idMint.nextId + |DyingOnes(objs[i..])|
      && DeathEffects(r.newObjects[|st.newObjects|..], DyingOnes(objs[i..]), st.idMint.nextId, st.currentMapId, st.time)
    decreases |objs| - i
  {
    if i < |objs| {
      DyingOnesStep(objs, i);
      if Dying(objs[i]) {
        var st3 := DeathStep(objs[i], st);
        var death := st3.newObjects[|st.newObjects|];
        HealthDeathEffects(objs, i + 1, st3);
        var r := HealthDeathFrom(objs, i + 1, st3);
        AppendSplit(st.newObjects, death, r.newObjects);
        DeathEffectsCons(death, r.newObjects[|st3.newObjects|..], objs[i], DyingOnes(objs[i + 1..]),
                         st.idMint.nextId, st.currentMapId, st.time);
      } else {
        HealthDeathEffects(objs, i + 1, st);
      }
    } else {
      assert objs[i..] == [];
    }
  }

  /**
    `HealthDeathLogic`: every object with health and health at most zero is
    queued for removal and gets a death effect on the current map at its
    position; the objects themselves are not changed.
  */
  function HealthDeathLogic(objs: seq<Object>, st: GameState): (r: (seq<Object>, GameState))
    ensures r.0 == objs
    ensures r.1 == st.(idMint := r.1.idMint, newObjects := r.1.newObjects, idsToRemove := r.1.idsToRemove)
    ensures r.1.idsToRemove == st.idsToRemove + (set o | o in DyingOnes(objs) :: o.id)
    ensures |r.1.newObjects| >= |st.newObjects| && r.1.newObjects[..|st.newObjects|] == st.newObjects
    ensures r.1.idMint.nextId == st.idMint.nextId + |DyingOnes(objs)|
    ensures DeathEffects(r.1.newObjects[|st.newObjects|..], DyingOnes(objs), st.idMint.nextId, st.currentMapId, st.time)
  {
    assert objs[0..] == objs;
    HealthDeathRemovals(objs, 0, st);
    HealthDeathEffects(objs, 0, st);
    (objs, HealthDeathFrom(objs, 0, st))
  }

  /** Exactly the dying objects are queued for removal: a living or health-less object never is (unless it already was). */
  lemma HealthDeathQueuesExactlyTheDying(objs: seq<Object>, st: GameState, i: nat)
    requires i < |objs|
    ensures objs[i].id in HealthDeathLogic(objs, st).1.idsToRemove <==>
      objs[i].id in st.idsToRemove || exists j | 0 <= j < |objs| :: Dying(objs[j]) && objs[j].id == objs[i].id
  {
    var r := HealthDeathLogic(objs, st).1;
    if objs[i].id in r.idsToRemove && objs[i].id !in st.idsToRemove {
      var o :| o in DyingOnes(objs) && o.id == objs[i].id;
      var j :| 0 <= j < |objs| && objs[j] == o;
    }
    if j :| 0 <= j < |objs| && Dying(objs[j]) && objs[j].id == objs[i].id {
      assert objs[j] in DyingOnes(objs);
    }
  }

  /** `SelectableInput::check_object`. */
  predicate Selectable(o: Object) {
    o.isSelectable && o.hasPos
  }

  /** An unselected selectable object on the cursor tile, which the first pass selects. */
  predicate Pickable(o: Object, cx: int, cy: int) {
    Selectable(o) && o.tileX == cx && o.tileY == cy && !o.selected
  }

  /** The slot of the last pickable object: the first pass remembers the last one it selects. */
  function LastPickable(objs: seq<Object>, cx: int, cy: int): (r: Option<nat>)
    ensures r.Some? ==> r.value < |objs| && Pickable(objs[r.value], cx, cy)
    ensures r.Some? ==> forall i | r.value < i < |objs| :: !Pickable(objs[i], cx, cy)
    ensures r.None? <==> forall i | 0 <= i < |objs| :: !Pickable(objs[i], cx, cy)
    decreases |objs|
  {
    if |objs| == 0 then None
    else if Pickable(objs[|objs| - 1], cx, cy) then Some(|objs| - 1)
    else LastPickable(objs[..|objs| - 1], cx, cy)
  }

  /** The object with its selection flag set to `b` and every other field kept. */
  function Reselect(o: Object, b: bool): (r: Object)
    ensures r.selected == b && r.id == o.id && Selectable(r) == Selectable(o)
    ensures b == o.selected ==> r == o
  {
    o.(selected := b)
  }

  lemma ReselectTwice(o: Object, a: bool, b: bool)
    ensures Reselect(Reselect(o, a), b) == Reselect(o, b)
  {
  }

  /** The first pass: every pickable object becomes selected. */
  function PickPass(objs: seq<Object>, cx: int, cy: int): (r: seq<Object>)
    ensures |r| == |objs|
    ensures forall i | 0 <= i < |objs| :: r[i] == Reselect(objs[i], objs[i].selected || Pickable(objs[i], cx, cy))
  {
    seq(|objs|, i requires 0 <= i < |objs| => Reselect(objs[i], objs[i].selected || Pickable(objs[i], cx, cy)))
  }

  /** The second pass: every selectable object but those carrying `chosen` is deselected. */
  function DeselectOthers(objs: seq<Object>, chosen: nat): (r: seq<Object>)
    ensures |r| == |objs|
    ensures forall i | 0 <= i < |objs| ::
      r[i] == Reselect(objs[i], objs[i].selected && !(Selectable(objs[i]) && objs[i].id != chosen))
  {
    seq(|objs|, i requires 0 <= i < |objs| =>
      Reselect(objs[i], objs[i].selected && !(Selectable(objs[i]) && objs[i].id != chosen)))
  }

  /**
    Both passes of a click that picked slot `j` last: it stays selected, every
    other selectable object (by id) is deselected, and the objects that are not
    selectable are untouched.
  */
  function Picked(objs: seq<Object>, cx: int, cy: int, j: nat): (r: seq<Object>)
    requires LastPickable(objs, cx, cy) == Some(j)
    ensures |r| == |objs|
    ensures forall i | 0 <= i < |objs| :: r[i] == Reselect(objs[i], r[i].selected)
    ensures r[j].selected
    ensures forall i | 0 <= i < |objs| && Selectable(objs[i]) && objs[i].id != objs[j].id :: !r[i].selected
    ensures forall i | 0 <= i < |objs| && !Selectable(objs[i]) :: r[i] == objs[i]
  {
    var picked := PickPass(objs, cx, cy);
    var r := DeselectOthers(picked, objs[j].id);
    forall i | 0 <= i < |objs|
      ensures r[i] == Reselect(objs[i], r[i].selected)
      ensures !Selectable(objs[i]) ==> r[i] == objs[i]
      ensures Selectable(objs[i]) && objs[i].id != objs[j].id ==> !r[i].selected
    {
      PickedSlot(objs[i], picked[i], r[i], cx, cy, objs[j].id);
    }
    PickedSlot(objs[j], picked[j], r[j], cx, cy, objs[j].id);
    r
  }

  /** One slot through both passes, with `chosen` the id of the last object picked. */
  lemma PickedSlot(o: Object, p: Object, q: Object, cx: int, cy: int, chosen: nat)
    requires p == Reselect(o, o.selected || Pickable(o, cx, cy))
    requires q == Reselect(p, p.selected && !(Selectable(p) && p.id != chosen))
    ensures q == Reselect(o, q.selected)
    ensures !Selectable(o) ==> q == o
    ensures Selectable(o) && o.id != chosen ==> !q.selected
    ensures Pickable(o, cx, cy) && o.id == chosen ==> q.selected
  {
    ReselectTwice(o, p.selected, q.selected);
  }

  /**
    `SelectableInput`.  On a left click (button 1) every unselected selectable
    object on the cursor tile is selected; if any was, every other selectable
    object (by id) is deselected, so the last one picked wins.  Otherwise, and
    on any other button, nothing changes.
  */
  function SelectableInput(objs: seq<Object>, st: GameState): (r: (seq<Object>, GameState))
    ensures SameIds(objs, r.0) && r.1 == st
    ensures forall i | 0 <= i < |objs| :: r.0[i] == Reselect(objs[i], r.0[i].selected)
    ensures st.mouseButtonDown.UnwrapOr(0) != 1 || LastPickable(objs, st.cursorX, st.cursorY).None? ==> r.0 == objs
  {
    if st.mouseButtonDown.UnwrapOr(0) != 1 then (objs, st)
    else
      match LastPickable(objs, st.cursorX, st.cursorY)
      case None => (objs, st)
      case Some(j) => (Picked(objs, st.cursorX, st.cursorY, j), st)
  }

  /**
    After a left click that picked something, the last object picked is
    selected, every other selectable object (by id) is deselected, and the
    objects that are not selectable are untouched.
  */
  lemma SelectableInputPicks(objs: seq<Object>, st: GameState)
    requires st.mouseButtonDown.UnwrapOr(0) == 1 && LastPickable(objs, st.cursorX, st.cursorY).Some?
    ensures var r := SelectableInput(objs, st).0;
      var j := LastPickable(objs, st.cursorX, st.cursorY).value;
      && r[j].selected
      && (forall i | 0 <= i < |objs| && Selectable(objs[i]) && objs[i].id != objs[j].id :: !r[i].selected)
      && (forall i | 0 <= i < |objs| && !Selectable(objs[i]) :: r[i] == objs[i])
  {
    var j := LastPickable(objs, st.cursorX, st.cursorY).value;
    assert SelectableInput(objs, st).0 == Picked(objs, st.cursorX, st.cursorY, j);
  }

  /** With distinct ids, a successful click leaves exactly one selectable object selected: the last one picked. */
  lemma SelectionIsUnique(objs: seq<Object>, st: GameState, i: nat)
    requires forall a, b | 0 <= a < b < |objs| :: objs[a].id != objs[b].id
    requires st.mouseButtonDown == Some(1) && LastPickable(objs, st.cursorX, st.cursorY).Some?
    requires i < |objs| && Selectable(objs[i])
    ensures SelectableInput(objs, st).0[i].selected <==> i == LastPickable(objs, st.cursorX, st.cursorY).value
  {
    SelectableInputPicks(objs, st);
  }
}

=== FILE: util.dfy ===
/** Integer helpers of src/util.rs, and the Rust integer semantics the rest of the model relies on. */
module Util {

  function Abs(x: int): (r: int)
    ensures r >= 0 && (r == x || r == -x)
  {
    if x < 0 then -x else x
  }

  function Min(a: int, b: int): (r: int)
    ensures r <= a && r <= b && (r == a || r == b)
  {
    if a <= b then a else b
  }

  function Max(a: int, b: int): (r: int)
    ensures r >= a && r >= b && (r == a || r == b)
  {
    if a >= b then a else b
  }

  /** `l1_dist`: the Manhattan distance between two tiles. */
  function L1Dist(x1: int, y1: int, x2: int, y2: int): (r: int)
    ensures r >= 0
    ensures r >= Abs(x2 - x1) && r >= Abs(y2 - y1)
  {
    Abs(x2 - x1) + Abs(y2 - y1)
  }

  lemma L1DistSymmetric(x1: int, y1: int, x2: int, y2: int)
    ensures L1Dist(x1, y1, x2, y2) == L1Dist(x2, y2, x1, y1)
  {
  }

  lemma L1DistZeroIff(x1: int, y1: int, x2: int, y2: int)
    ensures L1Dist(x1, y1, x2, y2) == 0 <==> x1 == x2 && y1 == y2
  {
  }

  lemma L1DistTriangle(x1: int, y1: int, x2: int, y2: int, x3: int, y3: int)
    ensures L1Dist(x1, y1, x3, y3) <= L1Dist(x1, y1, x2, y2) + L1Dist(x2, y2, x3, y3)
  {
  }

  /** Two tiles are 4-neighbours. */
  predicate Adjacent(a: (int, int), b: (int, int)) {
    L1Dist(a.0, a.1, b.0, b.1) == 1
  }

  /** One 4-neighbour step changes the heuristic by at most one (consistency of L1 as an A* heuristic). */
  lemma L1DistConsistent(x: int, y: int, nx: int, ny: int, gx: int, gy: int)
    requires Adjacent((x, y), (nx, ny))
    ensures L1Dist(x, y, gx, gy) <= 1 + L1Dist(nx, ny, gx, gy)
    ensures L1Dist(nx, ny, gx, gy) <= 1 + L1Dist(x, y, gx, gy)
  {
    L1DistTriangle(x, y, nx, ny, gx, gy);
    L1DistTriangle(nx, ny, x, y, gx, gy);
    L1DistSymmetric(x, y, nx, ny);
  }

  /** Rust's `/` on `i32`: the quotient truncated toward zero. */
  function TruncDiv(a: int, b: int): (q: int)
    requires b != 0
    ensures Abs(a - b * q) < Abs(b)
    ensures a >= 0 && b > 0 ==> q == a / b
    ensures a - b * q == 0 || (a - b * q < 0 <==> a < 0)
  {
    var q0 := Abs(a) / Abs(b);
    var q := if (a < 0) == (b < 0) then q0 else -q0;
    TruncDivRemainder(a, b, q0, q);
    q
  }

  /** The remainder of a truncating division is that of the magnitudes, with the dividend's sign. */
  lemma TruncDivRemainder(a: int, b: int, q0: int, q: int)
    requires b != 0 && q0 == Abs(a) / Abs(b)
    requires q == if (a < 0) == (b < 0) then q0 else -q0
    ensures 0 <= Abs(a) - Abs(b) * q0 < Abs(b)
    ensures a - b * q == if a < 0 then -(Abs(a) - Abs(b) * q0) else Abs(a) - Abs(b) * q0
  {
    assert b * q == Abs(b) * (if a < 0 then -q0 else q0);
  }

  /** Rust's `%` on `i32`: the remainder carries the sign of the dividend. */
  function TruncRem(a: int, b: int): (r: int)
    requires b != 0
    ensures r == a - b * TruncDiv(a, b)
    ensures Abs(r) < Abs(b)
    ensures a >= 0 && b > 0 ==> r == a % b
  {
    a - b * TruncDiv(a, b)
  }

  /** Rust's `f as i32` on a finite float: truncation toward zero (saturation at the i32 bounds is not modelled). */
  function Trunc(x: real): (r: int)
    ensures x >= 0.0 ==> r as real <= x < r as real + 1.0
    ensures x < 0.0 ==> r as real - 1.0 < x <= r as real
  {
    if x >= 0.0 then x.Floor else -((-x).Floor)
  }

  /** The values of Rust's `i32`. */
  predicate IsI32(v: int) {
    -0x8000_0000 <= v < 0x8000_0000
  }

  /** Two's-complement wrap-around of an `i32` computation: the value reduced into the `i32` range modulo 2^32. */
  function WrapI32(v: int): (r: int)
    ensures IsI32(r)
    ensures (r - v) % 0x1_0000_0000 == 0
    ensures IsI32(v) ==> r == v
  {
    (v + 0x8000_0000) % 0x1_0000_0000 - 0x8000_0000
  }

  const USIZE_MODULUS: int := 0x1_0000_0000_0000_0000

  /** Rust's `v as usize` for an `i32` value: negative values sign-extend and wrap around 2^64. */
  function AsUsize(v: int): (r: nat)
    requires IsI32(v)
    ensures v >= 0 ==> r == v
    ensures v < 0 ==> r >= USIZE_MODULUS - 0x8000_0000
  {
    if v >= 0 then v else v + USIZE_MODULUS
  }

  /** What `char::to_digit(10)` accepts: the ASCII digits. */
  predicate IsDigitChar(c: char) {
    '0' <= c <= '9'
  }

  function DigitValue(c: char): (d: nat)
    requires IsDigitChar(c)
    ensures d < 10
  {
    c as int - '0' as int
  }

  /** The digit character for `d`. */
  function DigitChar(d: int): (ch: char)
    requires 0 <= d < 10
    ensures IsDigitChar(ch) && DigitValue(ch) == d
  {
    "0123456789"[d]
  }

  /** The number a string of decimal digits denotes, most significant digit first. */
  function DigitsValue(s: string): nat
    requires forall i | 0 <= i < |s| :: IsDigitChar(s[i])
  {
    if |s| == 0 then 0 else 10 * DigitsValue(s[..|s| - 1]) + DigitValue(s[|s| - 1])
  }

  /** `format!("{}", n)` for an integer: decimal digits, with a leading '-' when negative. */
  function IntToString(n: int): (s: string)
    ensures |s| >= 1
    ensures n < 0 <==> s[0] == '-'
    ensures var digits := if n < 0 then s[1..] else s;
      && |digits| >= 1
      && (forall i | 0 <= i < |digits| :: IsDigitChar(digits[i]))
      && DigitsValue(digits) == Abs(n)
      && (digits[0] == '0' ==> n == 0 && |digits| == 1)
  {
    if n < 0 then
      var s := "-" + NatToString(-n);
      assert s[1..] == NatToString(-n);
      s
    else NatToString(n)
  }

  /** Decimal digits of `n`: they denote `n`, and only zero itself starts with '0'. */
  function NatToString(n: nat): (s: string)
    ensures |s| >= 1 && s[0] != '-'
    ensures forall i | 0 <= i < |s| :: IsDigitChar(s[i])
    ensures DigitsValue(s) == n
    ensures s[0] == '0' ==> n == 0 && |s| == 1
  {
    if n < 10 then [DigitChar(n)]
    else
      var pre := NatToString(n / 10);
      var s := pre + [DigitChar(n % 10)];
      assert s[..|s| - 1] == pre;
      s
  }
}

=== FILE: words.dfy ===
/**
  The string toolkit the game leans on from Rust's standard library:
  `char::is_whitespace`, `str::split_whitespace`, `str::lines`, the ordering
  of `String` and `Vec::sort` on strings.
*/
module Words {

  /** `char::is_whitespace`: the Unicode White_Space property. */
  predicate IsWhitespace(c: char) {
    || ('\t' <= c <= '\r') || c == ' ' || c == '\U{0085}' || c == '\U{00A0}' || c == '\U{1680}'
    || ('\U{2000}' <= c <= '\U{200A}') || c == '\U{2028}' || c == '\U{2029}' || c == '\U{202F}'
    || c == '\U{205F}' || c == '\U{3000}'
  }

  /** A non-empty run of non-whitespace characters. */
  predicate IsWord(w: string) {
    |w| > 0 && forall i | 0 <= i < |w| :: !IsWhitespace(w[i])
  }

  /** The length of the leading run of non-whitespace characters. */
  function WordLen(s: string): (n: nat)
    ensures n <= |s|
    ensures forall i | 0 <= i < n :: !IsWhitespace(s[i])
    ensures n < |s| ==> IsWhitespace(s[n])
  {
    if |s| == 0 || IsWhitespace(s[0]) then 0 else 1 + WordLen(s[1..])
  }

  /** `str::split_whitespace`: the maximal runs of non-whitespace, in order. */
  function SplitWhitespace(s: string): (r: seq<string>)
    ensures forall k | 0 <= k < |r| :: IsWord(r[k])
    decreases |s|
  {
    if |s| == 0 then []
    else if IsWhitespace(s[0]) then SplitWhitespace(s[1..])
    else
      var n := WordLen(s);
      [s[..n]] + SplitWhitespace(s[n..])
  }

  /** `ws` joined with `sep` between consecutive elements. */
  function Join(ws: seq<string>, sep: string): (r: string)
    decreases |ws|
  {
    if |ws| == 0 then ""
    else if |ws| == 1 then ws[0]
    else ws[0] + sep + Join(ws[1..], sep)
  }

  /** The characters of `s` that are not whitespace, in order. */
  function NonWhitespace(s: string): (r: string)
    ensures forall i | 0 <= i < |r| :: !IsWhitespace(r[i])
  {
    if |s| == 0 then ""
    else (if IsWhitespace(s[0]) then "" else [s[0]]) + NonWhitespace(s[1..])
  }

  function Concat(ws: seq<string>): string {
    if |ws| == 0 then "" else ws[0] + Concat(ws[1..])
  }

  lemma {:induction false} NonWhitespaceAppend(a: string, b: string)
    ensures NonWhitespace(a + b) == NonWhitespace(a) + NonWhitespace(b)
  {
    if |a| > 0 {
      assert (a + b)[1..] == a[1..] + b;
      NonWhitespaceAppend(a[1..], b);
    } else {
      assert a + b == b;
    }
  }

  lemma {:induction false} NonWhitespaceOfWord(w: string)
    requires forall i | 0 <= i < |w| :: !IsWhitespace(w[i])
    ensures NonWhitespace(w) == w
  {
    if |w| > 0 {
      NonWhitespaceOfWord(w[1..]);
      assert w == [w[0]] + w[1..];
    }
  }

  /** Splitting loses only the whitespace: the words, run together, are the non-whitespace characters. */
  lemma {:induction false} SplitWhitespaceKeepsText(s: string)
    ensures Concat(SplitWhitespace(s)) == NonWhitespace(s)
    decreases |s|
  {
    if |s| > 0 {
      if IsWhitespace(s[0]) {
        SplitWhitespaceKeepsText(s[1..]);
      } else {
        var n := WordLen(s);
        SplitWhitespaceKeepsText(s[n..]);
        assert s == s[..n] + s[n..];
        NonWhitespaceAppend(s[..n], s[n..]);
        NonWhitespaceOfWord(s[..n]);
        assert SplitWhitespace(s) == [s[..n]] + SplitWhitespace(s[n..]);
      }
    }
  }

  lemma {:induction false} WordLenOfWord(w: string, rest: string)
    requires IsWord(w)
    requires |rest| == 0 || IsWhitespace(rest[0])
    ensures WordLen(w + rest) == |w|
    decreases |w|
  {
    var s := w + rest;
    assert s[0] == w[0];
    if |w| > 1 {
      assert s[1..] == w[1..] + rest;
      WordLenOfWord(w[1..], rest);
    } else {
      assert s[1..] == rest;
    }
  }

  lemma SplitWord(w: string, rest: string)
    requires IsWord(w)
    requires |rest| == 0 || IsWhitespace(rest[0])
    ensures SplitWhitespace(w + rest) == [w] + SplitWhitespace(rest)
  {
    WordLenOfWord(w, rest);
    var s := w + rest;
    assert s[..|w|] == w && s[|w|..] == rest;
  }

  /** Splitting one space-joined list of words gives the words back. */
  lemma {:induction false} SplitJoin(ws: seq<string>)
    requires forall k | 0 <= k < |ws| :: IsWord(ws[k])
    ensures SplitWhitespace(Join(ws, " ")) == ws
    decreases |ws|
  {
    if |ws| == 1 {
      SplitWord(ws[0], "");
      assert ws[0] + "" == ws[0];
    } else if |ws| > 1 {
      var rest := Join(ws[1..], " ");
      SplitJoin(ws[1..]);
      assert ws[0] + " " + rest == ws[0] + (" " + rest);
      SplitWord(ws[0], " " + rest);
      assert (" " + rest)[1..] == rest;
    }
  }

  /** A space-joined list of words neither starts nor ends with whitespace and holds no newline. */
  lemma {:induction false} JoinWordsEdges(ws: seq<string>)
    requires |ws| > 0 && forall k | 0 <= k < |ws| :: IsWord(ws[k])
    ensures var t := Join(ws, " "); |t| > 0 && !IsWhitespace(t[0]) && !IsWhitespace(t[|t| - 1])
    ensures forall i | 0 <= i < |Join(ws, " ")| :: Join(ws, " ")[i] != '\n'
    decreases |ws|
  {
    if |ws| > 1 {
      JoinWordsEdges(ws[1..]);
      var t := Join(ws, " ");
      var rest := Join(ws[1..], " ");
      assert t == ws[0] + " " + rest;
      forall i | 0 <= i < |t| ensures t[i] != '\n' {
        if i < |ws[0]| {
          assert t[i] == ws[0][i];
        } else if i > |ws[0]| {
          assert t[i] == rest[i - |ws[0]| - 1];
        }
      }
    }
  }

  /**
    `str::lines`: the text split at each '\n', a '\r' just before a '\n'
    dropped with it, and no empty line after a final '\n'.
  */
  function Lines(s: string): (r: seq<string>)
    ensures |s| == 0 <==> |r| == 0
    decreases |s|
  {
    if |s| == 0 then []
    else
      var n := LineLen(s);
      if n == |s| then [s]
      else
        var line := if n > 0 && s[n - 1] == '\r' then s[..n - 1] else s[..n];
        [line] + Lines(s[n + 1..])
  }

  /** The length of the leading run of characters other than '\n'. */
  function LineLen(s: string): (n: nat)
    ensures n <= |s|
    ensures forall i | 0 <= i < n :: s[i] != '\n'
    ensures n < |s| ==> s[n] == '\n'
  {
    if |s| == 0 || s[0] == '\n' then 0 else 1 + LineLen(s[1..])
  }

  lemma {:induction false} LineLenOfLine(t: string, rest: string)
    requires forall i | 0 <= i < |t| :: t[i] != '\n'
    requires |rest| == 0 || rest[0] == '\n'
    ensures LineLen(t + rest) == |t|
    decreases |t|
  {
    var s := t + rest;
    if |t| > 0 {
      assert s[0] == t[0];
      assert s[1..] == t[1..] + rest;
      LineLenOfLine(t[1..], rest);
    } else {
      assert s == rest;
    }
  }

  /** A line without '\n' that does not end in '\r', followed by a newline, is split off whole. */
  lemma LinesCons(t: string, rest: string)
    requires forall i | 0 <= i < |t| :: t[i] != '\n'
    requires |t| == 0 || t[|t| - 1] != '\r'
    ensures Lines(t + "\n" + rest) == [t] + Lines(rest)
  {
    var s := t + "\n" + rest;
    assert s == t + ("\n" + rest);
    LineLenOfLine(t, "\n" + rest);
    assert s[..|t|] == t;
    assert s[|t| + 1..] == rest;
  }

  lemma LinesLast(t: string)
    requires |t| > 0 && forall i | 0 <= i < |t| :: t[i] != '\n'
    ensures Lines(t) == [t]
  {
    LineLenOfLine(t, "");
    assert t + "" == t;
  }

  /** `String`'s order: lexicographic by character, which is the byte order of UTF-8. */
  predicate StrLe(a: string, b: string)
    decreases |a|
  {
    |a| == 0 || (|b| > 0 && (a[0] < b[0] || (a[0] == b[0] && StrLe(a[1..], b[1..]))))
  }

  lemma {:induction false} StrLeRefl(a: string)
    ensures StrLe(a, a)
    decreases |a|
  {
    if |a| > 0 {
      StrLeRefl(a[1..]);
    }
  }

  lemma {:induction false} StrLeTotal(a: string, b: string)
    ensures StrLe(a, b) || StrLe(b, a)
    decreases |a|
  {
    if |a| > 0 && |b| > 0 && a[0] == b[0] {
      StrLeTotal(a[1..], b[1..]);
    }
  }

  lemma {:induction false} StrLeAntisymmetric(a: string, b: string)
    requires StrLe(a, b) && StrLe(b, a)
    ensures a == b
    decreases |a|
  {
    if |a| > 0 {
      StrLeAntisymmetric(a[1..], b[1..]);
      assert a == [a[0]] + a[1..] && b == [b[0]] + b[1..];
    }
  }

  lemma {:induction false} StrLeTransitive(a: string, b: string, c: string)
    requires StrLe(a, b) && StrLe(b, c)
    ensures StrLe(a, c)
    decreases |a|
  {
    if |a| > 0 && a[0] == b[0] && b[0] == c[0] {
      StrLeTransitive(a[1..], b[1..], c[1..]);
    }
  }

  predicate Sorted(s: seq<string>) {
    forall i, j | 0 <= i < j < |s| :: StrLe(s[i], s[j])
  }

  /** `x` placed before the first element it does not exceed. */
  function InsertSorted(x: string, s: seq<string>): (r: seq<string>)
    requires Sorted(s)
    ensures Sorted(r)
    ensures multiset(r) == multiset(s) + multiset{x}
    decreases |s|
  {
    if |s| == 0 then [x]
    else if StrLe(x, s[0]) then
      BelowHead(x, s);
      [x] + s
    else
      StrLeTotal(x, s[0]);
      var rest := InsertSorted(x, s[1..]);
      HeadBelowRest(x, s, rest);
      [s[0]] + rest
  }

  /** What does not exceed the head of a sorted list goes in front of it. */
  lemma BelowHead(x: string, s: seq<string>)
    requires Sorted(s) && |s| > 0 && StrLe(x, s[0])
    ensures Sorted([x] + s) && multiset([x] + s) == multiset(s) + multiset{x}
  {
    var r := [x] + s;
    forall j | 0 <= j < |s| ensures StrLe(x, s[j]) {
      if j > 0 { StrLeTransitive(x, s[0], s[j]); }
    }
    forall i, j | 0 <= i < j < |r| ensures StrLe(r[i], r[j]) {
      assert r[j] == s[j - 1];
      if i > 0 { assert r[i] == s[i - 1]; }
    }
  }

  /** The head of a sorted list goes in front of the rest with `x` inserted, when `x` is not below it. */
  lemma HeadBelowRest(x: string, s: seq<string>, rest: seq<string>)
    requires Sorted(s) && |s| > 0 && StrLe(s[0], x)
    requires Sorted(rest) && multiset(rest) == multiset(s[1..]) + multiset{x}
    ensures Sorted([s[0]] + rest) && multiset([s[0]] + rest) == multiset(s) + multiset{x}
  {
    assert s == [s[0]] + s[1..];
    var r := [s[0]] + rest;
    HeadBelowAll(x, s, rest);
    forall i, j | 0 <= i < j < |r| ensures StrLe(r[i], r[j]) {
      assert r[j] == rest[j - 1];
      if i > 0 { assert r[i] == rest[i - 1]; }
    }
  }

  lemma HeadBelowAll(x: string, s: seq<string>, rest: seq<string>)
    requires Sorted(s) && |s| > 0 && StrLe(s[0], x)
    requires multiset(rest) == multiset(s[1..]) + multiset{x}
    ensures forall j | 0 <= j < |rest| :: StrLe(s[0], rest[j])
  {
    forall j | 0 <= j < |rest| ensures StrLe(s[0], rest[j]) {
      assert rest[j] in multiset(rest);
      if rest[j] != x {
        assert rest[j] in multiset(s[1..]);
        var k :| 0 <= k < |s[1..]| && s[1..][k] == rest[j];
        assert s[k + 1] == rest[j];
      }
    }
  }

  /** `Vec::sort` on strings: the words in ascending order, as a permutation of the input. */
  function Sort(s: seq<string>): (r: seq<string>)
    ensures Sorted(r)
    ensures multiset(r) == multiset(s)
    decreases |s|
  {
    if |s| == 0 then []
    else
      assert s == [s[0]] + s[1..];
      InsertSorted(s[0], Sort(s[1..]))
  }

  /** There is only one sorted arrangement of a multiset of strings, so any sort agrees with `Sort`. */
  lemma {:induction false} SortedPermutationUnique(a: seq<string>, b: seq<string>)
    requires Sorted(a) && Sorted(b) && multiset(a) == multiset(b)
    ensures a == b
    decreases |a|
  {
    if |a| > 0 {
      assert |b| == |multiset(b)| == |a|;
      SameHead(a, b);
      TailsAgree(a, b);
      SortedPermutationUnique(a[1..], b[1..]);
      assert a == [a[0]] + a[1..] && b == [b[0]] + b[1..];
    }
  }

  /** Two sorted arrangements of one multiset start alike. */
  lemma SameHead(a: seq<string>, b: seq<string>)
    requires Sorted(a) && Sorted(b) && multiset(a) == multiset(b) && |a| > 0 && |b| > 0
    ensures a[0] == b[0]
  {
    assert a[0] in multiset(b) && b[0] in multiset(a);
    var i :| 0 <= i < |b| && b[i] == a[0];
    var j :| 0 <= j < |a| && a[j] == b[0];
    StrLeRefl(a[0]);
    StrLeRefl(b[0]);
    assert StrLe(b[0], b[i]);
    assert StrLe(a[0], a[j]);
    StrLeAntisymmetric(a[0], b[0]);
  }

  /** Their tails are again sorted arrangements of one multiset. */
  lemma TailsAgree(a: seq<string>, b: seq<string>)
    requires Sorted(a) && Sorted(b) && multiset(a) == multiset(b) && |a| > 0 && |b| > 0 && a[0] == b[0]
    ensures Sorted(a[1..]) && Sorted(b[1..]) && multiset(a[1..]) == multiset(b[1..])
  {
    assert a == [a[0]] + a[1..] && b == [b[0]] + b[1..];
    assert multiset(a[1..]) == multiset(a) - multiset{a[0]};
    assert multiset(b[1..]) == multiset(b) - multiset{b[0]};
  }
}

=== FILE: world.dfy ===
/**
  The behaviour scheduler of src/engine/world.rs, at its one instantiation
  `World<Object, GameState>`.  A behaviour is a pure step over the registry's
  element slice and the game state; creations and removals it requests are
  buffered in the state and committed by `Logic` only.
*/
module Scheduler {
  import opened Wrappers
  import opened IdMaps
  import opened Game

  /** A behaviour's `handle_objects`, run over `elems_mut()` and the state. */
  type Behavior = (seq<Object>, GameState) -> (seq<Object>, GameState)

  /** The default `check_object` accepts every object. */
  function DefaultCheckObject(o: Object): (r: bool)
    ensures r
  {
    true
  }

  /** A behaviour never changes which id sits in which slot (ids are private to the registry). */
  ghost predicate KeepsIds(b: Behavior) {
    forall objs: seq<Object>, st: GameState :: SameIds(objs, b(objs, st).0)
  }

  datatype World = World(
    objects: IdMap<Object>,
    logicBehaviors: seq<Behavior>,
    inputBehaviors: seq<Behavior>,
    drawBehaviors: seq<Behavior>,
    state: GameState)

  /** `World::new`: an empty registry and no behaviours. */
  function NewWorld(st: GameState): (w: World)
    ensures Valid(w.objects, GetId) && Contents(w.objects) == map[]
    ensures w.logicBehaviors == [] && w.inputBehaviors == [] && w.drawBehaviors == []
    ensures w.state == st
  {
    World(Empty(GetId), [], [], [], st)
  }

  /** `add_logic_behavior`: registration appends, so registration order is pipeline order. */
  function AddLogicBehavior(w: World, b: Behavior): (r: World)
    ensures r.logicBehaviors == w.logicBehaviors + [b]
    ensures r.objects == w.objects && r.inputBehaviors == w.inputBehaviors
    ensures r.drawBehaviors == w.drawBehaviors && r.state == w.state
  {
    w.(logicBehaviors := w.logicBehaviors + [b])
  }

  function AddInputBehavior(w: World, b: Behavior): (r: World)
    ensures r.inputBehaviors == w.inputBehaviors + [b]
    ensures r.objects == w.objects && r.logicBehaviors == w.logicBehaviors
    ensures r.drawBehaviors == w.drawBehaviors && r.state == w.state
  {
    w.(inputBehaviors := w.inputBehaviors + [b])
  }

  function AddDrawBehavior(w: World, b: Behavior): (r: World)
    ensures r.drawBehaviors == w.drawBehaviors + [b]
    ensures r.objects == w.objects && r.logicBehaviors == w.logicBehaviors
    ensures r.inputBehaviors == w.inputBehaviors && r.state == w.state
  {
    w.(drawBehaviors := w.drawBehaviors + [b])
  }

  /** Consecutive `add_logic_behavior` calls, one per behaviour of `bs`, in order. */
  function AddLogicBehaviors(w: World, bs: seq<Behavior>): (r: World)
    ensures r.logicBehaviors == w.logicBehaviors + bs
    ensures r.objects == w.objects && r.inputBehaviors == w.inputBehaviors
    ensures r.drawBehaviors == w.drawBehaviors && r.state == w.state
    decreases |bs|
  {
    if |bs| == 0 then w
    else
      var r := AddLogicBehaviors(AddLogicBehavior(w, bs[0]), bs[1..]);
      assert w.logicBehaviors + [bs[0]] + bs[1..] == w.logicBehaviors + bs;
      r
  }

  /** Consecutive `add_input_behavior` calls, one per behaviour of `bs`, in order. */
  function AddInputBehaviors(w: World, bs: seq<Behavior>): (r: World)
    ensures r.inputBehaviors == w.inputBehaviors + bs
    ensures r.objects == w.objects && r.logicBehaviors == w.logicBehaviors
    ensures r.drawBehaviors == w.drawBehaviors && r.state == w.state
    decreases |bs|
  {
    if |bs| == 0 then w
    else
      var r := AddInputBehaviors(AddInputBehavior(w, bs[0]), bs[1..]);
      assert w.inputBehaviors + [bs[0]] + bs[1..] == w.inputBehaviors + bs;
      r
  }

  /** Each behaviour in turn, the next one seeing what the previous one left. */
  function RunPipeline(bs: seq<Behavior>, objs: seq<Object>, st: GameState): (seq<Object>, GameState)
    decreases |bs|
  {
    if |bs| == 0 then (objs, st)
    else
      var (objs1, st1) := bs[0](objs, st);
      RunPipeline(bs[1..], objs1, st1)
  }

  /** Running `a ++ b` is running `a` and then `b` on its result: registration order is execution order. */
  lemma {:induction false} PipelineSplit(a: seq<Behavior>, b: seq<Behavior>, objs: seq<Object>, st: GameState)
    ensures RunPipeline(a + b, objs, st) == RunPipeline(b, RunPipeline(a, objs, st).0, RunPipeline(a, objs, st).1)
    decreases |a|
  {
    if |a| > 0 {
      var (objs1, st1) := a[0](objs, st);
      assert (a + b)[1..] == a[1..] + b;
      PipelineSplit(a[1..], b, objs1, st1);
    } else {
      assert a + b == b;
    }
  }

  /** The last registered behaviour runs once, on the output of all the others. */
  lemma PipelineLast(bs: seq<Behavior>, b: Behavior, objs: seq<Object>, st: GameState)
    ensures var (o, s) := RunPipeline(bs, objs, st);
      RunPipeline(bs + [b], objs, st) == b(o, s)
  {
    PipelineSplit(bs, [b], objs, st);
  }

  /** A pipeline of id-keeping behaviours keeps the ids. */
  lemma {:induction false} PipelineKeepsIds(bs: seq<Behavior>, objs: seq<Object>, st: GameState)
    requires forall i | 0 <= i < |bs| :: KeepsIds(bs[i])
    ensures SameIds(objs, RunPipeline(bs, objs, st).0)
    decreases |bs|
  {
    if |bs| > 0 {
      var (objs1, st1) := bs[0](objs, st);
      assert KeepsIds(bs[0]);
      assert SameIds(objs, objs1);
      PipelineKeepsIds(bs[1..], objs1, st1);
    }
  }

  /** The registry after the behaviours have written through `elems_mut`. */
  function WithElems(m: IdMap<Object>, elems: seq<Object>): IdMap<Object> {
    IdMap(elems, m.idToIdx)
  }

  lemma WithElemsValid(m: IdMap<Object>, elems: seq<Object>)
    requires Valid(m, GetId) && SameIds(m.elems, elems)
    ensures Valid(WithElems(m, elems), GetId)
    ensures Contents(WithElems(m, elems)).Keys == Contents(m).Keys
  {
    assert forall i | 0 <= i < |elems| :: GetId(elems[i]) == GetId(m.elems[i]);
  }

  /** The pending objects can all be inserted: positive ids, none live, no two alike. */
  ghost predicate Admissible(live: set<nat>, news: seq<Object>) {
    && (forall i | 0 <= i < |news| :: news[i].id > 0 && news[i].id !in live)
    && (forall i, j | 0 <= i < j < |news| :: news[i].id != news[j].id)
  }

  /** The abstract contents after inserting `news` one after another. */
  ghost function Overlay(c: map<nat, Object>, news: seq<Object>): map<nat, Object>
    decreases |news|
  {
    if |news| == 0 then c else Overlay(c[news[0].id := news[0]], news[1..])
  }

  /** The ids of the pending objects. */
  function NewIds(news: seq<Object>): set<nat> {
    set i | 0 <= i < |news| :: news[i].id
  }

  lemma NewIdsFirst(news: seq<Object>)
    requires |news| > 0
    ensures NewIds(news) == {news[0].id} + NewIds(news[1..])
  {
    forall id | id in NewIds(news) ensures id in {news[0].id} + NewIds(news[1..]) {
      var i :| 0 <= i < |news| && news[i].id == id;
      if i > 0 { assert news[1..][i - 1].id == id; }
    }
    forall id | id in NewIds(news[1..]) ensures id in NewIds(news) {
      var i :| 0 <= i < |news[1..]| && news[1..][i].id == id;
      assert news[i + 1].id == id;
    }
  }

  /** Inserting the pending objects adds exactly their ids to the live ones. */
  lemma {:induction false} OverlayKeys(c: map<nat, Object>, news: seq<Object>)
    ensures Overlay(c, news).Keys == c.Keys + NewIds(news)
    decreases |news|
  {
    if |news| > 0 {
      OverlayKeys(c[news[0].id := news[0]], news[1..]);
      NewIdsFirst(news);
    }
  }

  /** With distinct ids every pending object is found under its own id; older entries not overwritten survive. */
  lemma {:induction false} OverlayFinds(c: map<nat, Object>, news: seq<Object>)
    requires forall i, j | 0 <= i < j < |news| :: news[i].id != news[j].id
    ensures forall i | 0 <= i < |news| :: news[i].id in Overlay(c, news) && Overlay(c, news)[news[i].id] == news[i]
    ensures forall id | id in c && (forall i | 0 <= i < |news| :: news[i].id != id) ::
      id in Overlay(c, news) && Overlay(c, news)[id] == c[id]
    decreases |news|
  {
    if |news| > 0 {
      var c1 := c[news[0].id := news[0]];
      OverlayFinds(c1, news[1..]);
      assert forall i | 1 <= i < |news| :: news[1..][i - 1] == news[i];
      assert forall i | 1 <= i < |news| :: news[i].id != news[0].id;
    }
  }

  /** Inserting the head of an admissible queue leaves an admissible tail, and conversely. */
  lemma AdmissibleStep(live: set<nat>, news: seq<Object>)
    requires |news| > 0 && news[0].id > 0 && news[0].id !in live
    ensures Admissible(live, news) <==> Admissible(live + {news[0].id}, news[1..])
  {
    assert forall i | 1 <= i < |news| :: news[1..][i - 1] == news[i];
    if Admissible(live + {news[0].id}, news[1..]) {
      forall i, j | 0 <= i < j < |news| ensures news[i].id != news[j].id {
        if i > 0 {
          assert news[1..][i - 1].id != news[1..][j - 1].id;
        } else {
          assert news[1..][j - 1].id !in live + {news[0].id};
        }
      }
    }
  }

  /** The first drain of `logic`: every pending object inserted, in queue order; `None` when an insertion would panic. */
  function InsertAll(m: IdMap<Object>, news: seq<Object>): (r: Option<IdMap<Object>>)
    requires Valid(m, GetId)
    ensures r.Some? ==> Valid(r.value, GetId)
    decreases |news|
  {
    if |news| == 0 then Some(m)
    else if news[0].id == 0 || news[0].id in m.idToIdx then None
    else InsertAll(Insert(m, GetId, news[0]), news[1..])
  }

  lemma InsertKeys(m: IdMap<Object>, e: Object)
    requires Valid(m, GetId)
    requires e.id > 0 && e.id !in m.idToIdx
    ensures Contents(Insert(m, GetId, e)).Keys == Contents(m).Keys + {e.id}
  {
    var c := Contents(m);
    assert Contents(Insert(m, GetId, e)) == c[e.id := e];
  }

  /** The insertions succeed exactly when the queue is admissible. */
  lemma {:induction false} InsertAllSucceedsIff(m: IdMap<Object>, news: seq<Object>)
    requires Valid(m, GetId)
    ensures InsertAll(m, news).Some? <==> Admissible(Contents(m).Keys, news)
    decreases |news|
  {
    LiveIdsAreElementIds(m, GetId);
    if |news| > 0 && news[0].id != 0 && news[0].id !in m.idToIdx {
      var m1 := Insert(m, GetId, news[0]);
      InsertKeys(m, news[0]);
      AdmissibleStep(Contents(m).Keys, news);
      InsertAllSucceedsIff(m1, news[1..]);
    }
  }

  /** After the insertions the pending objects follow the old elements, in queue order. */
  lemma {:induction false} InsertAllAppends(m: IdMap<Object>, news: seq<Object>)
    requires Valid(m, GetId)
    ensures InsertAll(m, news).Some? ==> InsertAll(m, news).value.elems == m.elems + news
    decreases |news|
  {
    if |news| > 0 && news[0].id != 0 && news[0].id !in m.idToIdx {
      var m1 := Insert(m, GetId, news[0]);
      InsertAllAppends(m1, news[1..]);
      AppendRest(m.elems, news, m1.elems);
    }
  }

  lemma AppendRest<T>(s: seq<T>, news: seq<T>, s1: seq<T>)
    requires |news| > 0 && s1 == s + [news[0]]
    ensures s1 + news[1..] == s + news
  {
    assert news == [news[0]] + news[1..];
  }

  /** After the insertions every pending object resolves under its id, over the old contents. */
  lemma {:induction false} InsertAllContents(m: IdMap<Object>, news: seq<Object>)
    requires Valid(m, GetId)
    ensures InsertAll(m, news).Some? ==> Contents(InsertAll(m, news).value) == Overlay(Contents(m), news)
    decreases |news|
  {
    if |news| > 0 && news[0].id != 0 && news[0].id !in m.idToIdx {
      var m1 := Insert(m, GetId, news[0]);
      InsertAllContents(m1, news[1..]);
    }
  }

  lemma MapMinusStep<K, V>(c: map<K, V>, a: set<K>, id: K)
    ensures (c - a) - {id} == c - (a + {id})
    ensures id !in c ==> c - a == c - (a + {id})
  {
  }

  /** The second drain of `logic`: each queued id that is still live is removed; the others are skipped. */
  method RemoveAll(m: IdMap<Object>, ids: set<nat>) returns (r: IdMap<Object>)
    requires Valid(m, GetId)
    ensures Valid(r, GetId)
    ensures Contents(r) == Contents(m) - ids
  {
    r := m;
    var rest := ids;
    while rest != {}
      invariant Valid(r, GetId)
      invariant rest <= ids
      invariant Contents(r) == Contents(m) - (ids - rest)
      decreases rest
    {
      var id :| id in rest;
      ghost var before := Contents(r);
      if Get(r, GetId, id).Some? {
        r := Remove(r, GetId, id);
        assert Contents(r) == before - {id};
      } else {
        assert id !in Contents(m) - (ids - rest);
      }
      MapMinusStep(Contents(m), ids - rest, id);
      assert ids - (rest - {id}) == (ids - rest) + {id};
      rest := rest - {id};
    }
  }

  /**
    `World::logic`: every logic behaviour once, in registration order; then the
    pending objects are inserted in queue order, then the queued ids are
    removed.  `None` is the source's panic on an insertion its assertions reject.
  */
  method Logic(w: World) returns (r: Option<World>)
    requires Valid(w.objects, GetId)
    requires forall i | 0 <= i < |w.logicBehaviors| :: KeepsIds(w.logicBehaviors[i])
    ensures var (objs, st) := RunPipeline(w.logicBehaviors, w.objects.elems, w.state);
      var staged := WithElems(w.objects, objs);
      && (r.Some? <==> Admissible(Contents(staged).Keys, st.newObjects))
      && (r.Some? ==> Valid(r.value.objects, GetId))
      && (r.Some? ==> Contents(r.value.objects) == Overlay(Contents(staged), st.newObjects) - st.idsToRemove)
      && (r.Some? ==> r.value.state == st.(newObjects := [], idsToRemove := {}))
      && (r.Some? ==> forall id | id in st.idsToRemove :: id !in Contents(r.value.objects))
      && (r.Some? ==> forall i | 0 <= i < |st.newObjects| && st.newObjects[i].id !in st.idsToRemove ::
            st.newObjects[i].id in Contents(r.value.objects) && Contents(r.value.objects)[st.newObjects[i].id] == st.newObjects[i])
      && (r.Some? ==> r.value.logicBehaviors == w.logicBehaviors && r.value.inputBehaviors == w.inputBehaviors
                      && r.value.drawBehaviors == w.drawBehaviors)
  {
    var (objs, st) := RunPipeline(w.logicBehaviors, w.objects.elems, w.state);
    PipelineKeepsIds(w.logicBehaviors, w.objects.elems, w.state);
    var staged := WithElems(w.objects, objs);
    WithElemsValid(w.objects, objs);
    var inserted := InsertAll(staged, st.newObjects);
    InsertAllSucceedsIff(staged, st.newObjects);
    InsertAllAppends(staged, st.newObjects);
    InsertAllContents(staged, st.newObjects);
    if inserted.None? {
      return None;
    }
    OverlayFinds(Contents(staged), st.newObjects);
    var removed := RemoveAll(inserted.value, st.idsToRemove);
    r := Some(w.(objects := removed, state := st.(newObjects := [], idsToRemove := {})));
  }

  /** The behaviours of a pipeline run without committing anything. */
  function RunUncommitted(w: World, bs: seq<Behavior>): (r: World)
    requires Valid(w.objects, GetId)
    requires forall i | 0 <= i < |bs| :: KeepsIds(bs[i])
    ensures Valid(r.objects, GetId)
    ensures r.objects.idToIdx == w.objects.idToIdx
    ensures Contents(r.objects).Keys == Contents(w.objects).Keys
    ensures r.state == RunPipeline(bs, w.objects.elems, w.state).1
    ensures r.logicBehaviors == w.logicBehaviors && r.inputBehaviors == w.inputBehaviors
    ensures r.drawBehaviors == w.drawBehaviors
  {
    var (objs, st) := RunPipeline(bs, w.objects.elems, w.state);
    PipelineKeepsIds(bs, w.objects.elems, w.state);
    WithElemsValid(w.objects, objs);
    w.(objects := WithElems(w.objects, objs), state := st)
  }

  /**
    `World::input`: the input behaviours in order; the set of live ids does not
    change and pending creations and removals stay pending.
  */
  function Input(w: World): (r: World)
    requires Valid(w.objects, GetId)
    requires forall i | 0 <= i < |w.inputBehaviors| :: KeepsIds(w.inputBehaviors[i])
    ensures Valid(r.objects, GetId)
    ensures Contents(r.objects).Keys == Contents(w.objects).Keys
    ensures r.state.newObjects == RunPipeline(w.inputBehaviors, w.objects.elems, w.state).1.newObjects
    ensures r.state.idsToRemove == RunPipeline(w.inputBehaviors, w.objects.elems, w.state).1.idsToRemove
  {
    RunUncommitted(w, w.inputBehaviors)
  }

  /** `World::draw`: like `input`, over the draw behaviours. */
  function Draw(w: World): (r: World)
    requires Valid(w.objects, GetId)
    requires forall i | 0 <= i < |w.drawBehaviors| :: KeepsIds(w.drawBehaviors[i])
    ensures Valid(r.objects, GetId)
    ensures Contents(r.objects).Keys == Contents(w.objects).Keys
    ensures r.state.newObjects == RunPipeline(w.drawBehaviors, w.objects.elems, w.state).1.newObjects
    ensures r.state.idsToRemove == RunPipeline(w.drawBehaviors, w.objects.elems, w.state).1.idsToRemove
  {
    RunUncommitted(w, w.drawBehaviors)
  }
}

=== FILE: wrappers.dfy ===
/** Failure-compatible wrappers shared by every module of the model. */
module Wrappers {

  /** Rust's `Option<T>`. */
  datatype Option<+T> = None | Some(value: T) {

    /** Rust's `unwrap_or`. */
    function UnwrapOr(default: T): T {
      match this
      case Some(v) => v
      case None => default
    }
  }

  /** A result that is either a value or the reason the source would panic. */
  datatype Result<+T, +E> = Ok(value: T) | Err(error: E)
}
